=== FILE: README.md ===
# Mastonaut core, modelled in Dafny

Mastonaut is a macOS client for Mastodon. This project models the parts of its
code that are sequential logic with rules you can state. Each module follows one
source component:

- **Streaming listener** (`EventStream`, `StreamPayload`, `EventsListener`).
  - `RemoteEventStream` maps a stream to its name and query items.
  - The `{event, payload}` envelope is decoded into a `ClientEvent`.
  - The listener is a state record driven by one step function per transport
    event or timer firing. Its state is the connected flag, `isReconnecting`,
    the backoff delay, `lastResolvedURL`, pending reconnects, and the two-stage
    watchdog: a 60 s release timer, then a 5 s bark timer.
  - A step yields the next state and the socket actions and connection
    callbacks it makes. A data frame also yields the delegate call its
    payload decodes to.
  - The backoff delay is counted in half seconds: the source's 0.5 s doubling
    to 15 s becomes 1 doubling to 30.
- **Status resolver** (`Resolver`).
  - A primary search that falls back once after a 404.
  - The `resolverFuture` bookkeeping.
  - The single-shot account resolve.
- **Enum string codecs**:
  - `ColumnModes` and `SidebarModes`: raw values, parsing, `==` and `<`.
  - `NotificationTypes`: the total raw-value parser and its Codable.
  - `MediaAttachments`: accessors, the data URI, Codable and the multipart form part.
  - `HttpMethods`: verb names, payload routing and Codable.
  - `RequestRanges`: cursor parameters.
  - `MKResults`: accessors.
- **Request builders and validators**:
  - `StatusRequests`: `create`/`edit` bodies, paths and actions.
  - `PollServices`: vote validation and error mapping.
  - `UserNotifications`: notification text, the user-info payload, and the badge counter.
  - `Models`: the required/optional decoding policy of `Status` and `Account`.
  - `AppRegistration`: the cache-or-register rule over a keychain map.
  - `AppDelegates`: the OAuth grant callback, window choice and readiness.
  - `Composer`: the composer's Return key and selection splice with undo.

Shared helpers live in three modules:

- `Wrappers`: `Option` and `Result`.
- `Text`: Swift's omitting `split`, `URL.pathComponents`, decimal `String(Int)`,
  UTF-8 and lexicographic string order.
- `Json`: a JSON value and the `decode`/`decodeIfPresent` rules of `Decodable`.

Code the model cannot see becomes a function parameter:

- base64, the UUID codec and the URL parser;
- the inner decoders of `Status` and `MKNotification`;
- `localizedDescription`, `ellipsedPrefix` and the limit transform of `RequestRange`;
- the multipart boundary;
- validity oracles for dates, URLs and nested models.

Each such function appears only as an argument, and a round-trip lemma takes its
inverse property as a precondition.

## Model

| member | source | states |
|---|---|---|
| EventStream.MakeQueryItems | Mastonaut/Networking/RemoteEventsListener.swift:239-257 | the items start with `access_token` then `stream=name`; hashtag streams add exactly one `tag` item, a list stream adds exactly one `list` item, and the others add nothing |
| EventStream.Name | Mastonaut/Networking/RemoteEventsListener.swift:227-237 | user, public, public:local, hashtag, hashtag:local, list and direct, each naming exactly its own variant |
| EventStream.QueryItemsRoundTrip | Mastonaut/Networking/RemoteEventsListener.swift:227-257 | the stream can be read back from its query items, so no two streams share a query |
| EventStream.NameIdentifiesVariant | Mastonaut/Networking/RemoteEventsListener.swift:227-237 | two streams have the same name exactly when they are the same variant: the seven names are distinct |
| EventStream.StreamSpecificParameter | Mastonaut/Networking/RemoteEventsListener.swift:239-257 | a `tag` item is present iff the stream is a hashtag stream; a `list` item is present iff it is a list stream |
| StreamPayload.ParseEventType | Mastonaut/Networking/RemoteEventsListener.swift:265-295 | only the four event names are recognised, and each parses to the tag that prints back as that name |
| StreamPayload.ParsedEvent | Mastonaut/Networking/RemoteEventsListener.swift:264-287 | an unknown event name gives `unknownEventType`; update, notification or delete without a payload gives `missingPayload`; delete keeps the payload verbatim; `filters_changed` succeeds with or without a payload |
| StreamPayload.EnvelopeRoundTrip | Mastonaut/Networking/RemoteEventsListener.swift:264-287 | when the inner decoders invert their encoders, every client event decodes back from its envelope |
| StreamPayload.HandleFrame | Mastonaut/Networking/RemoteEventsListener.swift:144-155 | an empty frame produces no delegate call; a non-empty frame produces exactly one, `didHandleEvent` iff both the envelope and the event decode, otherwise `parserProducedError` |
| StreamPayload.TextHeartbeat | Mastonaut/Networking/RemoteEventsListener.swift:144-176 | a text frame is a heartbeat exactly when the text is empty |
| EventsListener.MakeConfig | Mastonaut/Networking/RemoteEventsListener.swift:56-61 | the socket endpoint ends in `/api/v1/streaming` and the access token is kept |
| EventsListener.ResetReconnectState | Mastonaut/Networking/RemoteEventsListener.swift:112-115 | the delay is back to 0.5 s and the flag cleared; nothing else changes, and the invariant survives |
| EventsListener.ResetWatchdog | Mastonaut/Networking/RemoteEventsListener.swift:117-122 | both watchdog timers are cancelled and one release is pending; nothing else changes, and the invariant survives while a socket exists |
| EventsListener.Initial | Mastonaut/Networking/RemoteEventsListener.swift:41-48 | the fresh listener satisfies the invariant, with a delay of half a second |
| EventsListener.Doubled | Mastonaut/Networking/RemoteEventsListener.swift:171 | from a reachable delay the result is `min(2d, 30)` half-seconds: never smaller, and again a reachable delay |
| EventsListener.SetResolvedSocketUrl | Mastonaut/Networking/RemoteEventsListener.swift:76-86 | the old socket is closed with 1005 only when connected; the new URL is always recorded and opened; nothing else changes |
| EventsListener.SetStream | Mastonaut/Networking/RemoteEventsListener.swift:70-74 | the resolved URL is the streaming endpoint with the stream's query items, and it is opened |
| EventsListener.Disconnect | Mastonaut/Networking/RemoteEventsListener.swift:88-115 | the socket is closed with 1000, the delay resets and `isReconnecting` clears; nothing else changes, the watchdog timers included |
| EventsListener.PerformReconnect | Mastonaut/Networking/RemoteEventsListener.swift:101-110 | nothing happens without a resolved URL or while reconnecting; otherwise `isReconnecting` is set and exactly one reconnect to `lastResolvedURL` is scheduled at the current delay |
| EventsListener.ReconnectFired | Mastonaut/Networking/RemoteEventsListener.swift:106-109 | any pending reconnect may fire, not only the oldest; it leaves the queue, re-resolves to the URL it captured (a stale one re-opens its old URL), and a timer that is not pending changes nothing |
| EventsListener.ReleaseFired | Mastonaut/Networking/RemoteEventsListener.swift:124-130 | the release replaces itself by one bark timer and sends one ping when a socket exists |
| EventsListener.BarkFired | Mastonaut/Networking/RemoteEventsListener.swift:132-136 | the bark closes the socket with `noStatusReceived` (1005) |
| EventsListener.OnTransport | Mastonaut/Networking/RemoteEventsListener.swift:158-204 | per event: connect resets backoff and watchdog; disconnect doubles the delay up to the cap and clears `isReconnecting`; text and binary frames reset backoff and watchdog whatever they parse to, and hand the delegate exactly the call the frame decodes to; only frames make such a call; pong resets the watchdog; cancel and error drop the connected flag |
| EventsListener.Next | Mastonaut/Networking/RemoteEventsListener.swift:70-204 | only a text or binary frame reaches the delegate, and only `reconnect()` and a reconnect timer touch the pending reconnects |
| EventsListener.DoubledStaysInRange | Mastonaut/Networking/RemoteEventsListener.swift:47-171 | from a reachable delay, doubling stays within [0.5 s, 15 s] and the cap is a fixed point |
| EventsListener.NextPreservesInv | Mastonaut/Networking/RemoteEventsListener.swift:47-190 | every step keeps the invariant: the delay is reachable, at most one watchdog timer is pending, timers imply a socket, and the socket is the last resolved URL |
| EventsListener.LivenessResetsWatchdog | Mastonaut/Networking/RemoteEventsListener.swift:117-190 | connect, text, binary and pong leave only the 60 s release pending |
| EventsListener.WatchdogCycle | Mastonaut/Networking/RemoteEventsListener.swift:117-136 | after a reset, the release sends a ping and arms the bark; the bark then closes with 1005 and leaves nothing pending |
| EventsListener.ReconnectIdempotent | Mastonaut/Networking/RemoteEventsListener.swift:93-110 | a second reconnect request before the first fires does nothing |
| EventsListener.RepeatedReconnectSchedulesOnce | Mastonaut/Networking/RemoteEventsListener.swift:93-110 | any number of reconnect requests schedules exactly one reconnect |
| EventsListener.StaysPut | Mastonaut/Networking/RemoteEventsListener.swift:102-104 | while reconnecting, repeated requests leave the state unchanged |
| EventsListener.BackoffAfterDisconnects | Mastonaut/Networking/RemoteEventsListener.swift:47-172 | after k disconnects from a reset delay, the delay is min(2^k, 30) half seconds |
| EventsListener.DisconnectsFrom | Mastonaut/Networking/RemoteEventsListener.swift:167-172 | from any reachable delay d, k disconnects give min(d·2^k, 30) |
| EventsListener.FramesResetBackoff | Mastonaut/Networking/RemoteEventsListener.swift:174-184 | every text or binary frame resets the delay and clears `isReconnecting` |
| Resolver.SearchFor | CoreTootin/Services/ResolverService.swift:63-68 | the primary search is a limit-1 resolving search, the fallback is the fallback search, and both query the uri |
| Resolver.Initial | CoreTootin/Services/ResolverService.swift:25-27 | the service starts idle and satisfies the invariant |
| Resolver.IsResolving | CoreTootin/Services/ResolverService.swift:27 | resolving exactly while a future is set, and under the invariant that future is one of the issued searches |
| Resolver.Start | CoreTootin/Services/ResolverService.swift:59-70 | the previous future's task is cancelled only if it has not completed; a new task is appended and becomes the future |
| Resolver.ResolveStatus | CoreTootin/Services/ResolverService.swift:27-36 | the public entry starts the primary search (limit 1, resolve) and `isResolving` becomes true |
| Resolver.Complete | CoreTootin/Services/ResolverService.swift:70-85 | the completed search is marked done and no other task changes, except that a 404 on the primary cancels the current uncompleted future and appends exactly one fallback for the same uri and caller; a non-empty result delivers the first status and clears the future; anything else delivers `notFound` and clears the future |
| Resolver.ResolveStatusPreservesInv | CoreTootin/Services/ResolverService.swift:33-70 | starting a new call keeps the invariant: the future is a real task, and two tasks of one call are a completed primary and its fallback |
| Resolver.CompletePreservesInv | CoreTootin/Services/ResolverService.swift:70-85 | a completion keeps the same invariant |
| Resolver.AtMostTwoSearchesPerCall | CoreTootin/Services/ResolverService.swift:73-77 | no call issues three searches |
| Resolver.FallbackNotRetried | CoreTootin/Services/ResolverService.swift:73-83 | a 404 on the fallback starts no new search, delivers `notFound` and clears the future |
| Resolver.AccountSearchFor | CoreTootin/Services/ResolverService.swift:41-42 | the account search queries the account uri with limit 1 |
| Resolver.ResolveAccount | CoreTootin/Services/ResolverService.swift:42-56 | a first account gives success, an empty list gives `noResults` for the uri, and a failure gives `networkError` with its description |
| ColumnModes.RawValue | Mastonaut/Models/ColumnMode.swift:29-52 | a raw value starts with `tag:` exactly for tags, followed by the tag name |
| ColumnModes.PlainMode | Mastonaut/Models/ColumnMode.swift:106-124 | a plain string parses to a non-tag mode whose raw value is that string |
| ColumnModes.ParseAsWritten | Mastonaut/Models/ColumnMode.swift:106-133 | the parser as written traps on exactly `tag:`, returns nil iff no case matches, and drops the character after `tag:` from a tag name |
| ColumnModes.Parse | Mastonaut/Models/ColumnMode.swift:106-133 | corrected parser: nil iff no case matches, and any parse prints back to its input |
| ColumnModes.PlainNotTagged | Mastonaut/Models/ColumnMode.swift:29-124 | the six plain cases parse back from their raw values |
| ColumnModes.ParseRawValue | Mastonaut/Models/ColumnMode.swift:29-133 | corrected parser: every mode round-trips through its raw value, tags included |
| ColumnModes.RawValueInjective | Mastonaut/Models/ColumnMode.swift:29-52 | distinct modes have distinct raw values |
| ColumnModes.AsWrittenPlainRoundTrip | Mastonaut/Models/ColumnMode.swift:106-124 | as written, the six plain cases round-trip |
| ColumnModes.AsWrittenTagDropsCharacter | Mastonaut/Models/ColumnMode.swift:126-128 | as written, `tag:` plus a name parses to the name without its first character, and an empty name traps |
| ColumnModes.AsWrittenTagCounterexample | Mastonaut/Models/ColumnMode.swift:126-128 | `tag:abc` parses to the tag `bc` |
| ColumnModes.Weight | Mastonaut/Models/ColumnMode.swift:136-159 | weights run from -6 (bookmarks) to -1 (notifications) and 0 belongs to tags alone |
| ColumnModes.EqAsWritten | Mastonaut/Models/ColumnMode.swift:213-228 | as written, `==` implies equality, holds for equal modes other than favourites and bookmarks, and never holds for those two |
| ColumnModes.Eq | Mastonaut/Models/ColumnMode.swift:213-228 | with the two missing cases, `==` is exactly structural equality |
| ColumnModes.Less | Mastonaut/Models/ColumnMode.swift:230-242 | a smaller weight always sorts first, two modes that are not both tags are ordered by weight alone, and two tags are ordered by their names |
| ColumnModes.WeightOrder | Mastonaut/Models/ColumnMode.swift:136-159 | bookmarks < favourites < timeline < local < public < notifications < tag, and only tags share a weight |
| ColumnModes.EqAsWrittenMeaning | Mastonaut/Models/ColumnMode.swift:213-228 | as written, `==` is equality except that favourites and bookmarks are unequal to themselves |
| ColumnModes.EqIsEquality | Mastonaut/Models/ColumnMode.swift:213-228 | corrected `==` is exactly structural equality |
| ColumnModes.LessIrreflexive | Mastonaut/Models/ColumnMode.swift:230-242 | no mode is less than itself |
| ColumnModes.LessTransitive | Mastonaut/Models/ColumnMode.swift:230-242 | `<` is transitive, comparing weight and then tag name |
| ColumnModes.LessTotal | Mastonaut/Models/ColumnMode.swift:230-242 | any two distinct modes are ordered one way or the other |
| ColumnModes.AllItems | Mastonaut/Models/ColumnMode.swift:209-211 | six entries, all non-tag, pairwise distinct, and every non-tag mode is among them |
| SidebarModes.ProfileFromUri | Mastonaut/Models/SidebarMode.swift:51-53 | `profile(uri:)` carries the uri and no account |
| SidebarModes.RawValue | Mastonaut/Models/SidebarMode.swift:32-49 | favorites is the only raw value without a newline; profile, tag and status write their head, a newline and then exactly the uri or tag; edits writes `edits`, a newline and then the status id, or nothing when there is no status |
| SidebarModes.Eq | Mastonaut/Models/SidebarMode.swift:100-114 | `==` holds exactly when both sides have the same kind and key; favorites and edits have no key |
| SidebarModes.Parse | Mastonaut/Models/SidebarMode.swift:55-72 | the newline split decides: two parts headed `profile`, `tag` or `status` give that mode keyed by the second part, the single part `favorites` gives favorites (so `favorites` with a trailing newline parses too), and nothing else parses; parsed models carry no account or status, and never `edits` |
| SidebarModes.ParsedPrintsBack | Mastonaut/Models/SidebarMode.swift:32-72 | whatever parses prints back to a string with the same newline-separated parts |
| SidebarModes.EqMeansSameKey | Mastonaut/Models/SidebarMode.swift:100-114 | `==` compares only the uri or tag; favorites and edits are not equal even to themselves |
| SidebarModes.ParseRawValue | Mastonaut/Models/SidebarMode.swift:32-114 | profile, tag and status round-trip up to `==` when the key is non-empty and has no newline |
| SidebarModes.EmptyKeyDoesNotParse | Mastonaut/Models/SidebarMode.swift:32-72 | an empty uri or tag does not parse back, since the split drops the empty part |
| SidebarModes.FavoritesRoundTrip | Mastonaut/Models/SidebarMode.swift:43-68 | `favorites` round-trips |
| SidebarModes.EditsNeverParse | Mastonaut/Models/SidebarMode.swift:46-72 | the `edits` raw value never parses |
| NotificationTypes.Known | Dependencies/MastodonKit/Models/NotificationType.swift:59-76 | each of `mention`, `reblog`, `favourite`, `bookmark`, `follow` and `poll` maps to its own case and no other string maps to that case; every other string gives nil, and `other` is never produced |
| NotificationTypes.RawValue | Dependencies/MastodonKit/Models/NotificationType.swift:108-131 | a known kind prints a string that reads back as that kind; `other` prints its stored string |
| NotificationTypes.FromRaw | Dependencies/MastodonKit/Models/NotificationType.swift:57-80 | the parser never fails; unknown strings become `other` holding the string |
| NotificationTypes.Decode | Dependencies/MastodonKit/Models/NotificationType.swift:31-55 | decoding succeeds exactly for a JSON string |
| NotificationTypes.Encode | Dependencies/MastodonKit/Models/NotificationType.swift:82-106 | encoding writes a single string |
| NotificationTypes.RawValueOfParse | Dependencies/MastodonKit/Models/NotificationType.swift:57-131 | parsing then printing gives back every string |
| NotificationTypes.CodableAgreesWithRawValue | Dependencies/MastodonKit/Models/NotificationType.swift:31-131 | the decoder agrees with the raw-value parser and the encoder writes the raw value |
| NotificationTypes.ParseOfRawValue | Dependencies/MastodonKit/Models/NotificationType.swift:57-131 | printing then parsing is the identity exactly for types that are not `other` holding a known string |
| NotificationTypes.DecodeEncode | Dependencies/MastodonKit/Models/NotificationType.swift:31-106 | decoding an encoded type equals parsing its raw value |
| NotificationTypes.OtherPollReparsesAsPoll | Dependencies/MastodonKit/Models/NotificationType.swift:49-129 | `other("poll")` comes back as `poll` |
| MediaAttachments.Data | Dependencies/MastodonKit/Sources/MastodonKit/MediaAttachment.swift:23-30 | every case returns its wrapped payload |
| MediaAttachments.FileName | Dependencies/MastodonKit/Sources/MastodonKit/MediaAttachment.swift:32-39 | jpeg, gif and png give `file.jpg`, `file.gif` and `file.png`; `other` gives `file.` and its stored extension |
| MediaAttachments.MimeType | Dependencies/MastodonKit/Sources/MastodonKit/MediaAttachment.swift:41-48 | jpeg, gif and png give `image/jpg`, `image/gif` and `image/png`; `other` gives its stored mime |
| MediaAttachments.ImageNamesAgree | Dependencies/MastodonKit/Sources/MastodonKit/MediaAttachment.swift:32-48 | for an image the file extension equals the mime subtype, and two images share a mime type exactly when they are the same kind |
| MediaAttachments.Base64EncodedString | Dependencies/MastodonKit/Sources/MastodonKit/MediaAttachment.swift:50-52 | nil exactly when there is no data; otherwise it starts `data:<mime>;base64,` (section 3 of RFC 2397) |
| MediaAttachments.ParseDataUri | Dependencies/MastodonKit/Sources/MastodonKit/MediaAttachment.swift:50-52 | a parsed data URI is rebuilt exactly from its mime and body |
| MediaAttachments.DataUriRoundTrip | Dependencies/MastodonKit/Sources/MastodonKit/MediaAttachment.swift:50-52 | the data URI yields the mime and, through base64 decoding, the original data |
| MediaAttachments.Encode | Dependencies/MastodonKit/Sources/MastodonKit/MediaAttachment.swift:75-97 | the object holds the type tag, `data` iff there is data, and `mimeType` exactly for `other` |
| MediaAttachments.DecodeDataIfPresent | Dependencies/MastodonKit/Sources/MastodonKit/MediaAttachment.swift:61-65 | an absent or null `data` decodes to nil, and present data is the base64 decoding of the string |
| MediaAttachments.Decode | Dependencies/MastodonKit/Sources/MastodonKit/MediaAttachment.swift:56-73 | a non-object fails; a decoded attachment matches the tag and the data it was read from |
| MediaAttachments.DecodeEncode | Dependencies/MastodonKit/Sources/MastodonKit/MediaAttachment.swift:56-97 | encoding then decoding returns the same case, data, extension and mime |
| MediaAttachments.UnknownTagFails | Dependencies/MastodonKit/Sources/MastodonKit/MediaAttachment.swift:68-71 | an unknown type tag fails with that tag |
| MediaAttachments.ApplyingCarriageReturnsAppend | Dependencies/MastodonKit/Sources/MastodonKit/MediaAttachment.swift:119-125 | line-ending conversion distributes over concatenation |
| MediaAttachments.ApplyingCarriageReturns | Dependencies/MastodonKit/Sources/MastodonKit/MediaAttachment.swift:119-125 | the result is never shorter, and every line feed in it follows a carriage return |
| MediaAttachments.HeaderLines | Dependencies/MastodonKit/Sources/MastodonKit/MediaAttachment.swift:119-125 | the header text opens with the boundary line and ends with a blank line |
| MediaAttachments.FormItemValue | Dependencies/MastodonKit/Sources/MastodonKit/MediaAttachment.swift:112-136 | nil without an attachment or data; otherwise exactly the UTF-8 header, then the data, then CRLF |
| MediaAttachments.NoLineFeedUnchanged | Dependencies/MastodonKit/Sources/MastodonKit/MediaAttachment.swift:119-125 | text without a line feed is unchanged by the conversion |
| MediaAttachments.EndsWithBlankLine | Dependencies/MastodonKit/Sources/MastodonKit/MediaAttachment.swift:119-125 | the converted header ends in a blank CRLF line |
| MediaAttachments.StartsWithLine | Dependencies/MastodonKit/Sources/MastodonKit/MediaAttachment.swift:119-125 | the converted header's first line ends in CRLF |
| MediaAttachments.PartHeaderShape | Dependencies/MastodonKit/Sources/MastodonKit/MediaAttachment.swift:119-125 | the part header opens with `--boundary` CRLF and ends with an empty line (section 4.1 of RFC 7578) |
| HttpMethods.NameDistinguishesVerbs | Dependencies/MastodonKit/Sources/MastodonKit/HTTPMethod.swift:20-28 | equal names mean the same verb |
| HttpMethods.Name | Dependencies/MastodonKit/Sources/MastodonKit/HTTPMethod.swift:20-28 | GET, POST, PUT, PATCH and DELETE, each naming exactly its own verb |
| HttpMethods.QueryItems | Dependencies/MastodonKit/Sources/MastodonKit/HTTPMethod.swift:30-35 | query items come from the payload only for GET, and are nil otherwise |
| HttpMethods.HttpBody | Dependencies/MastodonKit/Sources/MastodonKit/HTTPMethod.swift:37-45 | the body is nil for GET and the payload's data for the four other verbs |
| HttpMethods.ContentType | Dependencies/MastodonKit/Sources/MastodonKit/HTTPMethod.swift:47-55 | the content type is nil for GET and the payload's for the four other verbs |
| HttpMethods.PayloadRoutedOnce | Dependencies/MastodonKit/Sources/MastodonKit/HTTPMethod.swift:30-55 | a payload goes either into the query or into the body, never both |
| HttpMethods.Encode | Dependencies/MastodonKit/Sources/MastodonKit/HTTPMethod.swift:59-101 | the object has exactly the keys `type` (the lowercase verb) and `payload` |
| HttpMethods.Decode | Dependencies/MastodonKit/Sources/MastodonKit/HTTPMethod.swift:59-101 | a non-object fails; a decoded verb matches its tag and its payload decodes from `payload` |
| HttpMethods.DecodeEncode | Dependencies/MastodonKit/Sources/MastodonKit/HTTPMethod.swift:59-101 | encode and decode round-trip when the payload codec does |
| HttpMethods.UnknownTagFails | Dependencies/MastodonKit/Sources/MastodonKit/HTTPMethod.swift:74-77 | an unknown tag fails with that tag |
| RequestRanges.Id | Dependencies/MastodonKit/RequestRange.swift:23-31 | an id is present exactly for max, min and since, and is the stored id |
| RequestRanges.Parameters | Dependencies/MastodonKit/RequestRange.swift:35-57 | default gives nil; limit gives one `limit` item holding f(n); a cursor gives its `*_id` verbatim, then a `limit` item that is empty iff no limit was given |
| RequestRanges.ParametersRoundTrip | Dependencies/MastodonKit/RequestRange.swift:35-57 | the range, with f applied to its limit only and never to the id, reads back from its parameters |
| RequestRanges.ParametersInjective | Dependencies/MastodonKit/RequestRange.swift:35-57 | with the identity limit, different ranges give different parameters |
| MKResults.Value | Dependencies/MastodonKit/MKResult.swift:18-23 | the value is the model for success and nil for failure |
| MKResults.Pagination | Dependencies/MastodonKit/MKResult.swift:26-31 | the success's pagination, nil for failure |
| MKResults.Error | Dependencies/MastodonKit/MKResult.swift:34-39 | the wrapped error for failure, nil for success |
| MKResults.IsError | Dependencies/MastodonKit/MKResult.swift:42-47 | a result is an error exactly when `error` is set, and exactly when `value` is not |
| MKResults.AccessorsDetermineResult | Dependencies/MastodonKit/MKResult.swift:18-47 | `isError` iff failure, and the accessors rebuild the result |
| StatusRequests.StatusById | Dependencies/MastodonKit/Requests/Statuses.swift:17-19 | a plain GET on `/api/v1/statuses/` followed by the id |
| StatusRequests.Context | Dependencies/MastodonKit/Requests/Statuses.swift:25-27 | a GET with no parameters on the status path plus `/context` |
| StatusRequests.History | Dependencies/MastodonKit/Requests/Statuses.swift:33-35 | a GET with no parameters on the status path plus `/history` |
| StatusRequests.Card | Dependencies/MastodonKit/Requests/Statuses.swift:41-43 | a GET with no parameters on the status path plus `/card` |
| StatusRequests.RebloggedBy | Dependencies/MastodonKit/Requests/Statuses.swift:51-56 | a GET on the status path plus `/reblogged_by` whose parameters read back as the range, with the limit adjusted as the range adjusts it |
| StatusRequests.FavouritedBy | Dependencies/MastodonKit/Requests/Statuses.swift:64-69 | a GET on the status path plus `/favourited_by` whose parameters read back as the range, with the limit adjusted as the range adjusts it |
| StatusRequests.ListRequestsShareQuery | Dependencies/MastodonKit/Requests/Statuses.swift:51-69 | boosters and favouriters of one status are asked for with the same verb and parameters, on different paths |
| StatusRequests.StatusPathsDistinct | Dependencies/MastodonKit/Requests/Statuses.swift:17-69 | the status, context, history, card, reblogged-by and favourited-by paths of one status are pairwise distinct |
| StatusRequests.DeleteStatus | Dependencies/MastodonKit/Requests/Statuses.swift:17-122 | DELETE with an empty body on the status's own path |
| StatusRequests.SharedBody | Dependencies/MastodonKit/Requests/Statuses.swift:84-110 | `status` is always present; `sensitive` only when true; `spoiler_text` and `poll` iff given; `media_ids` iff non-empty; no other key |
| StatusRequests.Create | Dependencies/MastodonKit/Requests/Statuses.swift:81-92 | a JSON POST to /api/v1/statuses that always has `status` and `visibility`, with the optional keys under the same rules plus `in_reply_to_id` iff given |
| StatusRequests.Edit | Dependencies/MastodonKit/Requests/Statuses.swift:104-113 | a JSON PUT to the status path, never with `visibility` or `in_reply_to_id`, and with no key outside `status`, `sensitive`, `spoiler_text`, `media_ids` and `poll` |
| StatusRequests.EditBodyRoundTrip | Dependencies/MastodonKit/Requests/Statuses.swift:104-113 | an edit body applied to a status replaces its text, media, spoiler, poll and `sensitive` (nil and false coinciding) with the new arguments and keeps its reply target and visibility |
| StatusRequests.StringsOfStrings | Dependencies/MastodonKit/Requests/Statuses.swift:86 | the media id array reads back as the ids |
| StatusRequests.CreateBodyRoundTrip | Dependencies/MastodonKit/Requests/Statuses.swift:81-92 | the arguments read back from the body, up to `sensitive: false` equalling nil and an empty id list |
| StatusRequests.ActionRequest | Dependencies/MastodonKit/Requests/Statuses.swift:128-202 | each action is a POST with an empty body to the status path plus `/action` |
| StatusRequests.Undo | Dependencies/MastodonKit/Requests/Statuses.swift:128-202 | every action has an inverse action |
| StatusRequests.ActionNames | Dependencies/MastodonKit/Requests/Statuses.swift:128-202 | an inverse is named `un` plus the action, and the action names are distinct |
| PollServices.VoteRequest | Mastonaut/Services/PollService.swift:27-33 | no options, or several on a single-choice poll, fail with `invalidOptionsCount` and send nothing; otherwise one vote carries the poll id and the options |
| PollServices.ResultOf | Mastonaut/Services/PollService.swift:36-45 | success passes the model through; `badStatus(n)` becomes `Bad Status: n`; other errors carry their description |
| PollServices.PollRequest | Mastonaut/Services/PollService.swift:49-63 | a fetch of the given poll id |
| PollServices.BadStatusMessageInjective | Mastonaut/Services/PollService.swift:36-45 | different status codes give different error messages |
| UserNotifications.ShowDetails | Mastonaut/UserNotifications/UserNotificationTool.swift:68-74 | always shows, never hides, and when-clean follows `isClean` |
| UserNotifications.ParseReference | Mastonaut/UserNotifications/UserNotificationTool.swift:166-169 | a parsed reference prints back to the string |
| UserNotifications.Compose | Mastonaut/UserNotifications/UserNotificationTool.swift:67-116 | only mention, reblog, favourite, follow and poll post; each kind has its own title, "<actor> mentioned you", "boosted your post", "favorited your post", "followed you" or "A poll has ended", with the actor "A user" when details are hidden; the message is the spoiler when details are hidden; a follow shows the ellipsized account note only with details; the subtitle names the receiver |
| UserNotifications.TitleNamesKind | Mastonaut/UserNotifications/UserNotificationTool.swift:88-105 | the title of a posted notification alone tells which kind it announces |
| UserNotifications.PayloadFor | Mastonaut/UserNotifications/UserNotificationTool.swift:108-114 | the payload refers to the status by its resolvable uri when present, and otherwise to the account by acct |
| UserNotifications.SetPayload | Mastonaut/UserNotifications/UserNotificationTool.swift:131-145 | setting writes or removes only the payload key |
| UserNotifications.GetPayload | Mastonaut/UserNotifications/UserNotificationTool.swift:123-128 | a payload is read only when all three entries are present and well-formed |
| UserNotifications.PayloadRoundTrip | Mastonaut/UserNotifications/UserNotificationTool.swift:123-150 | what is set is what is read back, nil included |
| UserNotifications.MissingEntryReadsNil | Mastonaut/UserNotifications/UserNotificationTool.swift:123-126 | a missing entry reads as nil |
| UserNotifications.UpdateCount | Mastonaut/UserNotifications/UserNotificationTool.swift:40-48 | inactive, the count grows by `count`; active, it becomes 0 |
| UserNotifications.ResetCount | Mastonaut/UserNotifications/UserNotificationTool.swift:118-120 | reset sets the count to 0 |
| UserNotifications.BadgeLabel | Mastonaut/UserNotifications/UserNotificationTool.swift:27-34 | the badge is nil exactly when the count is 0 |
| UserNotifications.BadgeShowsCount | Mastonaut/UserNotifications/UserNotificationTool.swift:27-34 | a non-zero badge reads back as the count |
| UserNotifications.BackgroundPostingsCount | Mastonaut/UserNotifications/UserNotificationTool.swift:40-48 | n postings while inactive add n |
| Models.DefaultAccount | Dependencies/MastodonKit/Models/Account.swift:19-93 | `init()` gives empty strings, zero counts, the placeholder url, unlocked, no emojis and nil optionals |
| Models.DecodeAccount | Dependencies/MastodonKit/Models/Account.swift:98-139 | succeeds iff the nine required keys are present and well-typed; required fields hold their wire values; each of avatar, avatar_static, header, header_static, bot, fields and source holds its wire value when usable and is nil otherwise; emojis default to empty, locked to false, url to the placeholder, and moved holds the nested account only when it decodes |
| Models.AccountFailure | Dependencies/MastodonKit/Models/Account.swift:98-124 | a failure names a required key, as missing or malformed |
| Models.ImageURL | Dependencies/MastodonKit/Models/Account.swift:75-89 | each image URL is nil when its string is nil and otherwise is exactly what parsing that string yields |
| Models.DecodeStatus | Dependencies/MastodonKit/Models/Status.swift:88-148 | succeeds iff the twelve required keys are present and well-typed; required fields hold their wire values; each optional field, including in_reply_to_id, sensitive and pinned, holds its wire value when usable and is nil otherwise (tags default to empty); the account falls back to the default account, and reblog holds the nested status only when it decodes |
| Models.StatusFromRequiredOnly | Dependencies/MastodonKit/Models/Status.swift:88-148 | an object with only the required keys decodes to a status built from those keys, with every optional field absent, no tags and the default account |
| Models.StatusFailure | Dependencies/MastodonKit/Models/Status.swift:88-122 | a failure names a required key, as missing or malformed |
| Models.MarkAsPinned | Dependencies/MastodonKit/Models/Status.swift:158-160 | `pinned` becomes true and nothing else changes |
| Models.StatusOptionalKeysNeverFail | Dependencies/MastodonKit/Models/Status.swift:90-147 | whether a status decodes depends only on its required keys |
| Models.AccountOptionalKeysNeverFail | Dependencies/MastodonKit/Models/Account.swift:98-139 | whether an account decodes depends only on its required keys |
| Models.AccountFromRequiredOnly | Dependencies/MastodonKit/Models/Account.swift:19-139 | from only the required keys, the account is the default with those fields filled in |
| Models.MovedFailureContained | Dependencies/MastodonKit/Models/Account.swift:125-127 | a bad nested `moved` leaves it nil without failing the account |
| Models.ReblogFailureContained | Dependencies/MastodonKit/Models/Status.swift:133-135 | a missing or bad nested `reblog` leaves it nil without failing the status |
| AppRegistration.LookupRegistration | CoreTootin/Agents/AppRegistrationAgent.swift:95-110 | a registration is found iff the query works and the stored one is not stale; a stale one is deleted if the delete works; nothing else changes |
| AppRegistration.RedirectUri | CoreTootin/Agents/AppRegistrationAgent.swift:54-56 | the `mastonaut-auth://oauth/grant/` prefix, the domain, then `/code/`, with the domain recoverable from between them |
| AppRegistration.RegistrationRequest | CoreTootin/Agents/AppRegistrationAgent.swift:54-66 | `https://` plus the domain, client name Mastonaut, redirect `mastonaut-auth://oauth/grant/<domain>/code/`, scopes read, write, push and follow |
| AppRegistration.ClientAppRegistration | CoreTootin/Agents/AppRegistrationAgent.swift:29-75 | a usable cached registration is returned without a request or a store; otherwise one request is made; success is stored under the domain and returned; failure becomes `restError` and stores nothing |
| AppRegistration.StoredRegistrationIsReused | CoreTootin/Agents/AppRegistrationAgent.swift:29-48 | after a successful registration and store, the next call returns it without a request |
| AppRegistration.OtherDomainsUntouched | CoreTootin/Agents/AppRegistrationAgent.swift:29-125 | registering one domain never changes another domain's entry |
| AppDelegates.FirstCode | Mastonaut/Application/AppDelegate.swift:397 | the code is the value of the first `code` query item, and none when that item has no value |
| AppDelegates.GrantOf | Mastonaut/Application/AppDelegate.swift:397-401 | a URL is a grant only with more than three path components, `grant` at [1] and `code` at [3]; the domain is [2] and the code is the first `code` item |
| AppDelegates.GrantOfAccepted | Mastonaut/Application/AppDelegate.swift:397-401 | a URL yields a grant exactly when its path is `/grant/<domain>/code` and it has a `code` query item, whatever its scheme and host |
| AppDelegates.OpenUrls | Mastonaut/Application/AppDelegate.swift:395-403 | the first accepted URL wins; nothing is processed if none is accepted |
| AppDelegates.Callback | CoreTootin/Agents/AppRegistrationAgent.swift:54-56 | the callback URL, without its query, is the redirect URI |
| AppDelegates.GrantPathComponents | Mastonaut/Application/AppDelegate.swift:397 | the redirect path splits into `/`, `grant`, domain and `code` |
| AppDelegates.CallbackAccepted | Mastonaut/Application/AppDelegate.swift:397-401 | the redirect built at registration, with a code, is accepted and yields that domain and code |
| AppDelegates.BestWindow | Mastonaut/Application/AppDelegate.swift:200-205 | among windows with the account and a notifications column, one with the highest `orderedIndex`; nil iff there is none |
| AppDelegates.WillPresent | Mastonaut/Application/AppDelegate.swift:169-181 | a banner iff there is a payload and no suitable window |
| AppDelegates.ModeFor | Mastonaut/Application/AppDelegate.swift:187-190 | an account reference opens the profile, and a status reference opens the thread with no status |
| AppDelegates.ModeForRoundTrip | Mastonaut/Application/AppDelegate.swift:187-190 | the chosen sidebar mode survives its raw-value round trip |
| AppDelegates.UpdateAppIsReady | Mastonaut/Application/AppDelegate.swift:443-447 | readiness becomes accounts-updated and caches-loaded, and is stored only when it changes |
| AppDelegates.UpdateAppIsReadySettles | Mastonaut/Application/AppDelegate.swift:443-447 | a second update stores nothing |
| Composer.ApplyTypingAttributes | CoreTootin/Controls/BaseComposerTextView.swift:61-65 | characters and length are kept; every character gets the typing attributes and keeps its other ones |
| Composer.Replace | CoreTootin/Controls/BaseComposerTextView.swift:57 | the text before and after the range is kept, and the range holds the new text |
| Composer.InsertAttributedString | CoreTootin/Controls/BaseComposerTextView.swift:44-59 | without text storage nothing changes; otherwise the selection is replaced by the attributed string, and an undo replacing the inserted range with the old selection is registered |
| Composer.UndoRestores | CoreTootin/Controls/BaseComposerTextView.swift:49-57 | undoing an insertion restores the original text |
| Composer.Undo | CoreTootin/Controls/BaseComposerTextView.swift:49-54 | with no undo or no text nothing changes; otherwise the latest undo, when its range lies within the text, replaces that range with its saved text and leaves the stack; when the range lies outside the text, nothing changes |
| Composer.InsertionPlacesCharacters | CoreTootin/Controls/BaseComposerTextView.swift:47-57 | the inserted characters sit at the selection |
| Composer.ReturnKey | CoreTootin/Controls/BaseComposerTextView.swift:30-42 | with the suggestion window visible, Return inserts the suggestion; otherwise two newlines when double newlines are on, else one |
| Composer.AfterReturn | CoreTootin/Controls/BaseComposerTextView.swift:30-42 | Return replaces the selection with one newline, or two when double newlines are on, and keeps the text on both sides |

## Left out

- Networking, WebSocket I/O, dispatch queues, timers and wall-clock time. Timers are pending entries fired by explicit inputs; `reconnect()`'s hop to the main queue is folded into `PerformReconnect`.
- Floating-point `TimeInterval`: the backoff delay is in integer half-second units.
- `JSONDecoder`, `DateFormatter`, base64, `UUID`, `URL`/`URLComponents` parsing of the scheme, host and query, `ellipsedPrefix` and localisation: each is a function parameter or an uninterpreted value. The one exception is `URL.pathComponents`, which `Text.PathComponents` models as a plain split on `/`. The localised `noResults` message is represented by the account uri it is built from.
- The inner decoding of `Status` and `MKNotification` inside the stream payload: an opaque partial decoder.
- Nested models (emoji, mention, attachment, card, application, poll, source, fields) are not decoded; a validity oracle stands in for their decoders.
- `Request`'s default method is unseen: a request built with only a path is assumed to be `GET` with an empty payload.
- `Payload`'s own encoding is unseen: `HttpMethods` takes it as a view of three functions and a codec with an inverse property.
- The multipart boundary (`Payload.formBoundary`) is a parameter; `applyingCarriageReturns` is assumed to turn each line feed into CRLF.
- AppKit views, windows, menus, the dock tile, Core Data, the keychain API and `UNUserNotificationCenter`. The keychain is a map, and its failures are explicit flags.
- `AppDelegates.BestWindow`: when several windows share the highest `orderedIndex`, the model picks the earliest; the source takes the first element after `sorted(by:)`, whose order among equal keys it does not rely on.
- `AppDelegates.FirstCode`: `URLComponents` is assumed to have split the query already.
- `Composer.ReturnKey`: inserting the selected suggestion goes to the suggestion controller, which is not part of this model; `Composer.InsertAttributedString` does not model the selection after the edit or `didChangeText`.
- `Composer.Undo`: only the text effect of the registered undo is modelled, not redo. When the saved range lies outside the current text, the source's `replaceCharacters` raises `NSRangeException` after the undo manager has already popped the action; the model leaves the editor, stack included, unchanged instead of modelling the exception.
- `ColumnModes.Less` and `Text.StringLess`: Swift compares strings by Unicode canonical equivalence; the model compares characters lexicographically.
- `ColumnModes.ParseAsWritten`: a model character is one Unicode scalar, but Swift's `index(after:)` steps over a whole grapheme cluster. For `tag:e\u{301}x` the source drops the cluster `e\u{301}` and yields `x`; the model drops only `e` and yields `\u{301}x`. The off-by-one finding holds either way.
- `ColumnModes.Parse`: the `tag:` prefix test and the six plain names compare scalars exactly, where Swift's `hasPrefix` and `==` use canonical equivalence; a precomposed and a decomposed spelling of the same text are one string to the source and two to the model.
- `SidebarModes.Parse`: `"\r\n"` is a single Swift `Character`, so the source's `split(separator: "\n")` does not split at a CR LF; the model splits at every line feed. Keys are also compared by scalars, not by canonical equivalence.
- `ColumnModes.Eq`, `ColumnModes.EqAsWritten` and `SidebarModes.Eq`: tag names and uris are compared scalar by scalar, where Swift's `==` on `String` uses canonical equivalence.
- `Text.IsPrefix`: models `hasPrefix` by scalar identity, not canonical equivalence.
- `AppDelegates.GrantOf`: `URL.pathComponents` percent-decodes each component, so `/grant/ex%61mple.com/code/` yields the domain `example.com` in the source and `ex%61mple.com` in the model.
- `Composer.Replace` and `Composer.InsertAttributedString`: `NSRange` counts UTF-16 code units and the model counts characters, so the two agree only on text without characters outside the Basic Multilingual Plane.
- `RequestRanges.Parameters`: `toOptionalString` is not part of this model; it is taken to be the decimal rendering of an `Int`.
- `MediaAttachments.FormItemValue`: the header is UTF-8 of the modelled string; Foundation's `Data(string.utf8)` is assumed to agree.
- `Models.MarkAsPinned`: `Status` and `Account` are Swift classes, but the model's are values. `markAsPinned()` mutates the shared object in place, so every holder of the reference sees the change; the model returns a new record, and that visibility through shared references is not modelled.
- `Resolver.Complete`: the model does not assume a cancelled task stays silent. A completion that arrives after a newer call still delivers and clears the future, as the source's callback does.
- `EventsListener.ReconnectFired`: scheduled reconnects are never cancelled, so one scheduled before a newer stream was set still fires later and re-opens the URL it captured. The model lets any pending entry fire next, since the source's timers fire by their own deadlines.
- The listener never reconnects by itself after a disconnect or a bark; reconnecting is left to its delegate, which is not part of this model.
- `EventsListener.Disconnect`: the source does not cancel the watchdog timers or a scheduled reconnect here, and neither does the model.
- PollVotingCapable, the request constant files (Notifications, DomainBlocks, Reports), logging and configuration: no branching logic.

## Findings

| source | as written | input that shows it | evidently intended | confidence | as-written member | corrected member |
|---|---|---|---|---|---|---|
| Mastonaut/Models/ColumnMode.swift:126-128 | the tag name starts one character past the end of `tag:` | `tag:abc` parses to the tag `bc`; `tag:` alone traps on an out-of-range index | the name starts right after the prefix, so `tag:abc` gives `abc` | high, not executed | ColumnModes.ParseAsWritten (ColumnModes.AsWrittenTagCounterexample) | ColumnModes.Parse (ColumnModes.ParseRawValue) |
| Mastonaut/Models/ColumnMode.swift:213-228 | `==` has no case for favourites or bookmarks and falls through to false | `favourites == favourites` is false | every mode equals itself | high, not executed | ColumnModes.EqAsWritten (ColumnModes.EqAsWrittenMeaning) | ColumnModes.Eq (ColumnModes.EqIsEquality) |

=== FILE: app_delegate.dfy ===
/** The decisions `AppDelegate` makes: accepting the OAuth grant callback,
    choosing the timelines window for a notification, what a notification
    opens, whether to show a banner, and the ready flag. Windows, menus,
    Core Data and the keychain migration are not part of this model. A URL
    is given already split into its parts, as Foundation's `URL` and
    `URLComponents` provide them. */
module AppDelegates {
  import opened Wrappers
  import opened Text
  import opened AppRegistration
  import opened SidebarModes
  import opened UserNotifications

  datatype Url = Url(scheme: string, host: string, path: string, query: Option<seq<QueryItem>>)

  /** `queryItems?.first(where: { $0.name == "code" })?.value`. */
  function FirstCode(items: seq<QueryItem>): (r: Option<string>)
    ensures r.Some? ==> exists i :: 0 <= i < |items| && items[i].name == "code" && items[i].value == r
    ensures forall i :: 0 <= i < |items| && items[i].name == "code" && (forall j :: 0 <= j < i ==> items[j].name != "code") ==>
              r == items[i].value
  {
    if |items| == 0 then None
    else if items[0].name == "code" then items[0].value
    else FirstCode(items[1..])
  }

  datatype Grant = Grant(domain: string, code: string)

  /** The shape `application(_:open:)` accepts, whatever the scheme and
      host: `/grant/<domain>/code` with a `code` query item. */
  predicate Accepted(u: Url) {
    var cs := PathComponents(u.path);
    |cs| > 3 && cs[1] == "grant" && cs[3] == "code" && u.query.Some? && FirstCode(u.query.value).Some?
  }

  /** The test `application(_:open:)` applies to one URL. */
  function GrantOf(u: Url): (r: Option<Grant>)
    ensures r.Some? ==>
      var cs := PathComponents(u.path);
      |cs| > 3 && cs[1] == "grant" && cs[3] == "code" && r.value.domain == cs[2]
    ensures r.Some? ==> u.query.Some? && FirstCode(u.query.value) == Some(r.value.code)
  {
    var cs := PathComponents(u.path);
    if |cs| > 3 && cs[1] == "grant" && cs[3] == "code" && u.query.Some? then
      match FirstCode(u.query.value)
      case Some(code) => Some(Grant(cs[2], code))
      case None => None
    else None
  }

  /** Exactly the URLs of the accepted shape yield a grant. */
  lemma GrantOfAccepted(u: Url)
    ensures GrantOf(u).Some? <==> Accepted(u)
  {
  }

  /** `application(_:open:)`: the grant of the first accepted URL. */
  function OpenUrls(urls: seq<Url>): (r: Option<Grant>)
    ensures r.None? <==> forall i :: 0 <= i < |urls| ==> GrantOf(urls[i]).None?
    ensures r.Some? ==> exists i :: 0 <= i < |urls| && GrantOf(urls[i]) == r && forall j :: 0 <= j < i ==> GrantOf(urls[j]).None?
  {
    if |urls| == 0 then None
    else if GrantOf(urls[0]).Some? then GrantOf(urls[0])
    else
      var r := OpenUrls(urls[1..]);
      assert forall i :: 1 <= i < |urls| ==> urls[i] == urls[1..][i - 1];
      r
  }

  /** The callback the authorization server makes to the registered
      redirect URI, with the grant code as its query. */
  function Callback(domain: string, code: string): (u: Url)
    ensures u.scheme + "://" + u.host + u.path == RedirectUri(domain)
  {
    Url("mastonaut-auth", "oauth", "/grant/" + domain + "/code/", Some([QueryItem("code", Some(code))]))
  }

  lemma SplitCodeSegment()
    ensures Split("code" + ['/'] + "", '/') == ["code"]
  {
    SplitCons("code", "", '/');
  }

  lemma SplitDomainSegment(domain: string)
    requires IsField(domain, '/')
    ensures Split(domain + ['/'] + ("code" + ['/'] + ""), '/') == [domain, "code"]
  {
    SplitCodeSegment();
    SplitCons(domain, "code" + ['/'] + "", '/');
  }

  lemma SplitGrantSegments(domain: string)
    requires IsField(domain, '/')
    ensures Split("grant" + ['/'] + (domain + ['/'] + ("code" + ['/'] + "")), '/') == ["grant", domain, "code"]
  {
    SplitDomainSegment(domain);
    SplitCons("grant", domain + ['/'] + ("code" + ['/'] + ""), '/');
  }

  lemma GrantPathComponents(domain: string)
    requires IsField(domain, '/')
    ensures PathComponents("/grant/" + domain + "/code/") == ["/", "grant", domain, "code"]
  {
    var path := "/grant/" + domain + "/code/";
    var whole := "grant" + ['/'] + (domain + ['/'] + ("code" + ['/'] + ""));
    assert path[1..] == whole;
    assert PathComponents(path) == ["/"] + Split(whole, '/');
    SplitGrantSegments(domain);
  }

  /** The redirect URI the registration announces comes back as a grant
      for the same instance, when the domain is a single path segment. */
  lemma CallbackAccepted(domain: string, code: string)
    requires IsField(domain, '/')
    ensures GrantOf(Callback(domain, code)) == Some(Grant(domain, code))
  {
    GrantPathComponents(domain);
  }

  // ---------------------------------------------------------------------
  // Windows

  datatype WindowInfo<U> = WindowInfo(accountUUID: Option<U>, hasNotificationsColumn: bool, orderedIndex: Option<int>)

  predicate Candidate<U(==)>(w: WindowInfo<U>, uuid: U) {
    w.accountUUID == Some(uuid) && w.hasNotificationsColumn
  }

  /** A window without an ordered index sorts as -1. */
  function Key<U>(w: WindowInfo<U>): int {
    if w.orderedIndex.Some? then w.orderedIndex.value else -1
  }

  /** `findBestTimelinesWindowController(forAccount:)`: a window of the
      account with a notifications column and the highest ordered index.
      Ties are resolved here towards the earlier window; the source's sort
      does not promise an order among them. */
  function BestWindow<U(==)>(ws: seq<WindowInfo<U>>, uuid: U): (r: Option<nat>)
    ensures r.None? <==> forall i :: 0 <= i < |ws| ==> !Candidate(ws[i], uuid)
    ensures r.Some? ==> r.value < |ws| && Candidate(ws[r.value], uuid)
    ensures r.Some? ==> forall i :: 0 <= i < |ws| && Candidate(ws[i], uuid) ==> Key(ws[i]) <= Key(ws[r.value])
    decreases |ws|
  {
    if |ws| == 0 then None
    else
      var rest := BestWindow(ws[1..], uuid);
      assert forall i :: 1 <= i < |ws| ==> ws[i] == ws[1..][i - 1];
      if !Candidate(ws[0], uuid) then
        if rest.Some? then Some(rest.value + 1) else None
      else if rest.Some? && Key(ws[rest.value + 1]) > Key(ws[0]) then Some(rest.value + 1)
      else Some(0)
  }

  datatype Presentation = NoPresentation | Banner

  /** `userNotificationCenter(_:willPresent:...)`: a banner only when the
      notification has a payload and no window of its account can show
      it. */
  function WillPresent<U(==)>(payload: Option<NotificationPayload<U>>, ws: seq<WindowInfo<U>>): (r: Presentation)
    ensures r.Banner? <==> payload.Some? && forall i :: 0 <= i < |ws| ==> !Candidate(ws[i], payload.value.accountUUID)
  {
    if payload.None? then NoPresentation
    else if BestWindow(ws, payload.value.accountUUID).None? then Banner
    else NoPresentation
  }

  /** The sidebar mode `showTimelinesWindow(for:)` opens. */
  function ModeFor<U, E>(p: NotificationPayload<U>): (m: SidebarMode<E>)
    ensures p.referenceType.AccountReference? ==> m == ProfileFromUri(p.referenceURI)
    ensures p.referenceType.StatusReference? ==> m == StatusThread(p.referenceURI, None)
  {
    match p.referenceType
    case AccountReference => ProfileFromUri(p.referenceURI)
    case StatusReference => StatusThread(p.referenceURI, None)
  }

  /** The opened mode names the notification's reference, and survives
      the sidebar's own raw-value round trip. */
  lemma ModeForRoundTrip<U, E>(p: NotificationPayload<U>)
    requires WellFormedKey(p.referenceURI)
    ensures Parse<E>(RawValue(ModeFor<U, E>(p))).Some?
    ensures Eq(Parse<E>(RawValue(ModeFor<U, E>(p))).value, ModeFor<U, E>(p))
  {
    ParseRawValue(ModeFor<U, E>(p));
  }

  // ---------------------------------------------------------------------
  // `updateAppIsReady()`

  datatype Readiness = Readiness(didUpdateAllAccounts: bool, allCachesLoaded: bool, appIsReady: bool)

  datatype ReadyUpdate = ReadyUpdate(next: Readiness, stored: bool)

  function UpdateAppIsReady(s: Readiness): (r: ReadyUpdate)
    ensures r.next.appIsReady == (s.didUpdateAllAccounts && s.allCachesLoaded)
    ensures r.next.(appIsReady := s.appIsReady) == s
    ensures r.stored <==> r.next.appIsReady != s.appIsReady
  {
    var isReady := s.didUpdateAllAccounts && s.allCachesLoaded;
    if isReady == s.appIsReady then ReadyUpdate(s, false)
    else ReadyUpdate(s.(appIsReady := isReady), true)
  }

  /** A second update right after the first assigns nothing. */
  lemma UpdateAppIsReadySettles(s: Readiness)
    ensures !UpdateAppIsReady(UpdateAppIsReady(s).next).stored
  {
  }
}

=== FILE: app_registration.dfy ===
/** `AppRegistrationAgent`: the OAuth client registration for an
    instance, reused from the keychain when usable and registered afresh
    otherwise. The keychain is a map from instance domain to registration;
    its possible failures, and the registration request's outcome, are
    parameters. */
module AppRegistration {
  import opened Wrappers
  import opened Text

  datatype ClientApplication = ClientApplication(id: string, clientID: string, clientSecret: string, redirectURI: string)

  type Keychain = map<string, ClientApplication>

  /** The keychain operations that can throw. */
  datatype KeychainFaults = KeychainFaults(queryFails: bool, deleteFails: bool, storeFails: bool)

  const Website: string := "https://www.mastonaut.app"

  /** A registration whose redirect URI points at the website is stale. */
  predicate IsStale(app: ClientApplication) {
    Contains(app.redirectURI, Website)
  }

  datatype Lookup = Lookup(keychain: Keychain, found: Option<ClientApplication>)

  /** `KeychainController.clientAppRegistration(for:)`: a failed query is
      no registration; a stale one is deleted (if the delete works) and is
      no registration either. */
  function LookupRegistration(k: Keychain, domain: string, f: KeychainFaults): (r: Lookup)
    ensures r.found.Some? <==> !f.queryFails && domain in k && !IsStale(k[domain])
    ensures r.found.Some? ==> r.found.value == k[domain] && r.keychain == k
    ensures !f.queryFails && domain in k && IsStale(k[domain]) && !f.deleteFails ==> r.keychain == k - {domain}
    ensures r.keychain == k || r.keychain == k - {domain}
  {
    if f.queryFails || domain !in k then Lookup(k, None)
    else if IsStale(k[domain]) then Lookup(if f.deleteFails then k else k - {domain}, None)
    else Lookup(k, Some(k[domain]))
  }

  datatype Scope = Read | Write | Push | Follow

  /** `Clients.register(...)` sent to a `Client(baseURL:)`. */
  datatype RegisterRequest = RegisterRequest(baseURL: string, clientName: string, redirectURI: string, scopes: seq<Scope>, website: string)

  const RedirectPrefix: string := "mastonaut-auth://oauth/grant/"
  const RedirectSuffix: string := "/code/"

  /** `redirectUri(for:)`: the app's own scheme, the grant path, the
      domain as one path segment, then `code`. */
  function RedirectUri(domain: string): (r: string)
    ensures IsPrefix(RedirectPrefix, r) && IsSuffix(RedirectSuffix, r)
    ensures |r| == |RedirectPrefix| + |domain| + |RedirectSuffix|
    ensures r[|RedirectPrefix|..|r| - |RedirectSuffix|] == domain
  {
    RedirectPrefix + domain + RedirectSuffix
  }

  /** `registerApplication(onInstance:)`'s request. */
  function RegistrationRequest(domain: string): (r: RegisterRequest)
    ensures r.baseURL == "https://" + domain && r.clientName == "Mastonaut"
    ensures r.redirectURI == RedirectUri(domain) && r.website == Website
    ensures r.scopes == [Read, Write, Push, Follow]
  {
    RegisterRequest("https://" + domain, "Mastonaut", RedirectUri(domain), [Read, Write, Push, Follow], Website)
  }

  datatype RegisterOutcome = Registered(app: ClientApplication) | RegisterFailed(description: string)

  datatype AgentError = RestError(description: string) | KeychainError | UnknownAuthorization

  datatype Registration = Registration(keychain: Keychain, request: Option<RegisterRequest>, result: Result<ClientApplication, AgentError>)

  /** `clientAppRegistration(for:completion:)`: a usable cached
      registration is returned without a request; otherwise one
      registration request is sent, and its success is stored under the
      domain before it is reported. */
  function ClientAppRegistration(k: Keychain, domain: string, f: KeychainFaults, outcome: RegisterOutcome): (r: Registration)
    ensures LookupRegistration(k, domain, f).found.Some? ==>
      r == Registration(k, None, Ok(LookupRegistration(k, domain, f).found.value))
    ensures LookupRegistration(k, domain, f).found.None? ==> r.request == Some(RegistrationRequest(domain))
    ensures LookupRegistration(k, domain, f).found.None? && outcome.Registered? ==>
      && r.result == Ok(outcome.app)
      && r.keychain == (if f.storeFails then LookupRegistration(k, domain, f).keychain
                        else LookupRegistration(k, domain, f).keychain[domain := outcome.app])
    ensures LookupRegistration(k, domain, f).found.None? && outcome.RegisterFailed? ==>
      r == Registration(LookupRegistration(k, domain, f).keychain, Some(RegistrationRequest(domain)), Err(RestError(outcome.description)))
  {
    var l := LookupRegistration(k, domain, f);
    if l.found.Some? then Registration(k, None, Ok(l.found.value))
    else
      var request := Some(RegistrationRequest(domain));
      match outcome
      case Registered(app) =>
        Registration(if f.storeFails then l.keychain else l.keychain[domain := app], request, Ok(app))
      case RegisterFailed(description) => Registration(l.keychain, request, Err(RestError(description)))
  }

  /** A stored registration is found by the next lookup, unless it is
      stale, and nothing is registered twice. */
  lemma StoredRegistrationIsReused(k: Keychain, domain: string, f: KeychainFaults, app: ClientApplication, outcome: RegisterOutcome)
    requires LookupRegistration(k, domain, f).found.None? && !f.storeFails && !IsStale(app)
    ensures var k' := ClientAppRegistration(k, domain, f, Registered(app)).keychain;
      var g := KeychainFaults(false, false, false);
      && LookupRegistration(k', domain, g).found == Some(app)
      && ClientAppRegistration(k', domain, g, outcome) == Registration(k', None, Ok(app))
  {
  }

  /** Other instances' registrations are untouched. */
  lemma OtherDomainsUntouched(k: Keychain, domain: string, other: string, f: KeychainFaults, outcome: RegisterOutcome)
    requires other != domain
    ensures var k' := ClientAppRegistration(k, domain, f, outcome).keychain;
      (other in k' <==> other in k) && (other in k ==> k'[other] == k[other])
  {
  }
}

=== FILE: column_mode.dfy ===
/** `ColumnMode`: the kind of a timelines-window column, with its raw
    string form, its sort weight, and its custom `==` and `<`. */
module ColumnModes {
  import opened Wrappers
  import opened Text

  datatype ColumnMode =
    | Timeline
    | LocalTimeline
    | PublicTimeline
    | Notifications
    | Favourites
    | Bookmarks
    | Tag(name: string)

  const TagPrefix: string := "tag:"

  /** `rawValue`. */
  function RawValue(m: ColumnMode): (r: string)
    ensures m.Tag? <==> IsPrefix(TagPrefix, r)
    ensures m.Tag? ==> r[|TagPrefix|..] == m.name
  {
    match m
    case Timeline => Untagged("timeline"); "timeline"
    case LocalTimeline => Untagged("localTimeline"); "localTimeline"
    case PublicTimeline => Untagged("publicTimeline"); "publicTimeline"
    case Notifications => Untagged("notifications"); "notifications"
    case Favourites => Untagged("favourites"); "favourites"
    case Bookmarks => Untagged("bookmarks"); "bookmarks"
    case Tag(name) => TagPrefix + name
  }

  lemma Untagged(s: string)
    requires |s| >= 2 && (s[0] != 't' || s[1] != 'a')
    ensures !IsPrefix(TagPrefix, s)
  {
    if |s| >= |TagPrefix| {
      assert s[..|TagPrefix|][0] == s[0] && s[..|TagPrefix|][1] == s[1];
    }
  }

  /** The mode a fixed raw string names, if any. */
  function PlainMode(raw: string): (r: Option<ColumnMode>)
    ensures r.Some? ==> !r.value.Tag? && RawValue(r.value) == raw
  {
    if raw == "timeline" then Some(Timeline)
    else if raw == "localTimeline" then Some(LocalTimeline)
    else if raw == "publicTimeline" then Some(PublicTimeline)
    else if raw == "notifications" then Some(Notifications)
    else if raw == "favourites" then Some(Favourites)
    else if raw == "bookmarks" then Some(Bookmarks)
    else None
  }

  /** The outcome of `init?(rawValue:)` as written: a mode, nil, or a
      runtime trap (an index past the end of the string). */
  datatype ParseOutcome = Parsed(mode: ColumnMode) | NoMatch | Trap

  /** `init?(rawValue:)` as written: the tag name starts one character
      after the end of "tag:". */
  function ParseAsWritten(raw: string): (r: ParseOutcome)
    ensures r.Trap? <==> raw == TagPrefix
    ensures r.NoMatch? <==> PlainMode(raw).None? && !IsPrefix(TagPrefix, raw)
    ensures r.Parsed? && r.mode.Tag? ==> raw == TagPrefix + [raw[|TagPrefix|]] + r.mode.name
  {
    match PlainMode(raw)
    case Some(m) => Parsed(m)
    case None =>
      if !IsPrefix(TagPrefix, raw) then NoMatch
      else if |raw| == |TagPrefix| then Trap
      else Parsed(Tag(raw[|TagPrefix| + 1..]))
  }

  /** `init?(rawValue:)` with the tag name starting right after "tag:". */
  function Parse(raw: string): (r: Option<ColumnMode>)
    ensures r.None? <==> PlainMode(raw).None? && !IsPrefix(TagPrefix, raw)
    ensures r.Some? ==> RawValue(r.value) == raw
  {
    match PlainMode(raw)
    case Some(m) => Some(m)
    case None =>
      if IsPrefix(TagPrefix, raw) then
        assert raw == TagPrefix + raw[|TagPrefix|..];
        Some(Tag(raw[|TagPrefix|..]))
      else None
  }

  /** The fixed raw strings never begin with "tag:". */
  lemma PlainNotTagged(m: ColumnMode)
    requires !m.Tag?
    ensures PlainMode(RawValue(m)) == Some(m)
  {
  }

  /** Every mode survives a trip through its raw value. */
  lemma ParseRawValue(m: ColumnMode)
    ensures Parse(RawValue(m)) == Some(m)
  {
    if m.Tag? {
      var raw := RawValue(m);
      assert PlainMode(raw).None?;
    }
  }

  /** Distinct modes have distinct raw values. */
  lemma RawValueInjective(a: ColumnMode, b: ColumnMode)
    requires RawValue(a) == RawValue(b)
    ensures a == b
  {
    ParseRawValue(a);
    ParseRawValue(b);
  }

  /** As written, the six plain modes round-trip. */
  lemma AsWrittenPlainRoundTrip(m: ColumnMode)
    requires !m.Tag?
    ensures ParseAsWritten(RawValue(m)) == Parsed(m)
  {
  }

  /** As written, a tag loses the first character of its name, and the
      empty tag traps. */
  lemma AsWrittenTagDropsCharacter(name: string)
    ensures name == "" ==> ParseAsWritten(RawValue(Tag(name))) == Trap
    ensures name != "" ==> ParseAsWritten(RawValue(Tag(name))) == Parsed(Tag(name[1..]))
  {
    var raw := RawValue(Tag(name));
    assert PlainMode(raw).None?;
    if name != "" {
      assert raw[|TagPrefix| + 1..] == name[1..];
    }
  }

  lemma AsWrittenTagCounterexample()
    ensures ParseAsWritten(RawValue(Tag("abc"))) == Parsed(Tag("bc"))
  {
    AsWrittenTagDropsCharacter("abc");
  }

  /** `weight`: the sort key; every tag sits above the fixed columns. */
  function Weight(m: ColumnMode): (w: int)
    ensures -6 <= w <= 0
    ensures w == 0 <==> m.Tag?
    ensures w == -6 <==> m.Bookmarks?
    ensures w == -1 <==> m.Notifications?
  {
    match m
    case Bookmarks => -6
    case Favourites => -5
    case Timeline => -4
    case LocalTimeline => -3
    case PublicTimeline => -2
    case Notifications => -1
    case Tag(_) => 0
  }

  /** bookmarks < favourites < timeline < localTimeline < publicTimeline
      < notifications < every tag; only tags share a weight. */
  lemma WeightOrder(a: ColumnMode, b: ColumnMode)
    ensures Weight(Bookmarks) < Weight(Favourites) < Weight(Timeline) < Weight(LocalTimeline)
            < Weight(PublicTimeline) < Weight(Notifications) < Weight(Tag(""))
    ensures Weight(a) == Weight(b) <==> a == b || (a.Tag? && b.Tag?)
  {
  }

  /** `==` as written: favourites and bookmarks fall to the default case. */
  function EqAsWritten(a: ColumnMode, b: ColumnMode): (r: bool)
    ensures r ==> a == b
    ensures a == b && !a.Favourites? && !a.Bookmarks? ==> r
    ensures a.Favourites? || a.Bookmarks? ==> !r
  {
    match (a, b)
    case (Timeline, Timeline) => true
    case (LocalTimeline, LocalTimeline) => true
    case (PublicTimeline, PublicTimeline) => true
    case (Notifications, Notifications) => true
    case (Tag(l), Tag(r)) => l == r
    case _ => false
  }

  /** `==` with the favourites and bookmarks cases it is missing. */
  function Eq(a: ColumnMode, b: ColumnMode): (r: bool)
    ensures r <==> a == b
  {
    match (a, b)
    case (Timeline, Timeline) => true
    case (LocalTimeline, LocalTimeline) => true
    case (PublicTimeline, PublicTimeline) => true
    case (Notifications, Notifications) => true
    case (Favourites, Favourites) => true
    case (Bookmarks, Bookmarks) => true
    case (Tag(l), Tag(r)) => l == r
    case _ => false
  }

  /** As written, `==` is structural equality except that favourites and
      bookmarks are unequal to themselves. */
  lemma EqAsWrittenMeaning(a: ColumnMode, b: ColumnMode)
    ensures EqAsWritten(a, b) <==> a == b && !a.Favourites? && !a.Bookmarks?
    ensures !EqAsWritten(Favourites, Favourites) && !EqAsWritten(Bookmarks, Bookmarks)
  {
  }

  /** The completed `==` is structural equality. */
  lemma EqIsEquality(a: ColumnMode, b: ColumnMode)
    ensures Eq(a, b) <==> a == b
  {
  }

  /** `<`: weight first, then tag names. */
  function Less(a: ColumnMode, b: ColumnMode): (r: bool)
    ensures Weight(a) < Weight(b) ==> r
    ensures Weight(b) < Weight(a) ==> !r
    ensures r && !(a.Tag? && b.Tag?) ==> Weight(a) < Weight(b)
    ensures a.Tag? && b.Tag? ==> (r <==> StringLess(a.name, b.name))
  {
    if Weight(a) != Weight(b) then Weight(a) < Weight(b)
    else a.Tag? && b.Tag? && StringLess(a.name, b.name)
  }

  lemma LessIrreflexive(a: ColumnMode)
    ensures !Less(a, a)
  {
    if a.Tag? {
      StringLessIrreflexive(a.name);
    }
  }

  lemma LessTransitive(a: ColumnMode, b: ColumnMode, c: ColumnMode)
    requires Less(a, b) && Less(b, c)
    ensures Less(a, c)
  {
    if a.Tag? && b.Tag? && c.Tag? {
      StringLessTransitive(a.name, b.name, c.name);
    }
  }

  /** Any two different modes are ordered one way or the other. */
  lemma LessTotal(a: ColumnMode, b: ColumnMode)
    requires a != b
    ensures Less(a, b) || Less(b, a)
  {
    WeightOrder(a, b);
    if a.Tag? && b.Tag? {
      StringLessTotal(a.name, b.name);
    }
  }

  /** `allItems`: the six non-tag modes, each exactly once. */
  function AllItems(): (items: seq<ColumnMode>)
    ensures |items| == 6
    ensures forall i :: 0 <= i < |items| ==> !items[i].Tag?
    ensures forall i, j :: 0 <= i < j < |items| ==> items[i] != items[j]
    ensures forall m: ColumnMode :: !m.Tag? ==> m in items
  {
    [Timeline, LocalTimeline, PublicTimeline, Notifications, Bookmarks, Favourites]
  }
}

=== FILE: composer.dfy ===
/** `BaseComposerTextView`: the Return key, and inserting attributed text
    over the selection with an undo that puts the selection back. Text is a
    sequence of characters each with its attribute dictionary; AppKit's
    text view, layout and the suggestion window are not part of this
    model. */
module Composer {
  import opened Wrappers

  datatype AttrChar<A> = AttrChar(c: char, attrs: map<string, A>)

  type AttributedString<A> = seq<AttrChar<A>>

  function Chars<A>(s: AttributedString<A>): (r: string)
    ensures |r| == |s| && forall i :: 0 <= i < |s| ==> r[i] == s[i].c
  {
    if |s| == 0 then "" else [s[0].c] + Chars(s[1..])
  }

  /** `applyTypingAttributes(to:)`: every character gets the typing
      attributes, which override its own for the same key. */
  function ApplyTypingAttributes<A>(s: AttributedString<A>, typing: map<string, A>): (r: AttributedString<A>)
    ensures |r| == |s| && Chars(r) == Chars(s)
    ensures forall i :: 0 <= i < |s| ==> r[i].attrs.Keys == s[i].attrs.Keys + typing.Keys
    ensures forall i, k :: 0 <= i < |s| && k in typing ==> r[i].attrs[k] == typing[k]
    ensures forall i, k :: 0 <= i < |s| && k in s[i].attrs && k !in typing ==> r[i].attrs[k] == s[i].attrs[k]
  {
    if |s| == 0 then []
    else [AttrChar(s[0].c, s[0].attrs + typing)] + ApplyTypingAttributes(s[1..], typing)
  }

  /** `NSRange`. */
  datatype Range = Range(location: nat, length: nat)

  predicate InBounds<T>(r: Range, s: seq<T>) {
    r.location + r.length <= |s|
  }

  /** `replaceCharacters(in:with:)`. */
  function Replace<T>(s: seq<T>, r: Range, with: seq<T>): (t: seq<T>)
    requires InBounds(r, s)
    ensures |t| == |s| - r.length + |with|
    ensures t[..r.location] == s[..r.location]
    ensures t[r.location..r.location + |with|] == with
    ensures t[r.location + |with|..] == s[r.location + r.length..]
  {
    s[..r.location] + with + s[r.location + r.length..]
  }

  /** An undo registered with the undo manager: replace a range. */
  datatype UndoAction<A> = UndoAction(range: Range, with: AttributedString<A>)

  datatype Editor<A> = Editor(storage: Option<AttributedString<A>>, hasUndoManager: bool, undoStack: seq<UndoAction<A>>)

  /** `insertAttributedString(_:)` over the selection `sel`: without text
      storage nothing happens; otherwise the selection is replaced by the
      string with the typing attributes, and an undo that replaces the
      inserted range with the old selection is registered. */
  function InsertAttributedString<A>(e: Editor<A>, sel: Range, s: AttributedString<A>, typing: map<string, A>): (r: Editor<A>)
    requires e.storage.Some? ==> InBounds(sel, e.storage.value)
    ensures e.storage.None? ==> r == e
    ensures e.storage.Some? ==> r.storage == Some(Replace(e.storage.value, sel, ApplyTypingAttributes(s, typing)))
    ensures e.storage.Some? && e.hasUndoManager ==>
      r.undoStack == e.undoStack + [UndoAction(Range(sel.location, |s|), e.storage.value[sel.location..sel.location + sel.length])]
    ensures !e.hasUndoManager ==> r.undoStack == e.undoStack
  {
    match e.storage
    case None => e
    case Some(text) =>
      var undo := UndoAction(Range(sel.location, |s|), text[sel.location..sel.location + sel.length]);
      Editor(Some(Replace(text, sel, ApplyTypingAttributes(s, typing))),
             e.hasUndoManager,
             if e.hasUndoManager then e.undoStack + [undo] else e.undoStack)
  }

  /** The undo manager runs the most recent undo. */
  function Undo<A>(e: Editor<A>): (r: Editor<A>)
    ensures |e.undoStack| == 0 || e.storage.None? ==> r == e
    ensures |e.undoStack| > 0 && e.storage.Some? && InBounds(e.undoStack[|e.undoStack| - 1].range, e.storage.value) ==>
      var u := e.undoStack[|e.undoStack| - 1];
      && r.undoStack == e.undoStack[..|e.undoStack| - 1]
      && r.hasUndoManager == e.hasUndoManager
      && r.storage == Some(Replace(e.storage.value, u.range, u.with))
    ensures |e.undoStack| > 0 && e.storage.Some? && !InBounds(e.undoStack[|e.undoStack| - 1].range, e.storage.value) ==> r == e
  {
    if |e.undoStack| == 0 || e.storage.None? then e
    else
      var u := e.undoStack[|e.undoStack| - 1];
      var stack := e.undoStack[..|e.undoStack| - 1];
      if InBounds(u.range, e.storage.value) then Editor(Some(Replace(e.storage.value, u.range, u.with)), e.hasUndoManager, stack)
      else e
  }

  /** Undoing an insertion restores the text as it was, and the undo
      stack with it. */
  lemma UndoRestores<A>(e: Editor<A>, sel: Range, s: AttributedString<A>, typing: map<string, A>)
    requires e.storage.Some? && e.hasUndoManager && InBounds(sel, e.storage.value)
    ensures Undo(InsertAttributedString(e, sel, s, typing)) == e
  {
    var text := e.storage.value;
    var inserted := ApplyTypingAttributes(s, typing);
    var t := Replace(text, sel, inserted);
    var old_ := text[sel.location..sel.location + sel.length];
    var back := Replace(t, Range(sel.location, |s|), old_);
    assert back == text[..sel.location] + old_ + text[sel.location + sel.length..];
    assert back == text;
    var r := InsertAttributedString(e, sel, s, typing);
    assert r.undoStack[..|r.undoStack| - 1] == e.undoStack;
  }

  /** The inserted characters are exactly the string's, at the selection. */
  lemma InsertionPlacesCharacters<A>(e: Editor<A>, sel: Range, s: AttributedString<A>, typing: map<string, A>)
    requires e.storage.Some? && InBounds(sel, e.storage.value)
    ensures var t := InsertAttributedString(e, sel, s, typing).storage.value;
      Chars(t[sel.location..sel.location + |s|]) == Chars(s)
  {
  }

  // ---------------------------------------------------------------------
  // `insertNewline(_:)`

  datatype ReturnAction = InsertSuggestion | InsertNewlines(count: nat)

  function ReturnKey(suggestionVisible: bool, insertDoubleNewLines: bool): (r: ReturnAction)
    ensures r.InsertSuggestion? <==> suggestionVisible
    ensures r.InsertNewlines? ==> r.count == (if insertDoubleNewLines then 2 else 1)
  {
    if suggestionVisible then InsertSuggestion
    else if insertDoubleNewLines then InsertNewlines(2)
    else InsertNewlines(1)
  }

  /** The text after Return when no suggestion is showing: each newline
      replaces the selection and leaves an empty one after it. */
  function AfterReturn(text: string, sel: Range, insertDoubleNewLines: bool): (t: string)
    requires InBounds(sel, text)
    ensures t == text[..sel.location] + (if insertDoubleNewLines then "\n\n" else "\n") + text[sel.location + sel.length..]
  {
    var once := Replace(text, sel, "\n");
    if insertDoubleNewLines then Replace(once, Range(sel.location + 1, 0), "\n") else once
  }
}

=== FILE: event_stream.dfy ===
/** `RemoteEventStream`: which streaming-API stream a listener subscribes
    to, its wire name, and the query items of the socket URL. */
module EventStream {
  import opened Wrappers
  import opened Text

  datatype RemoteEventStream =
    | User
    | Public
    | PublicLocal
    | Hashtag(tag: string)
    | HashtagLocal(tag: string)
    | List(list: string)
    | Direct

  /** `name`: the stream's wire name. */
  function Name(s: RemoteEventStream): (r: string)
    ensures s.User? <==> r == "user"
    ensures s.Public? <==> r == "public"
    ensures s.PublicLocal? <==> r == "public:local"
    ensures s.Hashtag? <==> r == "hashtag"
    ensures s.HashtagLocal? <==> r == "hashtag:local"
    ensures s.List? <==> r == "list"
    ensures s.Direct? <==> r == "direct"
  {
    match s
    case User => "user"
    case Public => "public"
    case PublicLocal => "public:local"
    case Hashtag(_) => "hashtag"
    case HashtagLocal(_) => "hashtag:local"
    case List(_) => "list"
    case Direct => "direct"
  }

  /** `makeQueryItems(accessToken:)`: the credential, the stream name, and
      the one parameter a hashtag or list stream needs. */
  function MakeQueryItems(s: RemoteEventStream, accessToken: string): (items: seq<QueryItem>)
    ensures |items| == 2 || |items| == 3
    ensures items[0] == QueryItem("access_token", Some(accessToken))
    ensures items[1] == QueryItem("stream", Some(Name(s)))
    ensures |items| == 3 <==> s.Hashtag? || s.HashtagLocal? || s.List?
    ensures s.Hashtag? || s.HashtagLocal? ==> items[2] == QueryItem("tag", Some(s.tag))
    ensures s.List? ==> items[2] == QueryItem("list", Some(s.list))
  {
    var items := [QueryItem("access_token", Some(accessToken)), QueryItem("stream", Some(Name(s)))];
    match s
    case Hashtag(tag) => items + [QueryItem("tag", Some(tag))]
    case HashtagLocal(tag) => items + [QueryItem("tag", Some(tag))]
    case List(list) => items + [QueryItem("list", Some(list))]
    case User => items
    case Public => items
    case PublicLocal => items
    case Direct => items
  }

  /** A reference reader: the stream a query-item list subscribes to. */
  function StreamOfQuery(items: seq<QueryItem>): Option<RemoteEventStream> {
    if |items| < 2 || items[0].name != "access_token" || items[1].name != "stream" || items[1].value.None? then None
    else
      var name := items[1].value.value;
      var extra: Option<QueryItem> := if |items| == 3 then Some(items[2]) else None;
      if |items| > 3 then None
      else if extra.None? then
        if name == "user" then Some(User)
        else if name == "public" then Some(Public)
        else if name == "public:local" then Some(PublicLocal)
        else if name == "direct" then Some(Direct)
        else None
      else if extra.value.value.None? then None
      else if name == "hashtag" && extra.value.name == "tag" then Some(Hashtag(extra.value.value.value))
      else if name == "hashtag:local" && extra.value.name == "tag" then Some(HashtagLocal(extra.value.value.value))
      else if name == "list" && extra.value.name == "list" then Some(List(extra.value.value.value))
      else None
  }

  /** The query items identify the stream they were built for. */
  lemma QueryItemsRoundTrip(s: RemoteEventStream, accessToken: string)
    ensures StreamOfQuery(MakeQueryItems(s, accessToken)) == Some(s)
  {
  }

  /** The seven names are pairwise distinct: two streams share a name
      exactly when they are the same variant. */
  lemma NameIdentifiesVariant(a: RemoteEventStream, b: RemoteEventStream)
    ensures Name(a) == Name(b) <==>
      (a.User? && b.User?) || (a.Public? && b.Public?) || (a.PublicLocal? && b.PublicLocal?)
      || (a.Hashtag? && b.Hashtag?) || (a.HashtagLocal? && b.HashtagLocal?)
      || (a.List? && b.List?) || (a.Direct? && b.Direct?)
  {
  }

  /** Only hashtag streams carry a `tag` item and only list streams a
      `list` item. */
  lemma StreamSpecificParameter(s: RemoteEventStream, accessToken: string)
    ensures (exists i :: 0 <= i < |MakeQueryItems(s, accessToken)| && MakeQueryItems(s, accessToken)[i].name == "tag")
            <==> s.Hashtag? || s.HashtagLocal?
    ensures (exists i :: 0 <= i < |MakeQueryItems(s, accessToken)| && MakeQueryItems(s, accessToken)[i].name == "list")
            <==> s.List?
  {
    var items := MakeQueryItems(s, accessToken);
    if s.Hashtag? || s.HashtagLocal? {
      assert items[2].name == "tag";
    }
    if s.List? {
      assert items[2].name == "list";
    }
  }
}

=== FILE: events_listener.dfy ===
/** `RemoteEventsListener`: the streaming connection's state machine. The
    WebSocket transport, the main queue and the run-loop timers are not
    part of this model: transport callbacks and timer firings are inputs of
    one step function, and a scheduled timer is a pending entry in the
    state. The reconnect delay is kept in half-second units, so the source's
    0.5 s doubling to a cap of 15 s is 1 doubling to a cap of 30. */
module EventsListener {
  import opened Wrappers
  import opened Text
  import opened EventStream
  import opened StreamPayload

  /** A resolved socket URL: the streaming endpoint and its query items. */
  datatype SocketUrl = SocketUrl(endpoint: string, query: seq<QueryItem>)

  const StreamingPath: string := "/api/v1/streaming"

  /** Close codes of section 7.4.1 of RFC 6455. */
  const NormalClosure: int := 1000
  const NoStatusReceived: int := 1005

  /** `reconnectDelay` bounds in half seconds: 0.5 s and 15 s. */
  const InitialDelay: nat := 1
  const MaxDelay: nat := 30

  datatype Config = Config(socketEndpoint: string, accessToken: string)

  /** `init(baseUrl:accessToken:)`. */
  function MakeConfig(baseUrl: string, accessToken: string): (c: Config)
    ensures c.accessToken == accessToken
    ensures |c.socketEndpoint| >= |StreamingPath| && c.socketEndpoint[|c.socketEndpoint| - |StreamingPath|..] == StreamingPath
  {
    Config(baseUrl + StreamingPath, accessToken)
  }

  /** One `asyncAfter` block of `performReconnect`, waiting to run
      `set(resolvedSocketURL:)` with the URL it captured. */
  datatype PendingReconnect = PendingReconnect(url: SocketUrl, delay: nat)

  datatype State = State(
    socket: Option<SocketUrl>,            // the current `WebSocket`, by its request URL
    isConnected: bool,
    isReconnecting: bool,
    reconnectDelay: nat,
    lastResolvedURL: Option<SocketUrl>,
    pendingReconnects: seq<PendingReconnect>,
    releaseTimers: nat,                   // pending `releaseWatchdog` performs
    barkTimers: nat)                      // pending `watchdogBarked` performs

  function Initial(): (s: State)
    ensures Inv(s)
  {
    State(None, false, false, InitialDelay, None, [], 0, 0)
  }

  /** What a step does to the socket, and the connection callbacks it
      makes on the delegate. */
  datatype Effect =
    | OpenSocket(url: SocketUrl)
    | CloseSocket(code: int)
    | SendPing
    | DidConnect
    | DidDisconnect(code: int)

  /** Starscream's `WebSocketEvent`. */
  datatype TransportEvent =
    | Connected
    | Disconnected(reason: string, code: int)
    | TextFrame(text: string)
    | BinaryFrame(data: Bytes)
    | PingReceived
    | Pong
    | ViabilityChanged(viable: bool)
    | ReconnectSuggested(suggested: bool)
    | Cancelled
    | SocketError

  datatype Input =
    | SetStreamCall(stream: RemoteEventStream)
    | DisconnectCall
    | ReconnectCall
    | ReconnectTimerFired(index: nat)
    | ReleaseTimerFired
    | BarkTimerFired
    | Transport(event: TransportEvent)

  /** The frame decoders `parseMastodonEvent` runs. */
  datatype Parser<S, N> = Parser(envelope: Bytes -> Option<StreamPayload>, inner: Decoders<S, N>)

  datatype Step = Step(next: State, effects: seq<Effect>)

  /** A step that may also hand a decoded frame to the delegate. */
  datatype Reaction<S, N> = Reaction(next: State, effects: seq<Effect>, call: Option<DelegateCall<S, N>>)

  // ---------------------------------------------------------------------
  // The invariant

  predicate IsDelayValue(d: nat) {
    d == 1 || d == 2 || d == 4 || d == 8 || d == 16 || d == 30
  }

  /** The delay is one of 0.5, 1, 2, 4, 8 or 15 seconds; at most one
      watchdog timer is pending, and only while there is a socket to ping
      and close; the socket is always the one made for the last resolved
      URL. */
  predicate Inv(s: State) {
    && IsDelayValue(s.reconnectDelay)
    && s.releaseTimers + s.barkTimers <= 1
    && (s.releaseTimers + s.barkTimers > 0 ==> s.socket.Some?)
    && s.socket == s.lastResolvedURL
    && (forall i :: 0 <= i < |s.pendingReconnects| ==> IsDelayValue(s.pendingReconnects[i].delay))
  }

  /** Transport events come from an existing socket; a timer fires only
      while it is pending. */
  predicate Enabled(s: State, input: Input) {
    match input
    case Transport(_) => s.socket.Some?
    case ReconnectTimerFired(i) => i < |s.pendingReconnects|
    case ReleaseTimerFired => s.releaseTimers > 0
    case BarkTimerFired => s.barkTimers > 0
    case _ => true
  }

  // ---------------------------------------------------------------------
  // Helpers shared by several steps

  /** `resetReconnectState()`: back to the first delay, not reconnecting;
      nothing else changes. */
  function ResetReconnectState(s: State): (r: State)
    ensures !r.isReconnecting && r.reconnectDelay == InitialDelay
    ensures r.(isReconnecting := s.isReconnecting, reconnectDelay := s.reconnectDelay) == s
    ensures Inv(s) ==> Inv(r)
  {
    s.(isReconnecting := false, reconnectDelay := InitialDelay)
  }

  /** `resetWatchdog()`: cancel both timers, schedule one release;
      nothing else changes. */
  function ResetWatchdog(s: State): (r: State)
    ensures r.releaseTimers == 1 && r.barkTimers == 0
    ensures r.(releaseTimers := s.releaseTimers, barkTimers := s.barkTimers) == s
    ensures Inv(s) && s.socket.Some? ==> Inv(r)
  {
    s.(releaseTimers := 1, barkTimers := 0)
  }

  /** `min(reconnectDelay * 2, 15)` in half seconds. */
  function Doubled(d: nat): (r: nat)
    ensures IsDelayValue(d) ==> IsDelayValue(r)
    ensures IsDelayValue(d) ==> d <= r
  {
    if 2 * d < MaxDelay then 2 * d else MaxDelay
  }

  // ---------------------------------------------------------------------
  // Operations

  /** `set(resolvedSocketURL:)`: a new socket for `url`; the old socket is
      closed with "no status received" only while connected. */
  function SetResolvedSocketUrl(s: State, url: SocketUrl): (r: Step)
    ensures r.next.socket == Some(url) && r.next.lastResolvedURL == Some(url)
    ensures r.next.(socket := s.socket, lastResolvedURL := s.lastResolvedURL) == s
    ensures r.effects == (if s.isConnected then [CloseSocket(NoStatusReceived)] else []) + [OpenSocket(url)]
  {
    var closing: seq<Effect> := if s.isConnected then [CloseSocket(NoStatusReceived)] else [];
    Step(s.(socket := Some(url), lastResolvedURL := Some(url)), closing + [OpenSocket(url)])
  }

  /** `set(stream:)`. */
  function SetStream(c: Config, s: State, stream: RemoteEventStream): (r: Step)
    ensures r.next.lastResolvedURL == Some(SocketUrl(c.socketEndpoint, MakeQueryItems(stream, c.accessToken)))
    ensures OpenSocket(r.next.lastResolvedURL.value) in r.effects
  {
    SetResolvedSocketUrl(s, SocketUrl(c.socketEndpoint, MakeQueryItems(stream, c.accessToken)))
  }

  /** `disconnect()`: closes the socket normally and resets the backoff.
      The pending watchdog and reconnect timers are left as they are. */
  function Disconnect(s: State): (r: Step)
    ensures r.next.reconnectDelay == InitialDelay && !r.next.isReconnecting
    ensures r.next.(isReconnecting := s.isReconnecting, reconnectDelay := s.reconnectDelay) == s
    ensures r.effects == if s.socket.Some? then [CloseSocket(NormalClosure)] else []
  {
    Step(ResetReconnectState(s), if s.socket.Some? then [CloseSocket(NormalClosure)] else [])
  }

  /** `performReconnect()`: nothing without a resolved URL or while a
      reconnect is pending; otherwise one reconnect to the last resolved
      URL is scheduled after the current delay. */
  function PerformReconnect(s: State): (r: Step)
    ensures r.effects == []
    ensures s.lastResolvedURL.None? || s.isReconnecting ==> r.next == s
    ensures s.lastResolvedURL.Some? && !s.isReconnecting ==>
      r.next == s.(isReconnecting := true,
                   pendingReconnects := s.pendingReconnects + [PendingReconnect(s.lastResolvedURL.value, s.reconnectDelay)])
  {
    if s.lastResolvedURL.None? || s.isReconnecting then Step(s, [])
    else
      var p := PendingReconnect(s.lastResolvedURL.value, s.reconnectDelay);
      Step(s.(isReconnecting := true, pendingReconnects := s.pendingReconnects + [p]), [])
  }

  /** The scheduled reconnect at index `i` runs `set(resolvedSocketURL:)`
      with the URL it captured. Entries are not cancelled when the stream
      changes and fire by their own deadlines, so any pending entry may be
      the next to fire, and a stale one re-resolves its old URL. */
  function ReconnectFired(s: State, i: nat): (r: Step)
    ensures i < |s.pendingReconnects| ==>
      && r.next.pendingReconnects == s.pendingReconnects[..i] + s.pendingReconnects[i + 1..]
      && r.next.lastResolvedURL == Some(s.pendingReconnects[i].url)
      && OpenSocket(s.pendingReconnects[i].url) in r.effects
    ensures i >= |s.pendingReconnects| ==> r.next == s && r.effects == []
  {
    if i >= |s.pendingReconnects| then Step(s, [])
    else
      var rest := s.pendingReconnects[..i] + s.pendingReconnects[i + 1..];
      SetResolvedSocketUrl(s.(pendingReconnects := rest), s.pendingReconnects[i].url)
  }

  /** `releaseWatchdog()`: the bark is scheduled and one ping is sent. */
  function ReleaseFired(s: State): (r: Step)
    ensures s.releaseTimers > 0 ==>
      r.next.releaseTimers + 1 == s.releaseTimers && r.next.barkTimers == 1
      && r.next.(releaseTimers := s.releaseTimers, barkTimers := s.barkTimers) == s
      && r.effects == (if s.socket.Some? then [SendPing] else [])
    ensures s.releaseTimers == 0 ==> r.next == s && r.effects == []
  {
    if s.releaseTimers == 0 then Step(s, [])
    else Step(s.(releaseTimers := s.releaseTimers - 1, barkTimers := 1), if s.socket.Some? then [SendPing] else [])
  }

  /** `watchdogBarked()`: the socket is closed with "no status received". */
  function BarkFired(s: State): (r: Step)
    ensures s.barkTimers > 0 ==>
      r.next.barkTimers + 1 == s.barkTimers && r.next.(barkTimers := s.barkTimers) == s
      && r.effects == [CloseSocket(NoStatusReceived)]
    ensures s.barkTimers == 0 ==> r.next == s && r.effects == []
  {
    if s.barkTimers == 0 then Step(s, [])
    else Step(s.(barkTimers := s.barkTimers - 1), [CloseSocket(NoStatusReceived)])
  }

  /** `didReceive(event:client:)`. */
  function OnTransport<S, N>(s: State, e: TransportEvent, p: Parser<S, N>): (r: Reaction<S, N>)
    ensures e.Connected? ==>
      r.next == s.(isConnected := true, isReconnecting := false, reconnectDelay := InitialDelay,
                   releaseTimers := 1, barkTimers := 0)
      && r.effects == [DidConnect] && r.call.None?
    ensures e.Disconnected? ==>
      r.next == s.(isConnected := false, isReconnecting := false, reconnectDelay := Doubled(s.reconnectDelay))
      && r.effects == [DidDisconnect(e.code)] && r.call.None?
    ensures e.TextFrame? || e.BinaryFrame? ==>
      r.next == s.(isReconnecting := false, reconnectDelay := InitialDelay, releaseTimers := 1, barkTimers := 0)
      && r.effects == []
      && r.call == HandleFrame(if e.TextFrame? then Utf8(e.text) else e.data, p.envelope, p.inner)
    ensures e.Pong? ==> r.next == s.(releaseTimers := 1, barkTimers := 0) && r.effects == [] && r.call.None?
    ensures e.Cancelled? || e.SocketError? ==> r.next == s.(isConnected := false) && r.effects == [] && r.call.None?
    ensures e.PingReceived? || e.ViabilityChanged? || e.ReconnectSuggested? ==>
      r.next == s && r.effects == [] && r.call.None?
  {
    match e
    case Connected =>
      Reaction(ResetWatchdog(ResetReconnectState(s.(isConnected := true))), [DidConnect], None)
    case Disconnected(_, code) =>
      var next := s.(isConnected := false, isReconnecting := false, reconnectDelay := Doubled(s.reconnectDelay));
      Reaction(next, [DidDisconnect(code)], None)
    case TextFrame(text) =>
      Reaction(ResetWatchdog(ResetReconnectState(s)), [], HandleFrame(Utf8(text), p.envelope, p.inner))
    case BinaryFrame(data) =>
      Reaction(ResetWatchdog(ResetReconnectState(s)), [], HandleFrame(data, p.envelope, p.inner))
    case PingReceived => Reaction(s, [], None)
    case Pong => Reaction(ResetWatchdog(s), [], None)
    case ViabilityChanged(_) => Reaction(s, [], None)
    case ReconnectSuggested(_) => Reaction(s, [], None)
    case Cancelled => Reaction(s.(isConnected := false), [], None)
    case SocketError => Reaction(s.(isConnected := false), [], None)
  }

  /** The inputs that are not transport events: the public calls and the
      timers. None of them makes a delegate call. */
  function ControlStep(c: Config, s: State, input: Input): Step
    requires !input.Transport?
  {
    match input
    case SetStreamCall(stream) => SetStream(c, s, stream)
    case DisconnectCall => Disconnect(s)
    case ReconnectCall => PerformReconnect(s)
    case ReconnectTimerFired(i) => ReconnectFired(s, i)
    case ReleaseTimerFired => ReleaseFired(s)
    case BarkTimerFired => BarkFired(s)
  }

  /** One step of the listener. `reconnect()` hops through the main queue
      before `performReconnect()`; the hop is not modelled. */
  function Next<S, N>(c: Config, p: Parser<S, N>, s: State, input: Input): (r: Reaction<S, N>)
    ensures r.call.Some? ==> input.Transport? && (input.event.TextFrame? || input.event.BinaryFrame?)
    ensures !(input.ReconnectCall? || input.ReconnectTimerFired?) ==> r.next.pendingReconnects == s.pendingReconnects
  {
    match input
    case Transport(e) => OnTransport(s, e, p)
    case _ =>
      var step := ControlStep(c, s, input);
      Reaction(step.next, step.effects, None)
  }

  // ---------------------------------------------------------------------
  // Properties

  lemma DoubledStaysInRange(d: nat)
    requires IsDelayValue(d)
    ensures InitialDelay <= Doubled(d) <= MaxDelay
    ensures d == MaxDelay ==> Doubled(d) == MaxDelay
  {
  }

  /** Every enabled step keeps the invariant. */
  lemma NextPreservesInv<S, N>(c: Config, p: Parser<S, N>, s: State, input: Input)
    requires Inv(s) && Enabled(s, input)
    ensures Inv(Next(c, p, s, input).next)
  {
    var r := Next(c, p, s, input);
    match input
    case ReconnectCall =>
      if s.lastResolvedURL.Some? && !s.isReconnecting {
        var ps := r.next.pendingReconnects;
        assert ps == s.pendingReconnects + [PendingReconnect(s.lastResolvedURL.value, s.reconnectDelay)];
        forall i | 0 <= i < |ps| ensures IsDelayValue(ps[i].delay) {
          if i < |s.pendingReconnects| {
            assert ps[i] == s.pendingReconnects[i];
          }
        }
      }
    case ReconnectTimerFired(k) =>
      var ps := r.next.pendingReconnects;
      assert ps == s.pendingReconnects[..k] + s.pendingReconnects[k + 1..];
      forall i | 0 <= i < |ps| ensures IsDelayValue(ps[i].delay) {
        if i < k {
          assert ps[i] == s.pendingReconnects[i];
        } else {
          assert ps[i] == s.pendingReconnects[i + 1];
        }
      }
    case _ =>
  }

  /** Every transport event that shows the connection alive (connect, a
      text or binary frame, a pong) leaves exactly the 60 s release pending. */
  lemma LivenessResetsWatchdog<S, N>(s: State, e: TransportEvent, p: Parser<S, N>)
    requires e.Connected? || e.TextFrame? || e.BinaryFrame? || e.Pong?
    ensures OnTransport(s, e, p).next.releaseTimers == 1
    ensures OnTransport(s, e, p).next.barkTimers == 0
  {
  }

  /** The two-stage watchdog: after a reset, the release sends one ping
      and leaves only the bark pending; the bark closes the socket with
      "no status received" and leaves nothing pending. */
  lemma WatchdogCycle(s: State)
    requires Inv(s) && s.socket.Some?
    ensures var r1 := ReleaseFired(ResetWatchdog(s));
            && r1.effects == [SendPing]
            && r1.next.releaseTimers == 0 && r1.next.barkTimers == 1
            && var r2 := BarkFired(r1.next);
               && r2.effects == [CloseSocket(NoStatusReceived)]
               && r2.next.releaseTimers == 0 && r2.next.barkTimers == 0
  {
  }

  /** `reconnect()` is idempotent: a second call changes nothing. */
  lemma ReconnectIdempotent(s: State)
    ensures var once := PerformReconnect(s).next;
            PerformReconnect(once).next == once && PerformReconnect(once).effects == []
  {
  }

  function Reconnects(s: State, n: nat): State
    decreases n
  {
    if n == 0 then s else Reconnects(PerformReconnect(s).next, n - 1)
  }

  /** Calling `reconnect()` any positive number of times from an idle,
      resolved listener schedules exactly one reconnect. */
  lemma {:induction false} RepeatedReconnectSchedulesOnce(s: State, n: nat)
    requires s.lastResolvedURL.Some? && !s.isReconnecting && n >= 1
    ensures Reconnects(s, n).pendingReconnects ==
            s.pendingReconnects + [PendingReconnect(s.lastResolvedURL.value, s.reconnectDelay)]
    ensures Reconnects(s, n).isReconnecting
  {
    var s1 := PerformReconnect(s).next;
    StaysPut(s1, n - 1);
  }

  lemma {:induction false} StaysPut(s: State, n: nat)
    requires s.isReconnecting
    ensures Reconnects(s, n) == s
    decreases n
  {
    if n > 0 {
      StaysPut(PerformReconnect(s).next, n - 1);
    }
  }

  function Pow2(k: nat): nat {
    if k == 0 then 1 else 2 * Pow2(k - 1)
  }

  function Min(a: nat, b: nat): nat {
    if a < b then a else b
  }

  function Disconnects<S, N>(s: State, k: nat, p: Parser<S, N>): State
    decreases k
  {
    if k == 0 then s else Disconnects(OnTransport(s, Disconnected("", NoStatusReceived), p).next, k - 1, p)
  }

  /** Backoff: from the initial delay, k disconnections in a row give a
      delay of min(0.5 * 2^k, 15) seconds. */
  lemma {:induction false} BackoffAfterDisconnects<S, N>(s: State, k: nat, p: Parser<S, N>)
    requires s.reconnectDelay == InitialDelay
    ensures Disconnects(s, k, p).reconnectDelay == Min(Pow2(k), MaxDelay)
  {
    DisconnectsFrom(s, k, p);
  }

  lemma {:induction false} DisconnectsFrom<S, N>(s: State, k: nat, p: Parser<S, N>)
    requires IsDelayValue(s.reconnectDelay)
    ensures Disconnects(s, k, p).reconnectDelay == Min(s.reconnectDelay * Pow2(k), MaxDelay)
    decreases k
  {
    if k > 0 {
      var s1 := OnTransport(s, Disconnected("", NoStatusReceived), p).next;
      DisconnectsFrom(s1, k - 1, p);
      assert s.reconnectDelay * Pow2(k) == 2 * s.reconnectDelay * Pow2(k - 1);
      if 2 * s.reconnectDelay >= MaxDelay {
        assert s1.reconnectDelay == MaxDelay;
        assert Pow2(k - 1) >= 1 by { PowPositive(k - 1); }
      }
    }
  }

  lemma {:induction false} PowPositive(k: nat)
    ensures Pow2(k) >= 1
  {
    if k > 0 {
      PowPositive(k - 1);
    }
  }

  /** Any data frame, whatever its parse outcome, resets the backoff. */
  lemma FramesResetBackoff<S, N>(s: State, e: TransportEvent, p: Parser<S, N>)
    requires e.TextFrame? || e.BinaryFrame?
    ensures OnTransport(s, e, p).next.reconnectDelay == InitialDelay
    ensures !OnTransport(s, e, p).next.isReconnecting
  {
  }
}

=== FILE: http_method.dfy ===
/** MastodonKit's `HTTPMethod`: a verb carrying a request payload, the
    accessors that route the payload into the URL query or the body, and
    its keyed Codable form. The payload type is a parameter, seen through
    the accessors `Payload` offers; its own Codable form is a pair of
    functions. */
module HttpMethods {
  import opened Wrappers
  import opened Text
  import opened Json

  /** MastodonKit's `Parameter`: a form or query field. */
  datatype Parameter = Parameter(name: string, value: Option<string>)

  /** The request payloads this model builds: query or form parameters,
      a JSON object body, or nothing. Media uploads are not modelled. */
  datatype Payload =
    | Parameters(params: Option<seq<Parameter>>)
    | JsonBody(body: map<string, Json>)
    | Empty

  datatype HttpMethod<P> = Get(payload: P) | Post(payload: P) | Put(payload: P) | Patch(payload: P) | Delete(payload: P)

  /** `Payload.items`, `Payload.data` and `Payload.type`. */
  datatype PayloadView<-P> = PayloadView(items: P -> Option<seq<QueryItem>>, data: P -> Option<Bytes>, contentType: P -> Option<string>)

  /** `Payload`'s own `encode(to:)` and `init(from:)`. */
  datatype PayloadCodec<!P> = PayloadCodec(encode: P -> Json, decode: Json -> Option<P>)

  ghost predicate Inverse<P(!new)>(c: PayloadCodec<P>) {
    forall p :: c.decode(c.encode(p)) == Some(p)
  }

  /** `name`: the upper-case HTTP verb. */
  function Name<P>(m: HttpMethod<P>): (r: string)
    ensures m.Get? <==> r == "GET"
    ensures m.Post? <==> r == "POST"
    ensures m.Put? <==> r == "PUT"
    ensures m.Patch? <==> r == "PATCH"
    ensures m.Delete? <==> r == "DELETE"
  {
    match m
    case Get(_) => "GET"
    case Post(_) => "POST"
    case Put(_) => "PUT"
    case Delete(_) => "DELETE"
    case Patch(_) => "PATCH"
  }

  /** Each verb has its own name. */
  lemma NameDistinguishesVerbs<P>(a: HttpMethod<P>, b: HttpMethod<P>)
    requires Name(a) == Name(b)
    ensures a.Get? == b.Get? && a.Post? == b.Post? && a.Put? == b.Put? && a.Patch? == b.Patch? && a.Delete? == b.Delete?
  {
  }

  /** `queryItems`: only a GET puts its payload into the URL. */
  function QueryItems<P>(m: HttpMethod<P>, v: PayloadView<P>): (r: Option<seq<QueryItem>>)
    ensures m.Get? ==> r == v.items(m.payload)
    ensures !m.Get? ==> r.None?
  {
    match m
    case Get(p) => v.items(p)
    case _ => None
  }

  /** `httpBody`: every verb but GET sends its payload as the body. */
  function HttpBody<P>(m: HttpMethod<P>, v: PayloadView<P>): (r: Option<Bytes>)
    ensures m.Get? ==> r.None?
    ensures !m.Get? ==> r == v.data(m.payload)
  {
    match m
    case Get(_) => None
    case Post(p) => v.data(p)
    case Put(p) => v.data(p)
    case Patch(p) => v.data(p)
    case Delete(p) => v.data(p)
  }

  /** `contentType`, alongside `httpBody`. */
  function ContentType<P>(m: HttpMethod<P>, v: PayloadView<P>): (r: Option<string>)
    ensures m.Get? ==> r.None?
    ensures !m.Get? ==> r == v.contentType(m.payload)
  {
    match m
    case Get(_) => None
    case Post(p) => v.contentType(p)
    case Put(p) => v.contentType(p)
    case Patch(p) => v.contentType(p)
    case Delete(p) => v.contentType(p)
  }

  /** The payload goes to exactly one place: the query for GET, the body
      otherwise. */
  lemma PayloadRoutedOnce<P>(m: HttpMethod<P>, v: PayloadView<P>)
    ensures QueryItems(m, v).None? || (HttpBody(m, v).None? && ContentType(m, v).None?)
  {
  }

  /** The lowercase type tag of the Codable form. */
  function Tag<P>(m: HttpMethod<P>): string {
    match m
    case Get(_) => "get"
    case Post(_) => "post"
    case Put(_) => "put"
    case Patch(_) => "patch"
    case Delete(_) => "delete"
  }

  /** `encode(to:)`. */
  function Encode<P>(m: HttpMethod<P>, c: PayloadCodec<P>): (j: Json)
    ensures j.JObject? && j.fields.Keys == {"type", "payload"}
    ensures j.fields["type"] == JString(Tag(m)) && j.fields["payload"] == c.encode(m.payload)
  {
    JObject(map["type" := JString(Tag(m)), "payload" := c.encode(m.payload)])
  }

  /** `init(from:)`: the type tag first; an unknown tag throws before the
      payload is read. */
  function Decode<P>(j: Json, c: PayloadCodec<P>): (r: Result<HttpMethod<P>, DecodeError>)
    ensures !j.JObject? ==> r == Err(NotAnObject)
    ensures r.Ok? ==> "type" in j.fields && "payload" in j.fields
    ensures r.Ok? ==> j.fields["type"] == JString(Tag(r.value))
    ensures r.Ok? ==> c.decode(j.fields["payload"]) == Some(r.value.payload)
  {
    if !j.JObject? then Err(NotAnObject)
    else
      var o := j.fields;
      match DecodeString(o, "type")
      case Err(e) => Err(e)
      case Ok(tag) =>
        if tag !in {"get", "post", "put", "patch", "delete"} then Err(UnknownTag(tag))
        else if "payload" !in o then Err(KeyNotFound("payload"))
        else
          match c.decode(o["payload"])
          case None => Err(Malformed("payload"))
          case Some(p) =>
            Ok(if tag == "get" then Get(p)
               else if tag == "post" then Post(p)
               else if tag == "put" then Put(p)
               else if tag == "patch" then Patch(p)
               else Delete(p))
  }

  lemma DecodeEncode<P(!new)>(m: HttpMethod<P>, c: PayloadCodec<P>)
    requires Inverse(c)
    ensures Decode(Encode(m, c), c) == Ok(m)
  {
  }

  /** A type tag other than the five verbs fails with that tag. */
  lemma UnknownTagFails<P>(o: Object, tag: string, c: PayloadCodec<P>)
    requires "type" in o && o["type"] == JString(tag)
    requires tag !in {"get", "post", "put", "patch", "delete"}
    ensures Decode(JObject(o), c) == Err(UnknownTag(tag))
  {
  }
}

=== FILE: json.dfy ===
/** The JSON values the `Codable` types of the model read and write, and the
    keyed-container operations of Swift's `Decoder` that they use. Textual
    JSON parsing and printing (`JSONDecoder`, `JSONEncoder`) are not part of
    this model: decoders start from an already-parsed value. */
module Json {
  import opened Wrappers

  datatype Json =
    | JNull
    | JBool(b: bool)
    | JNumber(n: int)
    | JString(s: string)
    | JArray(items: seq<Json>)
    | JObject(fields: map<string, Json>)

  type Object = map<string, Json>

  /** Why a `Decodable` initializer threw. */
  datatype DecodeError =
    | NotAnObject                 // `decoder.container(keyedBy:)` on a non-object
    | KeyNotFound(key: string)    // `decode(_:forKey:)` on an absent key
    | Malformed(key: string)      // present but null, ill-typed or rejected
    | UnknownTag(tag: string)     // `dataCorruptedError` for an unknown type tag

  const Int64Min: int := -0x8000_0000_0000_0000
  const Int64Max: int := 0x7FFF_FFFF_FFFF_FFFF

  /** `decode(String.self, forKey:)`. */
  function DecodeString(o: Object, key: string): (r: Result<string, DecodeError>)
    ensures r.Ok? <==> key in o && o[key].JString?
    ensures r.Ok? ==> o[key] == JString(r.value)
    ensures r.Err? ==> r.error == (if key in o then Malformed(key) else KeyNotFound(key))
  {
    if key !in o then Err(KeyNotFound(key))
    else if o[key].JString? then Ok(o[key].s)
    else Err(Malformed(key))
  }

  /** `decode(Int.self, forKey:)`: Swift's `Int` is 64 bits wide, so a
      number outside that range is rejected. */
  function DecodeInt(o: Object, key: string): (r: Result<int, DecodeError>)
    ensures r.Ok? <==> key in o && o[key].JNumber? && Int64Min <= o[key].n <= Int64Max
    ensures r.Ok? ==> o[key] == JNumber(r.value)
    ensures r.Err? ==> r.error == (if key in o then Malformed(key) else KeyNotFound(key))
  {
    if key !in o then Err(KeyNotFound(key))
    else if o[key].JNumber? && Int64Min <= o[key].n <= Int64Max then Ok(o[key].n)
    else Err(Malformed(key))
  }

  /** `decode(Bool.self, forKey:)`. */
  function DecodeBool(o: Object, key: string): (r: Result<bool, DecodeError>)
    ensures r.Ok? <==> key in o && o[key].JBool?
    ensures r.Ok? ==> o[key] == JBool(r.value)
  {
    if key !in o then Err(KeyNotFound(key))
    else if o[key].JBool? then Ok(o[key].b)
    else Err(Malformed(key))
  }

  /** `decode(_:forKey:)` of a value whose own decoder is outside the model:
      `valid` says whether that decoder accepts the value, which is then
      kept verbatim. */
  function DecodeWith(o: Object, key: string, valid: Json -> bool): (r: Result<Json, DecodeError>)
    ensures r.Ok? <==> key in o && valid(o[key])
    ensures r.Ok? ==> r.value == o[key]
  {
    if key !in o then Err(KeyNotFound(key))
    else if valid(o[key]) then Ok(o[key])
    else Err(Malformed(key))
  }

  /** `decode([T].self, forKey:)`: an array all of whose elements decode. */
  function DecodeArrayWith(o: Object, key: string, valid: Json -> bool): (r: Result<seq<Json>, DecodeError>)
    ensures r.Ok? <==> key in o && o[key].JArray? && forall i :: 0 <= i < |o[key].items| ==> valid(o[key].items[i])
    ensures r.Ok? ==> o[key] == JArray(r.value)
  {
    if key !in o then Err(KeyNotFound(key))
    else if o[key].JArray? && forall i :: 0 <= i < |o[key].items| ==> valid(o[key].items[i]) then Ok(o[key].items)
    else Err(Malformed(key))
  }

  /** `decodeIfPresent(String.self, forKey:)`: absent or null is `nil`,
      anything else but a string throws. */
  function DecodeStringIfPresent(o: Object, key: string): (r: Result<Option<string>, DecodeError>)
    ensures r == Ok(None) <==> key !in o || o[key] == JNull
    ensures r.Err? <==> key in o && o[key] != JNull && !o[key].JString?
  {
    if key !in o || o[key] == JNull then Ok(None)
    else if o[key].JString? then Ok(Some(o[key].s))
    else Err(Malformed(key))
  }
}

=== FILE: media_attachment.dfy ===
/** MastodonKit's `MediaAttachment`: an upload's bytes with its kind, the
    derived file name and MIME type, its data-URI form, its keyed Codable
    form, and its multipart form part. Base64 itself is not part of this
    model: it is a pair of functions, assumed to invert each other where a
    round trip needs it. */
module MediaAttachments {
  import opened Wrappers
  import opened Text
  import opened Json

  datatype MediaAttachment =
    | Jpeg(payload: Option<Bytes>)
    | Gif(payload: Option<Bytes>)
    | Png(payload: Option<Bytes>)
    | OtherMedia(payload: Option<Bytes>, fileExtension: string, mime: string)

  /** `Data.base64EncodedString()` and `Data(base64Encoded:)`. */
  datatype Base64 = Base64(encode: Bytes -> string, decode: string -> Option<Bytes>)

  ghost predicate Inverse(b: Base64) {
    forall d :: b.decode(b.encode(d)) == Some(d)
  }

  /** `data`. */
  function Data(a: MediaAttachment): (d: Option<Bytes>)
    ensures d == a.payload
  {
    match a
    case Jpeg(d) => d
    case Gif(d) => d
    case Png(d) => d
    case OtherMedia(d, _, _) => d
  }

  /** `fileName`. */
  function FileName(a: MediaAttachment): (r: string)
    ensures IsPrefix("file.", r)
    ensures a.Jpeg? ==> r == "file.jpg"
    ensures a.Gif? ==> r == "file.gif"
    ensures a.Png? ==> r == "file.png"
    ensures a.OtherMedia? ==> r == "file." + a.fileExtension
  {
    match a
    case Jpeg(_) => "file.jpg"
    case Gif(_) => "file.gif"
    case Png(_) => "file.png"
    case OtherMedia(_, ext, _) => "file." + ext
  }

  /** `mimeType`: the JPEG type is spelled "image/jpg". */
  function MimeType(a: MediaAttachment): (r: string)
    ensures a.Jpeg? ==> r == "image/jpg"
    ensures a.Gif? ==> r == "image/gif"
    ensures a.Png? ==> r == "image/png"
    ensures a.OtherMedia? ==> r == a.mime
    ensures !a.OtherMedia? ==> IsPrefix("image/", r) && ';' !in r
  {
    match a
    case Jpeg(_) => "image/jpg"
    case Gif(_) => "image/gif"
    case Png(_) => "image/png"
    case OtherMedia(_, _, mime) => mime
  }

  /** For the three image kinds the file extension is the MIME subtype,
      and the MIME type tells the kinds apart. */
  lemma ImageNamesAgree(a: MediaAttachment, b: MediaAttachment)
    requires !a.OtherMedia? && !b.OtherMedia?
    ensures FileName(a)[|"file."|..] == MimeType(a)[|"image/"|..]
    ensures MimeType(a) == MimeType(b) <==> (a.Jpeg? && b.Jpeg?) || (a.Gif? && b.Gif?) || (a.Png? && b.Png?)
  {
  }

  const DataScheme: string := "data:"
  const Base64Marker: string := ";base64,"

  /** `base64EncondedString`: the data URI of section 3 of RFC 2397. */
  function Base64EncodedString(a: MediaAttachment, b: Base64): (r: Option<string>)
    ensures r.None? <==> Data(a).None?
    ensures r.Some? ==> IsPrefix(DataScheme + MimeType(a) + Base64Marker, r.value)
  {
    match Data(a)
    case None => None
    case Some(d) =>
      var s := DataScheme + MimeType(a) + Base64Marker + b.encode(d);
      assert s[..|DataScheme + MimeType(a) + Base64Marker|] == DataScheme + MimeType(a) + Base64Marker;
      Some(s)
  }

  /** Reads a base64 data URI back into its media type and payload text. */
  function ParseDataUri(s: string): (r: Option<(string, string)>)
    ensures r.Some? ==> ';' !in r.value.0
    ensures r.Some? ==> s == DataScheme + r.value.0 + Base64Marker + r.value.1
  {
    if !IsPrefix(DataScheme, s) then None
    else
      var rest := s[|DataScheme|..];
      var n := FieldLength(rest, ';');
      var tail := rest[n..];
      if IsPrefix(Base64Marker, tail) then
        assert s == DataScheme + rest[..n] + Base64Marker + tail[|Base64Marker|..];
        Some((rest[..n], tail[|Base64Marker|..]))
      else None
  }

  lemma ParseDataUriOf(m: string, e: string)
    requires ';' !in m
    ensures ParseDataUri(DataScheme + m + Base64Marker + e) == Some((m, e))
  {
    var s := DataScheme + m + Base64Marker + e;
    var rest := s[|DataScheme|..];
    assert s[..|DataScheme|] == DataScheme;
    assert rest == m + [';'] + ("base64," + e);
    FieldLengthOfField(m, "base64," + e, ';');
    assert rest[..|m|] == m;
    assert rest[|m|..] == Base64Marker + e;
    assert (Base64Marker + e)[..|Base64Marker|] == Base64Marker;
    assert (Base64Marker + e)[|Base64Marker|..] == e;
  }

  /** The data URI gives back the media type and, through base64, the
      bytes, when the media type holds no ';'. */
  lemma DataUriRoundTrip(a: MediaAttachment, b: Base64)
    requires Data(a).Some? && ';' !in MimeType(a)
    requires Inverse(b)
    ensures ParseDataUri(Base64EncodedString(a, b).value) == Some((MimeType(a), b.encode(Data(a).value)))
    ensures b.decode(ParseDataUri(Base64EncodedString(a, b).value).value.1) == Data(a)
  {
    ParseDataUriOf(MimeType(a), b.encode(Data(a).value));
  }

  // ---------------------------------------------------------------------
  // Codable, keyed by "type", "data", "fileExtension" and "mimeType"

  function TypeTag(a: MediaAttachment): string {
    match a
    case Jpeg(_) => "jpeg"
    case Gif(_) => "gif"
    case Png(_) => "png"
    case OtherMedia(_, _, _) => "other"
  }

  /** `encode(to:)`: `encodeIfPresent` leaves the data key out for nil. */
  function Encode(a: MediaAttachment, b: Base64): (j: Json)
    ensures j.JObject? && "type" in j.fields && j.fields["type"] == JString(TypeTag(a))
    ensures "data" in j.fields <==> Data(a).Some?
    ensures a.OtherMedia? <==> "mimeType" in j.fields
  {
    var typed := map["type" := JString(TypeTag(a))];
    var withData := if Data(a).Some? then typed["data" := JString(b.encode(Data(a).value))] else typed;
    match a
    case OtherMedia(_, ext, mime) => JObject(withData["fileExtension" := JString(ext)]["mimeType" := JString(mime)])
    case _ => JObject(withData)
  }

  /** `decodeIfPresent(Data.self, forKey: .data)`: absent or null is nil;
      a string that is not base64, or any other value, throws. */
  function DecodeDataIfPresent(o: Object, b: Base64): (r: Result<Option<Bytes>, DecodeError>)
    ensures r == Ok(None) <==> "data" !in o || o["data"] == JNull
    ensures r.Ok? && r.value.Some? ==> o["data"].JString? && b.decode(o["data"].s) == r.value
  {
    if "data" !in o || o["data"] == JNull then Ok(None)
    else if o["data"].JString? && b.decode(o["data"].s).Some? then Ok(b.decode(o["data"].s))
    else Err(Malformed("data"))
  }

  /** `init(from:)`. */
  function Decode(j: Json, b: Base64): (r: Result<MediaAttachment, DecodeError>)
    ensures !j.JObject? ==> r == Err(NotAnObject)
    ensures r.Ok? ==> "type" in j.fields && j.fields["type"] == JString(TypeTag(r.value))
    ensures r.Ok? ==> DecodeDataIfPresent(j.fields, b) == Ok(Data(r.value))
  {
    if !j.JObject? then Err(NotAnObject)
    else
      var o := j.fields;
      match DecodeString(o, "type")
      case Err(e) => Err(e)
      case Ok(tag) =>
        if tag !in {"jpeg", "gif", "png", "other"} then Err(UnknownTag(tag))
        else
          match DecodeDataIfPresent(o, b)
          case Err(e) => Err(e)
          case Ok(d) =>
            if tag == "jpeg" then Ok(Jpeg(d))
            else if tag == "gif" then Ok(Gif(d))
            else if tag == "png" then Ok(Png(d))
            else
              match DecodeString(o, "fileExtension")
              case Err(e) => Err(e)
              case Ok(ext) =>
                match DecodeString(o, "mimeType")
                case Err(e) => Err(e)
                case Ok(mime) => Ok(OtherMedia(d, ext, mime))
  }

  /** Encoding then decoding gives back the same case, data, extension
      and media type. */
  lemma DecodeEncode(a: MediaAttachment, b: Base64)
    requires Inverse(b)
    ensures Decode(Encode(a, b), b) == Ok(a)
  {
    var o := Encode(a, b).fields;
    assert o["type"] == JString(TypeTag(a));
    if Data(a).Some? {
      assert o["data"] == JString(b.encode(Data(a).value));
    }
  }

  /** A type tag other than the four known ones fails with that tag. */
  lemma UnknownTagFails(o: Object, tag: string, b: Base64)
    requires "type" in o && o["type"] == JString(tag)
    requires tag !in {"jpeg", "gif", "png", "other"}
    ensures Decode(JObject(o), b) == Err(UnknownTag(tag))
  {
  }

  // ---------------------------------------------------------------------
  // `FormMediaAttachment.formItemValue`

  datatype FormMediaAttachment = FormMediaAttachment(name: string, attachment: Option<MediaAttachment>)

  /** `applyingCarriageReturns`: every line feed becomes CR LF. */
  function ApplyingCarriageReturns(s: string): (r: string)
    ensures |r| >= |s|
    ensures forall i :: 0 <= i < |r| && r[i] == '\n' ==> 0 < i && r[i - 1] == '\r'
  {
    if |s| == 0 then ""
    else (if s[0] == '\n' then "\r\n" else [s[0]]) + ApplyingCarriageReturns(s[1..])
  }

  lemma {:induction false} ApplyingCarriageReturnsAppend(a: string, b: string)
    ensures ApplyingCarriageReturns(a + b) == ApplyingCarriageReturns(a) + ApplyingCarriageReturns(b)
  {
    if |a| > 0 {
      assert (a + b)[1..] == a[1..] + b;
      ApplyingCarriageReturnsAppend(a[1..], b);
    } else {
      assert a + b == b;
    }
  }

  /** The part's header lines as the source writes them, before the line
      feeds become CR LF: boundary line, disposition, type, blank line. */
  function HeaderLines(boundary: string, name: string, fileName: string, mime: string): (r: string)
    ensures IsPrefix("--" + boundary + "\n", r)
    ensures |r| >= 2 && r[|r| - 2..] == "\n\n"
  {
    "--" + boundary + "\n"
    + "Content-Disposition: form-data; name=\"" + name + "\"; filename=\"" + fileName + "\"\n"
    + "Content-Type: " + mime + "\n\n"
  }

  function PartHeader(boundary: string, name: string, a: MediaAttachment): string {
    ApplyingCarriageReturns(HeaderLines(boundary, name, FileName(a), MimeType(a)))
  }

  /** `formItemValue`: nil without an attachment or its data; otherwise
      the header, the data and a closing CR LF. */
  function FormItemValue(f: FormMediaAttachment, boundary: string): (r: Option<Bytes>)
    ensures r.None? <==> f.attachment.None? || Data(f.attachment.value).None?
    ensures r.Some? ==>
      var h := Utf8(PartHeader(boundary, f.name, f.attachment.value));
      && |r.value| == |h| + |Data(f.attachment.value).value| + 2
      && r.value[..|h|] == h
      && r.value[|h|..|r.value| - 2] == Data(f.attachment.value).value
      && r.value[|r.value| - 2..] == [13, 10]
  {
    match f.attachment
    case None => None
    case Some(a) =>
      match Data(a)
      case None => None
      case Some(d) =>
        var h := Utf8(PartHeader(boundary, f.name, a));
        var v := h + d + Utf8("\r\n");
        assert Utf8("\r\n") == [13, 10];
        assert v[..|h|] == h && v[|h|..|v| - 2] == d;
        Some(v)
  }

  /** A line-feed-free string keeps its characters. */
  lemma {:induction false} NoLineFeedUnchanged(s: string)
    requires '\n' !in s
    ensures ApplyingCarriageReturns(s) == s
  {
    if |s| > 0 {
      assert s[0] in s;
      assert forall c :: c in s[1..] ==> c in s;
      NoLineFeedUnchanged(s[1..]);
    }
  }

  lemma EndsWithBlankLine(x: string)
    ensures var r := ApplyingCarriageReturns(x + "\n\n");
      |r| >= 4 && r[|r| - 4..] == "\r\n\r\n"
  {
    ApplyingCarriageReturnsAppend(x, "\n\n");
    assert ApplyingCarriageReturns("\n\n") == "\r\n\r\n";
  }

  lemma StartsWithLine(p: string, x: string)
    requires '\n' !in p
    ensures IsPrefix(p + "\r\n", ApplyingCarriageReturns(p + "\n" + x))
  {
    ApplyingCarriageReturnsAppend(p + "\n", x);
    ApplyingCarriageReturnsAppend(p, "\n");
    NoLineFeedUnchanged(p);
    assert ApplyingCarriageReturns("\n") == "\r\n";
    var r := ApplyingCarriageReturns(p + "\n" + x);
    assert r == (p + "\r\n") + ApplyingCarriageReturns(x);
    assert r[..|p + "\r\n"|] == p + "\r\n";
  }

  /** The header opens with the boundary line and ends with the blank
      line that separates it from the data (section 4.1 of RFC 7578). */
  lemma PartHeaderShape(boundary: string, name: string, a: MediaAttachment)
    requires '\n' !in boundary
    ensures var h := PartHeader(boundary, name, a);
      && IsPrefix("--" + boundary + "\r\n", h)
      && |h| >= 4 && h[|h| - 4..] == "\r\n\r\n"
  {
    var middle := "Content-Disposition: form-data; name=\"" + name + "\"; filename=\"" + FileName(a) + "\"\n"
      + "Content-Type: " + MimeType(a);
    assert HeaderLines(boundary, name, FileName(a), MimeType(a)) == "--" + boundary + "\n" + middle + "\n\n";
    FramedShape(boundary, middle);
  }

  /** The shape of a boundary line, any middle, and a blank line, once
      the line feeds become CR LF. */
  lemma FramedShape(boundary: string, middle: string)
    requires '\n' !in boundary
    ensures var h := ApplyingCarriageReturns("--" + boundary + "\n" + middle + "\n\n");
      && IsPrefix("--" + boundary + "\r\n", h)
      && |h| >= 4 && h[|h| - 4..] == "\r\n\r\n"
  {
    var lines := "--" + boundary + "\n" + middle + "\n\n";
    assert lines == ("--" + boundary + "\n" + middle) + "\n\n";
    assert lines == ("--" + boundary) + "\n" + (middle + "\n\n");
    EndsWithBlankLine("--" + boundary + "\n" + middle);
    assert forall c :: c in "--" + boundary ==> c == '-' || c in boundary;
    StartsWithLine("--" + boundary, middle + "\n\n");
  }
}

=== FILE: mk_result.dfy ===
/** MastodonKit's `MKResult`: a request's model and pagination, or the
    client error, with its convenience accessors. */
module MKResults {
  import opened Wrappers

  /** The `ClientError` cases this model distinguishes: an HTTP status the
      client rejected, and every other failure by its description. */
  datatype ClientError = BadStatus(statusCode: int) | OtherError(description: string)

  datatype MKResult<M, P> = Success(model: M, pagination: Option<P>) | Failure(error: ClientError)

  /** `value`. */
  function Value<M, P>(r: MKResult<M, P>): (v: Option<M>)
    ensures v.Some? <==> r.Success?
    ensures v.Some? ==> v.value == r.model
  {
    match r
    case Success(m, _) => Some(m)
    case Failure(_) => None
  }

  /** `pagination`. */
  function Pagination<M, P>(r: MKResult<M, P>): (p: Option<P>)
    ensures r.Failure? ==> p.None?
    ensures r.Success? ==> p == r.pagination
  {
    match r
    case Success(_, p) => p
    case Failure(_) => None
  }

  /** `error`. */
  function Error<M, P>(r: MKResult<M, P>): (e: Option<ClientError>)
    ensures e.Some? <==> r.Failure?
    ensures e.Some? ==> e.value == r.error
  {
    match r
    case Success(_, _) => None
    case Failure(e) => Some(e)
  }

  /** `isError`: exactly when `error` is set and `value` is not. */
  function IsError<M, P>(r: MKResult<M, P>): (b: bool)
    ensures b <==> Error(r).Some?
    ensures b <==> Value(r).None?
  {
    match r
    case Success(_, _) => false
    case Failure(_) => true
  }

  /** `isError` agrees with `error` and `value`, and the accessors
      together determine the result. */
  lemma AccessorsDetermineResult<M, P>(r: MKResult<M, P>)
    ensures IsError(r) <==> Error(r).Some?
    ensures IsError(r) <==> Value(r).None?
    ensures r == if IsError(r) then Failure(Error(r).value) else Success(Value(r).value, Pagination(r))
  {
  }
}

=== FILE: models.dfy ===
/** MastodonKit's `Account` and `Status` models and their `Decodable`
    initializers. Each initializer has a fixed set of required keys, whose
    absence or malformation makes the whole decode throw, and optional keys,
    read with `try?`, that never make it throw and leave the field at its
    default when absent or malformed. Values whose own decoders are outside
    this model (dates, URLs, emojis, attachments, ...) are judged by an
    oracle `valid(kind, json)` and kept verbatim. */
module Models {
  import opened Wrappers
  import opened Json

  /** The nested value types whose decoders are not part of this model. */
  datatype Nested =
    | UrlValue | DateValue | EmojiValue | AttachmentValue | MentionValue | TagValue
    | ApplicationValue | CardValue | PollValue | VisibilityValue | MetadataFieldValue | SourceValue

  type Oracle = (Nested, Json) -> bool

  // ---------------------------------------------------------------------
  // Account

  datatype Account = Account(
    id: string,
    username: string,
    acct: string,
    displayName: string,
    note: string,
    url: Json,
    avatar: Option<string>,
    avatarStatic: Option<string>,
    header: Option<string>,
    headerStatic: Option<string>,
    locked: bool,
    createdAt: Option<Json>,   // None: the construction instant `Date()`
    followersCount: int,
    followingCount: int,
    statusesCount: int,
    moved: Option<Account>,
    fields: Option<seq<Json>>,
    bot: Option<bool>,
    source: Option<Json>,
    emojis: seq<Json>)

  const PlaceholderUrl: Json := JString("http://google.com")

  /** `Account()`: every stored property at its declared default. */
  function DefaultAccount(): (a: Account)
    ensures a.id == a.username == a.acct == a.displayName == a.note == ""
    ensures a.url == PlaceholderUrl && !a.locked && a.emojis == []
    ensures a.avatar.None? && a.avatarStatic.None? && a.header.None? && a.headerStatic.None?
    ensures a.moved.None? && a.fields.None? && a.bot.None? && a.source.None?
    ensures a.followersCount == a.followingCount == a.statusesCount == 0
  {
    Account("", "", "", "", "", PlaceholderUrl, None, None, None, None, false, None,
            0, 0, 0, None, None, None, None, [])
  }

  predicate IsString(o: Object, k: string) {
    k in o && o[k].JString?
  }

  predicate IsInt(o: Object, k: string) {
    k in o && o[k].JNumber? && Int64Min <= o[k].n <= Int64Max
  }

  predicate IsA(o: Object, k: string, kind: Nested, valid: Oracle) {
    k in o && valid(kind, o[k])
  }

  predicate IsArrayOf(o: Object, k: string, kind: Nested, valid: Oracle) {
    k in o && o[k].JArray? && forall i :: 0 <= i < |o[k].items| ==> valid(kind, o[k].items[i])
  }

  /** The required keys of `Account.init(from:)`, each well-formed. */
  predicate AccountRequired(o: Object, valid: Oracle) {
    && IsString(o, "id") && IsString(o, "username") && IsString(o, "acct")
    && IsString(o, "display_name") && IsString(o, "note")
    && IsA(o, "created_at", DateValue, valid)
    && IsInt(o, "followers_count") && IsInt(o, "following_count") && IsInt(o, "statuses_count")
  }

  const AccountRequiredKeys: set<string> :=
    {"id", "username", "acct", "display_name", "note", "created_at",
     "followers_count", "following_count", "statuses_count"}

  function Valid(valid: Oracle, kind: Nested): Json -> bool {
    j => valid(kind, j)
  }

  /** `try? values.decode(String.self, forKey:)`. */
  function TryString(o: Object, k: string): (r: Option<string>)
    ensures r == if IsString(o, k) then Some(o[k].s) else None
  {
    DecodeString(o, k).ToOption()
  }

  function TryBool(o: Object, k: string): (r: Option<bool>)
    ensures r == if k in o && o[k].JBool? then Some(o[k].b) else None
  {
    DecodeBool(o, k).ToOption()
  }

  function TryWith(o: Object, k: string, kind: Nested, valid: Oracle): (r: Option<Json>)
    ensures r == if IsA(o, k, kind, valid) then Some(o[k]) else None
  {
    DecodeWith(o, k, Valid(valid, kind)).ToOption()
  }

  function TryArrayWith(o: Object, k: string, kind: Nested, valid: Oracle): (r: Option<seq<Json>>)
    ensures r == if IsArrayOf(o, k, kind, valid) then Some(o[k].items) else None
  {
    DecodeArrayWith(o, k, Valid(valid, kind)).ToOption()
  }

  /** The error `decode(_:forKey:)` throws for a key that is not usable. */
  function KeyError(o: Object, k: string): DecodeError {
    if k in o then Malformed(k) else KeyNotFound(k)
  }

  /** The error of the first required key, in the order the initializer
      reads them, that is not usable. */
  function AccountFailure(o: Object, valid: Oracle): (e: DecodeError)
    requires !AccountRequired(o, valid)
    ensures e.Malformed? || e.KeyNotFound?
    ensures e.key in AccountRequiredKeys
  {
    if !IsString(o, "id") then KeyError(o, "id")
    else if !IsString(o, "username") then KeyError(o, "username")
    else if !IsString(o, "acct") then KeyError(o, "acct")
    else if !IsString(o, "display_name") then KeyError(o, "display_name")
    else if !IsString(o, "note") then KeyError(o, "note")
    else if !IsA(o, "created_at", DateValue, valid) then KeyError(o, "created_at")
    else if !IsInt(o, "followers_count") then KeyError(o, "followers_count")
    else if !IsInt(o, "following_count") then KeyError(o, "following_count")
    else KeyError(o, "statuses_count")
  }

  /** `Account.init(from:)`. */
  function DecodeAccount(j: Json, valid: Oracle): (r: Result<Account, DecodeError>)
    ensures r.Ok? <==> j.JObject? && AccountRequired(j.fields, valid)
    ensures r.Ok? ==>
      var o := j.fields;
      && JString(r.value.id) == o["id"] && JString(r.value.acct) == o["acct"]
      && JString(r.value.username) == o["username"] && JString(r.value.note) == o["note"]
      && JString(r.value.displayName) == o["display_name"]
      && r.value.createdAt == Some(o["created_at"])
      && JNumber(r.value.followersCount) == o["followers_count"]
      && JNumber(r.value.followingCount) == o["following_count"]
      && JNumber(r.value.statusesCount) == o["statuses_count"]
      && (r.value.url == if IsA(o, "url", UrlValue, valid) then o["url"] else PlaceholderUrl)
      && (r.value.locked <==> "locked" in o && o["locked"] == JBool(true))
      && (r.value.avatar.Some? <==> IsString(o, "avatar"))
      && (r.value.moved.Some? <==> "moved" in o && DecodeAccount(o["moved"], valid).Ok?)
    ensures r.Ok? ==>
      var o := j.fields;
      && (r.value.avatar == if IsString(o, "avatar") then Some(o["avatar"].s) else None)
      && (r.value.avatarStatic == if IsString(o, "avatar_static") then Some(o["avatar_static"].s) else None)
      && (r.value.header == if IsString(o, "header") then Some(o["header"].s) else None)
      && (r.value.headerStatic == if IsString(o, "header_static") then Some(o["header_static"].s) else None)
      && (r.value.bot == if "bot" in o && o["bot"].JBool? then Some(o["bot"].b) else None)
    ensures r.Ok? ==>
      var o := j.fields;
      && (r.value.fields == if IsArrayOf(o, "fields", MetadataFieldValue, valid) then Some(o["fields"].items) else None)
      && (r.value.source == if IsA(o, "source", SourceValue, valid) then Some(o["source"]) else None)
      && (r.value.emojis == if IsArrayOf(o, "emojis", EmojiValue, valid) then o["emojis"].items else [])
      && (r.value.moved == if "moved" in o && DecodeAccount(o["moved"], valid).Ok? then Some(DecodeAccount(o["moved"], valid).value) else None)
    ensures r.Err? && j.JObject? ==> (r.error.KeyNotFound? || r.error.Malformed?) && r.error.key in AccountRequiredKeys
    decreases j
  {
    if !j.JObject? then Err(NotAnObject)
    else if !AccountRequired(j.fields, valid) then Err(AccountFailure(j.fields, valid))
    else
      var o := j.fields;
      var moved := if "moved" in o then DecodeAccount(o["moved"], valid).ToOption() else None;
      Ok(Account(
        id := o["id"].s,
        username := o["username"].s,
        acct := o["acct"].s,
        displayName := o["display_name"].s,
        note := o["note"].s,
        url := TryWith(o, "url", UrlValue, valid).GetOr(PlaceholderUrl),
        avatar := TryString(o, "avatar"),
        avatarStatic := TryString(o, "avatar_static"),
        header := TryString(o, "header"),
        headerStatic := TryString(o, "header_static"),
        locked := TryBool(o, "locked").GetOr(false),
        createdAt := Some(o["created_at"]),
        followersCount := o["followers_count"].n,
        followingCount := o["following_count"].n,
        statusesCount := o["statuses_count"].n,
        moved := moved,
        fields := TryArrayWith(o, "fields", MetadataFieldValue, valid),
        bot := TryBool(o, "bot"),
        source := TryWith(o, "source", SourceValue, valid),
        emojis := TryArrayWith(o, "emojis", EmojiValue, valid).GetOr([])))
  }

  /** `avatarURL`, `avatarStaticURL`, `headerURL` and `headerStaticURL`:
      the stored string run through `URL(string:)`. */
  datatype ImageKind = Avatar | AvatarStatic | Header | HeaderStatic

  function ImageString(a: Account, kind: ImageKind): Option<string> {
    match kind
    case Avatar => a.avatar
    case AvatarStatic => a.avatarStatic
    case Header => a.header
    case HeaderStatic => a.headerStatic
  }

  function ImageURL<U>(a: Account, kind: ImageKind, parseUrl: string -> Option<U>): (r: Option<U>)
    ensures ImageString(a, kind).None? ==> r.None?
    ensures r.Some? ==> r == parseUrl(ImageString(a, kind).value)
    ensures ImageString(a, kind).Some? ==> r == parseUrl(ImageString(a, kind).value)
  {
    match ImageString(a, kind)
    case None => None
    case Some(s) => parseUrl(s)
  }

  // ---------------------------------------------------------------------
  // Status

  datatype Status = Status(
    id: string,
    uri: string,
    url: Option<Json>,
    account: Account,
    inReplyToID: Option<string>,
    inReplyToAccountID: Option<string>,
    content: string,
    createdAt: Json,
    emojis: seq<Json>,
    reblogsCount: int,
    favouritesCount: int,
    reblogged: Option<bool>,
    favourited: Option<bool>,
    bookmarked: Option<bool>,
    sensitive: Option<bool>,
    spoilerText: string,
    visibility: Json,
    mediaAttachments: seq<Json>,
    mentions: seq<Json>,
    tags: seq<Json>,
    application: Option<Json>,
    language: Option<string>,
    reblog: Option<Status>,
    pinned: Option<bool>,
    card: Option<Json>,
    poll: Option<Json>,
    editedAt: Option<Json>,
    repliesCount: int)

  /** The required keys of `Status.init(from:)`, each well-formed. */
  predicate StatusRequired(o: Object, valid: Oracle) {
    && IsString(o, "id") && IsString(o, "uri") && IsString(o, "content")
    && IsA(o, "created_at", DateValue, valid)
    && IsArrayOf(o, "emojis", EmojiValue, valid)
    && IsInt(o, "reblogs_count") && IsInt(o, "favourites_count")
    && IsString(o, "spoiler_text")
    && IsA(o, "visibility", VisibilityValue, valid)
    && IsArrayOf(o, "media_attachments", AttachmentValue, valid)
    && IsArrayOf(o, "mentions", MentionValue, valid)
    && IsInt(o, "replies_count")
  }

  const StatusRequiredKeys: set<string> :=
    {"id", "uri", "content", "created_at", "emojis", "reblogs_count", "favourites_count",
     "spoiler_text", "visibility", "media_attachments", "mentions", "replies_count"}

  function StatusFailure(o: Object, valid: Oracle): (e: DecodeError)
    requires !StatusRequired(o, valid)
    ensures e.Malformed? || e.KeyNotFound?
    ensures e.key in StatusRequiredKeys
  {
    if !IsString(o, "id") then KeyError(o, "id")
    else if !IsString(o, "uri") then KeyError(o, "uri")
    else if !IsString(o, "content") then KeyError(o, "content")
    else if !IsA(o, "created_at", DateValue, valid) then KeyError(o, "created_at")
    else if !IsArrayOf(o, "emojis", EmojiValue, valid) then KeyError(o, "emojis")
    else if !IsInt(o, "reblogs_count") then KeyError(o, "reblogs_count")
    else if !IsInt(o, "favourites_count") then KeyError(o, "favourites_count")
    else if !IsString(o, "spoiler_text") then KeyError(o, "spoiler_text")
    else if !IsA(o, "visibility", VisibilityValue, valid) then KeyError(o, "visibility")
    else if !IsArrayOf(o, "media_attachments", AttachmentValue, valid) then KeyError(o, "media_attachments")
    else if !IsArrayOf(o, "mentions", MentionValue, valid) then KeyError(o, "mentions")
    else KeyError(o, "replies_count")
  }

  /** Each required field holds the value under its wire key. */
  predicate RequiredStatusKeysRead(st: Status, o: Object) {
    && "id" in o && JString(st.id) == o["id"] && "uri" in o && JString(st.uri) == o["uri"]
    && "content" in o && JString(st.content) == o["content"]
    && "spoiler_text" in o && JString(st.spoilerText) == o["spoiler_text"]
    && "created_at" in o && st.createdAt == o["created_at"]
    && "visibility" in o && st.visibility == o["visibility"]
    && "reblogs_count" in o && JNumber(st.reblogsCount) == o["reblogs_count"]
    && "favourites_count" in o && JNumber(st.favouritesCount) == o["favourites_count"]
    && "replies_count" in o && JNumber(st.repliesCount) == o["replies_count"]
    && "emojis" in o && JArray(st.emojis) == o["emojis"]
    && "mentions" in o && JArray(st.mentions) == o["mentions"]
    && "media_attachments" in o && JArray(st.mediaAttachments) == o["media_attachments"]
  }

  /** Each optional field holds the value under its wire key when that
      value is usable, and its default (nil, or no tags) otherwise. */
  predicate OptionalStatusKeysRead(st: Status, o: Object, valid: Oracle) {
    && (st.tags == if IsArrayOf(o, "tags", TagValue, valid) then o["tags"].items else [])
    && (st.url == if IsA(o, "url", UrlValue, valid) then Some(o["url"]) else None)
    && (st.application == if IsA(o, "application", ApplicationValue, valid) then Some(o["application"]) else None)
    && (st.card == if IsA(o, "card", CardValue, valid) then Some(o["card"]) else None)
    && (st.poll == if IsA(o, "poll", PollValue, valid) then Some(o["poll"]) else None)
    && (st.editedAt == if IsA(o, "edited_at", DateValue, valid) then Some(o["edited_at"]) else None)
    && (st.language == if IsString(o, "language") then Some(o["language"].s) else None)
    && (st.inReplyToID == if IsString(o, "in_reply_to_id") then Some(o["in_reply_to_id"].s) else None)
    && (st.inReplyToAccountID == if IsString(o, "in_reply_to_account_id") then Some(o["in_reply_to_account_id"].s) else None)
    && (st.reblogged == if "reblogged" in o && o["reblogged"].JBool? then Some(o["reblogged"].b) else None)
    && (st.favourited == if "favourited" in o && o["favourited"].JBool? then Some(o["favourited"].b) else None)
    && (st.bookmarked == if "bookmarked" in o && o["bookmarked"].JBool? then Some(o["bookmarked"].b) else None)
    && (st.sensitive == if "sensitive" in o && o["sensitive"].JBool? then Some(o["sensitive"].b) else None)
    && (st.pinned == if "pinned" in o && o["pinned"].JBool? then Some(o["pinned"].b) else None)
  }

  /** The status the initializer builds once its required keys are known
      to be usable; the account and the reblog are decoded by the caller. */
  function StatusFrom(o: Object, valid: Oracle, account: Account, reblog: Option<Status>): (st: Status)
    requires StatusRequired(o, valid)
    ensures RequiredStatusKeysRead(st, o)
    ensures OptionalStatusKeysRead(st, o, valid)
    ensures st.account == account && st.reblog == reblog
  {
    Status(
      id := o["id"].s,
      uri := o["uri"].s,
      url := TryWith(o, "url", UrlValue, valid),
      account := account,
      inReplyToID := TryString(o, "in_reply_to_id"),
      inReplyToAccountID := TryString(o, "in_reply_to_account_id"),
      content := o["content"].s,
      createdAt := o["created_at"],
      emojis := o["emojis"].items,
      reblogsCount := o["reblogs_count"].n,
      favouritesCount := o["favourites_count"].n,
      reblogged := TryBool(o, "reblogged"),
      favourited := TryBool(o, "favourited"),
      bookmarked := TryBool(o, "bookmarked"),
      sensitive := TryBool(o, "sensitive"),
      spoilerText := o["spoiler_text"].s,
      visibility := o["visibility"],
      mediaAttachments := o["media_attachments"].items,
      mentions := o["mentions"].items,
      tags := TryArrayWith(o, "tags", TagValue, valid).GetOr([]),
      application := TryWith(o, "application", ApplicationValue, valid),
      language := TryString(o, "language"),
      reblog := reblog,
      pinned := TryBool(o, "pinned"),
      card := TryWith(o, "card", CardValue, valid),
      poll := TryWith(o, "poll", PollValue, valid),
      editedAt := TryWith(o, "edited_at", DateValue, valid),
      repliesCount := o["replies_count"].n)
  }

  /** `Status.init(from:)`. A nested `reblog` or `account` that fails to
      decode is dropped rather than failing the outer status. */
  function DecodeStatus(j: Json, valid: Oracle): (r: Result<Status, DecodeError>)
    ensures r.Ok? <==> j.JObject? && StatusRequired(j.fields, valid)
    ensures r.Ok? ==> RequiredStatusKeysRead(r.value, j.fields)
    ensures r.Ok? ==> OptionalStatusKeysRead(r.value, j.fields, valid)
    ensures r.Ok? ==>
      var o := j.fields;
      r.value.account ==
        if "account" in o && DecodeAccount(o["account"], valid).Ok? then DecodeAccount(o["account"], valid).value
        else DefaultAccount()
    ensures r.Ok? ==>
      var o := j.fields;
      r.value.reblog == if "reblog" in o && DecodeStatus(o["reblog"], valid).Ok? then Some(DecodeStatus(o["reblog"], valid).value) else None
    ensures r.Err? && j.JObject? ==> (r.error.KeyNotFound? || r.error.Malformed?) && r.error.key in StatusRequiredKeys
    decreases j
  {
    if !j.JObject? then Err(NotAnObject)
    else if !StatusRequired(j.fields, valid) then Err(StatusFailure(j.fields, valid))
    else
      var o := j.fields;
      var account := if "account" in o then DecodeAccount(o["account"], valid).ToOption().GetOr(DefaultAccount())
                     else DefaultAccount();
      var reblog := if "reblog" in o then DecodeStatus(o["reblog"], valid).ToOption() else None;
      Ok(StatusFrom(o, valid, account, reblog))
  }

  /** `markAsPinned()`. */
  function MarkAsPinned(s: Status): (r: Status)
    ensures r.pinned == Some(true)
    ensures r.(pinned := s.pinned) == s
  {
    s.(pinned := Some(true))
  }

  // ---------------------------------------------------------------------
  // Properties

  /** Whether a decode succeeds depends on the required keys alone:
      dropping every optional key changes nothing. */
  lemma StatusOptionalKeysNeverFail(o: Object, valid: Oracle)
    ensures DecodeStatus(JObject(o), valid).Ok? <==>
            DecodeStatus(JObject(map k | k in o && k in StatusRequiredKeys :: o[k]), valid).Ok?
  {
    var p := map k | k in o && k in StatusRequiredKeys :: o[k];
    assert StatusRequired(o, valid) <==> StatusRequired(p, valid);
  }

  lemma AccountOptionalKeysNeverFail(o: Object, valid: Oracle)
    ensures DecodeAccount(JObject(o), valid).Ok? <==>
            DecodeAccount(JObject(map k | k in o && k in AccountRequiredKeys :: o[k]), valid).Ok?
  {
  }

  /** An object with only the required keys decodes to the default account
      carrying those nine values. */
  lemma AccountFromRequiredOnly(o: Object, valid: Oracle)
    requires AccountRequired(o, valid) && o.Keys == AccountRequiredKeys
    ensures DecodeAccount(JObject(o), valid) ==
      Ok(DefaultAccount().(id := o["id"].s, username := o["username"].s, acct := o["acct"].s,
                           displayName := o["display_name"].s, note := o["note"].s,
                           createdAt := Some(o["created_at"]),
                           followersCount := o["followers_count"].n,
                           followingCount := o["following_count"].n,
                           statusesCount := o["statuses_count"].n))
  {
    assert "url" !in o && "avatar" !in o && "avatar_static" !in o && "header" !in o;
    assert "header_static" !in o && "locked" !in o && "moved" !in o && "fields" !in o;
    assert "bot" !in o && "source" !in o && "emojis" !in o;
  }

  /** An object with only the required keys decodes to a status by the
      default account, with every optional field nil or empty. */
  lemma StatusFromRequiredOnly(o: Object, valid: Oracle)
    requires StatusRequired(o, valid) && o.Keys == StatusRequiredKeys
    ensures DecodeStatus(JObject(o), valid) ==
      Ok(Status(o["id"].s, o["uri"].s, None, DefaultAccount(), None, None, o["content"].s, o["created_at"],
                o["emojis"].items, o["reblogs_count"].n, o["favourites_count"].n, None, None, None, None,
                o["spoiler_text"].s, o["visibility"], o["media_attachments"].items, o["mentions"].items, [],
                None, None, None, None, None, None, None, o["replies_count"].n))
  {
    assert "url" !in o && "account" !in o && "in_reply_to_id" !in o && "in_reply_to_account_id" !in o;
    assert "reblogged" !in o && "favourited" !in o && "bookmarked" !in o && "sensitive" !in o;
    assert "tags" !in o && "application" !in o && "language" !in o && "reblog" !in o;
    assert "pinned" !in o && "card" !in o && "poll" !in o && "edited_at" !in o;
  }

  /** A malformed `moved` account is dropped; the outer decode still
      succeeds. */
  lemma MovedFailureContained(o: Object, valid: Oracle)
    requires AccountRequired(o, valid)
    requires "moved" in o && DecodeAccount(o["moved"], valid).Err?
    ensures DecodeAccount(JObject(o), valid).Ok?
    ensures DecodeAccount(JObject(o), valid).value.moved.None?
  {
  }

  /** A malformed or absent `reblog` is dropped; the outer decode still
      succeeds. */
  lemma ReblogFailureContained(o: Object, valid: Oracle)
    requires StatusRequired(o, valid)
    requires "reblog" !in o || DecodeStatus(o["reblog"], valid).Err?
    ensures DecodeStatus(JObject(o), valid).Ok?
    ensures DecodeStatus(JObject(o), valid).value.reblog.None?
  {
  }
}

=== FILE: notification_type.dfy ===
/** MastodonKit's `NotificationType`: six known kinds and `other` for any
    unknown string, with a total raw-value parser and a single-string
    Codable form. */
module NotificationTypes {
  import opened Wrappers
  import opened Json

  datatype NotificationType = Mention | Reblog | Favourite | Bookmark | Follow | Poll | Other(raw: string)

  /** The kind a known string names, if any. */
  function Known(s: string): (r: Option<NotificationType>)
    ensures r.Some? ==> !r.value.Other?
    ensures r == Some(Mention) <==> s == "mention"
    ensures r == Some(Reblog) <==> s == "reblog"
    ensures r == Some(Favourite) <==> s == "favourite"
    ensures r == Some(Bookmark) <==> s == "bookmark"
    ensures r == Some(Follow) <==> s == "follow"
    ensures r == Some(Poll) <==> s == "poll"
    ensures r.None? <==> s !in {"mention", "reblog", "favourite", "bookmark", "follow", "poll"}
  {
    if s == "mention" then Some(Mention)
    else if s == "reblog" then Some(Reblog)
    else if s == "favourite" then Some(Favourite)
    else if s == "bookmark" then Some(Bookmark)
    else if s == "follow" then Some(Follow)
    else if s == "poll" then Some(Poll)
    else None
  }

  /** `rawValue`: a known kind prints as the string that names it, and
      `other` prints the string it was built from. */
  function RawValue(t: NotificationType): (r: string)
    ensures !t.Other? ==> Known(r) == Some(t)
    ensures t.Other? ==> r == t.raw
  {
    match t
    case Mention => "mention"
    case Reblog => "reblog"
    case Favourite => "favourite"
    case Bookmark => "bookmark"
    case Follow => "follow"
    case Poll => "poll"
    case Other(raw) => raw
  }

  /** `init?(rawValue:)`: never nil. */
  function FromRaw(s: string): (r: Option<NotificationType>)
    ensures r.Some?
    ensures r.value.Other? <==> Known(s).None?
    ensures Known(s).Some? ==> r == Known(s)
    ensures r.value.Other? ==> r.value.raw == s
  {
    match Known(s)
    case Some(t) => Some(t)
    case None => Some(Other(s))
  }

  /** `init(from:)`: a single JSON string, parsed like `init?(rawValue:)`;
      anything but a string fails. */
  function Decode(j: Json): (r: Option<NotificationType>)
    ensures r.Some? <==> j.JString?
  {
    match j
    case JString(s) =>
      (match Known(s)
       case Some(t) => Some(t)
       case None => Some(Other(s)))
    case _ => None
  }

  /** `encode(to:)`. */
  function Encode(t: NotificationType): (j: Json)
    ensures j.JString?
  {
    match t
    case Mention => JString("mention")
    case Reblog => JString("reblog")
    case Favourite => JString("favourite")
    case Bookmark => JString("bookmark")
    case Follow => JString("follow")
    case Poll => JString("poll")
    case Other(raw) => JString(raw)
  }

  /** The string survives a trip through the enum, for every string. */
  lemma RawValueOfParse(s: string)
    ensures RawValue(FromRaw(s).value) == s
  {
  }

  /** The decoder agrees with `init?(rawValue:)`, and `encode` writes
      exactly `rawValue`. */
  lemma CodableAgreesWithRawValue(s: string, t: NotificationType)
    ensures Decode(JString(s)) == FromRaw(s)
    ensures Encode(t) == JString(RawValue(t))
  {
  }

  /** The enum survives a trip through its string exactly when it is not
      an `other` that holds a known kind's string. */
  lemma ParseOfRawValue(t: NotificationType)
    ensures FromRaw(RawValue(t)) == Some(t) <==> !(t.Other? && Known(t.raw).Some?)
  {
  }

  /** Encoding then decoding agrees with the raw-value trip. */
  lemma DecodeEncode(t: NotificationType)
    ensures Decode(Encode(t)) == FromRaw(RawValue(t))
  {
  }

  lemma OtherPollReparsesAsPoll()
    ensures FromRaw(RawValue(Other("poll"))) == Some(Poll)
    ensures Decode(Encode(Other("poll"))) == Some(Poll)
  {
  }
}

=== FILE: poll_service.dfy ===
/** `PollService`: validating a vote before it is sent, and turning the
    client's result into the service's own errors. The client's
    `localizedDescription` of an error is a function parameter. */
module PollServices {
  import opened Wrappers
  import opened Text
  import opened MKResults

  /** The parts of a `Poll` that a vote depends on. */
  datatype PollRef = PollRef(id: string, multiple: bool)

  datatype PollError = InvalidOptionsCount | ServerError(info: string)

  /** `Polls.vote(pollID:optionIndices:)` and `Polls.poll(id:)`. */
  datatype PollsRequest = Vote(pollID: string, options: set<nat>) | Fetch(pollID: string)

  /** The guard of `voteOn`: at least one option, and only one unless the
      poll allows several; a valid vote issues exactly one request. */
  function VoteRequest(poll: PollRef, options: set<nat>): (r: Result<PollsRequest, PollError>)
    ensures r.Err? <==> |options| == 0 || (!poll.multiple && |options| > 1)
    ensures r.Err? ==> r.error == InvalidOptionsCount
    ensures r.Ok? ==> r.value == Vote(poll.id, options)
  {
    if |options| == 0 || !(poll.multiple || |options| == 1) then Err(InvalidOptionsCount)
    else Ok(Vote(poll.id, options))
  }

  const BadStatusPrefix: string := "Bad Status: "

  /** The completion of `voteOn` and `poll(pollID:)`. */
  function ResultOf<M, P>(r: MKResult<M, P>, describe: ClientError -> string): (out: Result<M, PollError>)
    ensures out.Ok? <==> r.Success?
    ensures out.Ok? ==> out.value == r.model
    ensures r.Failure? && r.error.BadStatus? ==> out == Err(ServerError(BadStatusPrefix + DecimalString(r.error.statusCode)))
    ensures r.Failure? && !r.error.BadStatus? ==> out == Err(ServerError(describe(r.error)))
  {
    match r
    case Failure(BadStatus(code)) => Err(ServerError(BadStatusPrefix + DecimalString(code)))
    case Failure(e) => Err(ServerError(describe(e)))
    case Success(m, _) => Ok(m)
  }

  /** `poll(pollID:)`: the request, and the same result mapping as a vote. */
  function PollRequest(pollID: string): (r: PollsRequest)
    ensures r.pollID == pollID && r.Fetch?
  {
    Fetch(pollID)
  }

  /** A "Bad Status" message names its status code uniquely. */
  lemma BadStatusMessageInjective<M, P>(a: MKResult<M, P>, b: MKResult<M, P>, describe: ClientError -> string)
    requires a.Failure? && a.error.BadStatus? && b.Failure? && b.error.BadStatus?
    requires ResultOf(a, describe) == ResultOf(b, describe)
    ensures a == b
  {
    var sa := BadStatusPrefix + DecimalString(a.error.statusCode);
    var sb := BadStatusPrefix + DecimalString(b.error.statusCode);
    assert sa[|BadStatusPrefix|..] == DecimalString(a.error.statusCode);
    assert sb[|BadStatusPrefix|..] == DecimalString(b.error.statusCode);
    DecimalStringInjective(a.error.statusCode, b.error.statusCode);
  }
}

=== FILE: request_range.dfy ===
/** MastodonKit's `RequestRange`: the pagination cursor of a list request
    and the query parameters it becomes. */
module RequestRanges {
  import opened Wrappers
  import opened Text
  import opened HttpMethods

  datatype RequestRange =
    | Max(id: string, limit: Option<int>)
    | Min(id: string, limit: Option<int>)
    | Since(id: string, limit: Option<int>)
    | Limit(count: int)
    | Default

  /** `id`. */
  function Id(r: RequestRange): (id: Option<string>)
    ensures id.Some? <==> r.Max? || r.Min? || r.Since?
    ensures id.Some? ==> id.value == r.id
  {
    match r
    case Max(id, _) => Some(id)
    case Min(id, _) => Some(id)
    case Since(id, _) => Some(id)
    case Limit(_) => None
    case Default => None
  }

  function CursorName(r: RequestRange): string
    requires r.Max? || r.Min? || r.Since?
  {
    if r.Max? then "max_id" else if r.Min? then "min_id" else "since_id"
  }

  function LimitValue(limit: Option<int>, f: int -> int): Option<string> {
    if limit.Some? then Some(DecimalString(f(limit.value))) else None
  }

  /** `parameters(limit:)`: `f` adjusts the page size only. */
  function Parameters(r: RequestRange, f: int -> int): (ps: Option<seq<Parameter>>)
    ensures ps.None? <==> r.Default?
    ensures r.Limit? ==> ps == Some([Parameter("limit", Some(DecimalString(f(r.count))))])
    ensures r.Max? || r.Min? || r.Since? ==>
      && |ps.value| == 2
      && ps.value[0] == Parameter(CursorName(r), Some(r.id))
      && ps.value[1].name == "limit"
      && (ps.value[1].value.None? <==> r.limit.None?)
  {
    match r
    case Max(id, limit) => Some([Parameter("max_id", Some(id)), Parameter("limit", LimitValue(limit, f))])
    case Min(id, limit) => Some([Parameter("min_id", Some(id)), Parameter("limit", LimitValue(limit, f))])
    case Since(id, limit) => Some([Parameter("since_id", Some(id)), Parameter("limit", LimitValue(limit, f))])
    case Limit(count) => Some([Parameter("limit", Some(DecimalString(f(count))))])
    case Default => None
  }

  /** The range with `f` applied to its page size. */
  function Adjusted(r: RequestRange, f: int -> int): RequestRange {
    match r
    case Max(id, limit) => Max(id, if limit.Some? then Some(f(limit.value)) else None)
    case Min(id, limit) => Min(id, if limit.Some? then Some(f(limit.value)) else None)
    case Since(id, limit) => Since(id, if limit.Some? then Some(f(limit.value)) else None)
    case Limit(count) => Limit(f(count))
    case Default => Default
  }

  function ParseLimit(v: Option<string>): Option<Option<int>> {
    if v.None? then Some(None)
    else
      match ParseDecimal(v.value)
      case Some(n) => Some(Some(n))
      case None => None
  }

  /** Reads the parameters back into a range. */
  function RangeOf(ps: Option<seq<Parameter>>): Option<RequestRange> {
    match ps
    case None => Some(Default)
    case Some(items) =>
      if |items| == 1 && items[0].name == "limit" && items[0].value.Some? then
        match ParseDecimal(items[0].value.value)
        case Some(n) => Some(Limit(n))
        case None => None
      else if |items| == 2 && items[1].name == "limit" && items[0].value.Some? then
        var id := items[0].value.value;
        match ParseLimit(items[1].value)
        case None => None
        case Some(limit) =>
          if items[0].name == "max_id" then Some(Max(id, limit))
          else if items[0].name == "min_id" then Some(Min(id, limit))
          else if items[0].name == "since_id" then Some(Since(id, limit))
          else None
      else None
  }

  /** The parameters determine the range, with `f` applied to the page
      size and never to the cursor id. */
  lemma ParametersRoundTrip(r: RequestRange, f: int -> int)
    ensures RangeOf(Parameters(r, f)) == Some(Adjusted(r, f))
  {
    match r
    case Limit(count) => DecimalRoundTrip(f(count));
    case Default =>
    case _ =>
      if r.limit.Some? {
        DecimalRoundTrip(f(r.limit.value));
      }
  }

  /** With the identity page-size function, distinct ranges give distinct
      parameters. */
  lemma ParametersInjective(a: RequestRange, b: RequestRange)
    requires Parameters(a, x => x) == Parameters(b, x => x)
    ensures a == b
  {
    ParametersRoundTrip(a, x => x);
    ParametersRoundTrip(b, x => x);
  }
}

=== FILE: resolver.dfy ===
/** `ResolverService`: resolving a status by URI through a primary search
    with a one-shot fallback, and resolving an account by a single search.
    The client is not part of this model: a search in flight is a task in
    the state, and its outcome is an input of `Complete`. Each public
    `resolveStatus` call is identified by the caller-chosen `call` number
    that stands for its completion closure. */
module Resolver {
  import opened Wrappers

  datatype SearchKind = Primary | Fallback

  /** `Search.search(query:limit:resolve:)` or `Search.fallbackSearch(query:resolve:)`. */
  datatype SearchRequest = SearchRequest(kind: SearchKind, query: string, limit: Option<nat>, resolve: bool)

  function SearchFor(uri: string, fallback: bool): (r: SearchRequest)
    ensures r.query == uri && r.resolve
    ensures r.kind.Fallback? <==> fallback
    ensures !fallback ==> r.limit == Some(1)
  {
    if fallback then SearchRequest(Fallback, uri, None, true)
    else SearchRequest(Primary, uri, Some(1), true)
  }

  /** What the client reports for one search. */
  datatype SearchOutcome<St> =
    | Found(statuses: seq<St>)
    | BadStatus(code: int)
    | OtherFailure

  /** `Result<Status, ResolverError>` as handed to a completion. */
  datatype Resolution<St> = Resolved(status: St) | NotFound

  datatype Delivery<St> = Delivery(call: nat, resolution: Resolution<St>)

  datatype Task = Task(request: SearchRequest, call: nat, cancelled: bool, completed: bool)

  datatype State<St> = State(
    tasks: seq<Task>,             // every search issued, oldest first
    future: Option<nat>,          // `resolverFuture`, as an index into `tasks`
    delivered: seq<Delivery<St>>) // completions called, oldest first

  function Initial<St>(): (s: State<St>)
    ensures Inv(s) && !IsResolving(s)
  {
    State([], None, [])
  }

  /** `isResolving`: a search is the current future, and under the
      invariant it is one of the issued searches. */
  function IsResolving<St>(s: State<St>): (b: bool)
    ensures b <==> s.future.Some?
    ensures b && Inv(s) ==> s.future.value < |s.tasks|
  {
    s.future.Some?
  }

  predicate UsedCall<St>(s: State<St>, call: nat) {
    exists i :: 0 <= i < |s.tasks| && s.tasks[i].call == call
  }

  /** The private `resolveStatus(uri:fallbackSearch:completion:)`: the
      current future's task is cancelled unless it has completed, and a
      new search becomes the future. */
  function Start<St>(s: State<St>, uri: string, call: nat, fallback: bool): (r: State<St>)
    requires s.future.Some? ==> s.future.value < |s.tasks|
    ensures |r.tasks| == |s.tasks| + 1
    ensures r.tasks[|s.tasks|] == Task(SearchFor(uri, fallback), call, false, false)
    ensures r.future == Some(|s.tasks|) && r.delivered == s.delivered
    ensures forall i :: 0 <= i < |s.tasks| ==>
      r.tasks[i] == if s.future == Some(i) && !s.tasks[i].completed then s.tasks[i].(cancelled := true) else s.tasks[i]
  {
    var tasks :=
      if s.future.Some? && !s.tasks[s.future.value].completed
      then s.tasks[s.future.value := s.tasks[s.future.value].(cancelled := true)]
      else s.tasks;
    State(tasks + [Task(SearchFor(uri, fallback), call, false, false)], Some(|s.tasks|), s.delivered)
  }

  /** The public `resolveStatus(uri:completion:)`: always the primary search. */
  function ResolveStatus<St>(s: State<St>, uri: string, call: nat): (r: State<St>)
    requires s.future.Some? ==> s.future.value < |s.tasks|
    ensures IsResolving(r) && r.future == Some(|s.tasks|) && |r.tasks| == |s.tasks| + 1
    ensures r.tasks[|s.tasks|].request == SearchRequest(Primary, uri, Some(1), true)
  {
    Start(s, uri, call, false)
  }

  /** The search at index `i` finishes with `outcome`. A 404 on a primary
      search starts the fallback for the same URI and completion; anything
      else clears `resolverFuture` and calls the completion. */
  function Complete<St>(s: State<St>, i: nat, outcome: SearchOutcome<St>): (r: State<St>)
    requires Inv(s) && i < |s.tasks| && !s.tasks[i].completed
    ensures |r.tasks| >= |s.tasks| && r.tasks[i].completed
    ensures outcome == BadStatus(404) && s.tasks[i].request.kind.Primary? ==>
      && |r.tasks| == |s.tasks| + 1
      && r.tasks[|s.tasks|] == Task(SearchFor(s.tasks[i].request.query, true), s.tasks[i].call, false, false)
      && r.future == Some(|s.tasks|) && r.delivered == s.delivered
      && r.tasks[i] == s.tasks[i].(completed := true)
      && forall k :: 0 <= k < |s.tasks| && k != i ==>
           r.tasks[k] == if s.future == Some(k) && !s.tasks[k].completed then s.tasks[k].(cancelled := true) else s.tasks[k]
    ensures !(outcome == BadStatus(404) && s.tasks[i].request.kind.Primary?) ==>
      r.tasks == s.tasks[i := s.tasks[i].(completed := true)]
    ensures outcome.Found? && |outcome.statuses| > 0 ==>
      && r.future.None?
      && r.delivered == s.delivered + [Delivery(s.tasks[i].call, Resolved(outcome.statuses[0]))]
    ensures !(outcome == BadStatus(404) && s.tasks[i].request.kind.Primary?) && !(outcome.Found? && |outcome.statuses| > 0) ==>
      && r.future.None?
      && r.delivered == s.delivered + [Delivery(s.tasks[i].call, NotFound)]
  {
    var t := s.tasks[i];
    var done := s.(tasks := s.tasks[i := t.(completed := true)]);
    if outcome == BadStatus(404) && t.request.kind.Primary? then
      Start(done, t.request.query, t.call, true)
    else if outcome.Found? && |outcome.statuses| > 0 then
      done.(future := None, delivered := s.delivered + [Delivery(t.call, Resolved(outcome.statuses[0]))])
    else
      done.(future := None, delivered := s.delivered + [Delivery(t.call, NotFound)])
  }

  /** The future points at an issued search; two searches of one call are
      its completed primary followed by its fallback for the same URI. */
  predicate Inv<St>(s: State<St>) {
    && (s.future.Some? ==> s.future.value < |s.tasks|)
    && forall i, j :: 0 <= i < j < |s.tasks| && s.tasks[i].call == s.tasks[j].call ==>
         && s.tasks[i].request.kind.Primary? && s.tasks[j].request.kind.Fallback?
         && s.tasks[i].completed
         && s.tasks[i].request.query == s.tasks[j].request.query
  }

  lemma ResolveStatusPreservesInv<St>(s: State<St>, uri: string, call: nat)
    requires Inv(s) && !UsedCall(s, call)
    ensures Inv(ResolveStatus(s, uri, call))
  {
    var r := ResolveStatus(s, uri, call);
    forall i, j | 0 <= i < j < |r.tasks| && r.tasks[i].call == r.tasks[j].call
      ensures r.tasks[i].request.kind.Primary? && r.tasks[j].request.kind.Fallback?
      ensures r.tasks[i].completed && r.tasks[i].request.query == r.tasks[j].request.query
    {
      if j == |s.tasks| {
        assert false;
      }
    }
  }

  lemma CompletePreservesInv<St>(s: State<St>, k: nat, outcome: SearchOutcome<St>)
    requires Inv(s) && k < |s.tasks| && !s.tasks[k].completed
    ensures Inv(Complete(s, k, outcome))
  {
    var r := Complete(s, k, outcome);
    var t := s.tasks[k];
    forall i, j | 0 <= i < j < |r.tasks| && r.tasks[i].call == r.tasks[j].call
      ensures r.tasks[i].request.kind.Primary? && r.tasks[j].request.kind.Fallback?
      ensures r.tasks[i].completed && r.tasks[i].request.query == r.tasks[j].request.query
    {
      if j == |s.tasks| {
        // the fallback just started for task k: k is the only other search of its call
        assert r.tasks[j].call == t.call;
        if i != k {
          assert false;
        }
      } else {
        assert r.tasks[i].call == s.tasks[i].call && r.tasks[j].call == s.tasks[j].call;
      }
    }
  }

  /** Each `resolveStatus` call issues at most two searches. */
  lemma AtMostTwoSearchesPerCall<St>(s: State<St>, i: nat, j: nat, k: nat)
    requires Inv(s) && i < j < k < |s.tasks|
    ensures !(s.tasks[i].call == s.tasks[j].call == s.tasks[k].call)
  {
  }

  /** A fallback search is never retried: a 404 on it delivers not-found. */
  lemma FallbackNotRetried<St>(s: State<St>, i: nat)
    requires Inv(s) && i < |s.tasks| && !s.tasks[i].completed && s.tasks[i].request.kind.Fallback?
    ensures Complete(s, i, BadStatus(404)).tasks == s.tasks[i := s.tasks[i].(completed := true)]
    ensures Complete(s, i, BadStatus(404)).delivered == s.delivered + [Delivery(s.tasks[i].call, NotFound)]
    ensures !IsResolving(Complete(s, i, BadStatus(404)))
  {
  }

  // ---------------------------------------------------------------------
  // `resolve(account:activeInstance:completion:)`

  /** `Accounts.search(query:limit:)`. */
  datatype AccountSearch = AccountSearch(query: string, limit: nat)

  datatype AccountOutcome<A> = Accounts(accounts: seq<A>) | Failure(description: string)

  /** `AccountRevalidationErrors`. The localised explanation of
      `noResults` is represented by the URI it names. */
  datatype AccountError = NoResults(uri: string) | NetworkError(description: string)

  function AccountSearchFor(accountUri: string): (r: AccountSearch)
    ensures r.query == accountUri && r.limit == 1
  {
    AccountSearch(accountUri, 1)
  }

  function ResolveAccount<A>(accountUri: string, outcome: AccountOutcome<A>): (r: Result<A, AccountError>)
    ensures r.Ok? <==> outcome.Accounts? && |outcome.accounts| > 0
    ensures r.Ok? ==> r.value == outcome.accounts[0]
    ensures r == Err(NoResults(accountUri)) <==> outcome == Accounts([])
    ensures r.Err? && r.error.NetworkError? <==> outcome.Failure?
    ensures outcome.Failure? ==> r == Err(NetworkError(outcome.description))
  {
    match outcome
    case Accounts(accounts) =>
      if |accounts| > 0 then Ok(accounts[0]) else Err(NoResults(accountUri))
    case Failure(description) => Err(NetworkError(description))
  }
}

=== FILE: sidebar_mode.dfy ===
/** `SidebarMode`: what the timelines window's sidebar shows, with its
    newline-separated raw string form and its custom `==`. The edit
    history entries are a type parameter. */
module SidebarModes {
  import opened Wrappers
  import opened Text
  import opened Models

  datatype SidebarMode<E> =
    | Profile(uri: string, account: Option<Account>)
    | Tag(tag: string)
    | StatusThread(uri: string, status: Option<Status>)
    | Favorites
    | Edits(status: Option<Status>, edits: Option<seq<E>>)

  const Newline: char := '\n'

  /** `rawValue`: a head word and, except for favorites, a newline and
      the key. */
  function RawValue<E>(m: SidebarMode<E>): (r: string)
    ensures m.Favorites? <==> Newline !in r
    ensures m.Profile? ==> IsPrefix("profile\n", r) && r[|"profile\n"|..] == m.uri
    ensures m.Tag? ==> IsPrefix("tag\n", r) && r[|"tag\n"|..] == m.tag
    ensures m.StatusThread? ==> IsPrefix("status\n", r) && r[|"status\n"|..] == m.uri
    ensures m.Edits? ==> IsPrefix("edits\n", r) && r[|"edits\n"|..] == if m.status.Some? then m.status.value.id else ""
  {
    match m
    case Profile(uri, _) => "profile" + [Newline] + uri
    case Tag(tag) => "tag" + [Newline] + tag
    case StatusThread(uri, _) => "status" + [Newline] + uri
    case Favorites => "favorites"
    case Edits(status, _) => "edits" + [Newline] + (if status.Some? then status.value.id else "")
  }

  /** `profile(uri:)`. */
  function ProfileFromUri<E>(uri: string): (m: SidebarMode<E>)
    ensures m.Profile? && m.uri == uri && m.account.None?
  {
    Profile(uri, None)
  }

  /** `init?(rawValue:)`: two newline-separated parts headed by profile,
      tag or status, or the single part "favorites". */
  function Parse<E>(raw: string): (r: Option<SidebarMode<E>>)
    ensures r.Some? <==>
      var parts := Split(raw, Newline);
      || (|parts| == 2 && parts[0] in {"profile", "tag", "status"})
      || parts == ["favorites"]
    ensures var parts := Split(raw, Newline);
      && (|parts| == 2 && parts[0] == "profile" ==> r == Some(ProfileFromUri(parts[1])))
      && (|parts| == 2 && parts[0] == "tag" ==> r == Some(Tag(parts[1])))
      && (|parts| == 2 && parts[0] == "status" ==> r == Some(StatusThread(parts[1], None)))
      && (parts == ["favorites"] ==> r == Some(Favorites))
    ensures r.Some? && r.value.Profile? ==> r.value.account.None?
    ensures r.Some? && r.value.StatusThread? ==> r.value.status.None?
    ensures r.Some? ==> !r.value.Edits?
  {
    var parts := Split(raw, Newline);
    if |parts| == 2 then
      if parts[0] == "profile" then Some(Profile(parts[1], None))
      else if parts[0] == "tag" then Some(Tag(parts[1]))
      else if parts[0] == "status" then Some(StatusThread(parts[1], None))
      else None
    else if |parts| == 1 && parts[0] == "favorites" then Some(Favorites)
    else None
  }

  /** Whatever parses prints back to a string with the same parts: the
      parser reads nothing but the split pieces, and the raw value
      rebuilds them. */
  lemma ParsedPrintsBack<E>(raw: string)
    requires Parse<E>(raw).Some?
    ensures Split(RawValue(Parse<E>(raw).value), Newline) == Split(raw, Newline)
  {
    var parts := Split(raw, Newline);
    assert RawValue(Parse<E>(raw).value) == Join(parts, Newline);
    SplitJoin(parts, Newline);
  }

  /** `==`: the uri or tag decides; attached models are ignored, and
      favorites and edits equal nothing. */
  function Eq<E>(a: SidebarMode<E>, b: SidebarMode<E>): (r: bool)
    ensures r <==> Key(a).Some? && Key(a) == Key(b)
  {
    match (a, b)
    case (Profile(u1, _), Profile(u2, _)) => u1 == u2
    case (Tag(t1), Tag(t2)) => t1 == t2
    case (StatusThread(u1, _), StatusThread(u2, _)) => u1 == u2
    case _ => false
  }

  /** The key `==` compares, when there is one. */
  function Key<E>(m: SidebarMode<E>): Option<(nat, string)> {
    match m
    case Profile(uri, _) => Some((0, uri))
    case Tag(tag) => Some((1, tag))
    case StatusThread(uri, _) => Some((2, uri))
    case _ => None
  }

  /** `==` holds exactly when both sides have the same key: it is blind to
      the attached account or status, and never holds for favorites or
      edits, not even against themselves. */
  lemma EqMeansSameKey<E>(a: SidebarMode<E>, b: SidebarMode<E>)
    ensures Eq(a, b) <==> Key(a).Some? && Key(a) == Key(b)
    ensures !Eq(a, a) <==> a.Favorites? || a.Edits?
  {
  }

  /** The text after the newline is a single split field. */
  predicate WellFormedKey(s: string) {
    IsField(s, Newline)
  }

  /** Profile, tag and status round-trip up to `==` when their uri or
      tag is non-empty and holds no newline. */
  lemma ParseRawValue<E>(m: SidebarMode<E>)
    requires m.Profile? || m.Tag? || m.StatusThread?
    requires WellFormedKey(if m.Tag? then m.tag else m.uri)
    ensures Parse<E>(RawValue(m)).Some?
    ensures Eq(Parse<E>(RawValue(m)).value, m)
  {
    var key := if m.Tag? then m.tag else m.uri;
    SplitField(key, Newline);
    if m.Profile? {
      SplitCons("profile", key, Newline);
    } else if m.Tag? {
      SplitCons("tag", key, Newline);
    } else {
      SplitCons("status", key, Newline);
    }
  }

  /** An empty uri or tag does not come back: the raw value splits into
      one part. */
  lemma EmptyKeyDoesNotParse<E>(m: SidebarMode<E>)
    requires m.Profile? || m.Tag? || m.StatusThread?
    requires (if m.Tag? then m.tag else m.uri) == ""
    ensures Parse<E>(RawValue(m)).None?
  {
    var head := if m.Profile? then "profile" else if m.Tag? then "tag" else "status";
    assert RawValue(m) == head + [Newline] + "";
    SplitCons(head, "", Newline);
  }

  lemma FavoritesRoundTrip<E>()
    ensures Parse<E>(RawValue<E>(Favorites)) == Some(Favorites)
  {
    SplitField("favorites", Newline);
  }

  /** The raw value of an edits mode never parses back. */
  lemma EditsNeverParse<E>(m: SidebarMode<E>)
    requires m.Edits?
    ensures Parse<E>(RawValue(m)).None?
  {
    var id := if m.status.Some? then m.status.value.id else "";
    assert RawValue(m) == "edits" + [Newline] + id;
    SplitCons("edits", id, Newline);
  }
}

=== FILE: statuses.dfy ===
/** MastodonKit's `Statuses` request builders: paths, verbs and the JSON
    body of status creation and editing. `Request(path:)` is taken to
    default to a GET with an empty payload; the visibility is its raw
    string and a poll its already-encoded JSON. */
module StatusRequests {
  import opened Wrappers
  import opened Json
  import opened HttpMethods
  import opened RequestRanges

  datatype Request = Request(path: string, verb: HttpMethod<Payload>)

  const StatusesPath: string := "/api/v1/statuses"

  /** `status(id:)`. */
  function StatusById(id: string): (r: Request)
    ensures r.path == "/api/v1/statuses/" + id
    ensures r.verb == Get(Empty)
  {
    Request(StatusesPath + "/" + id, Get(Empty))
  }

  /** `context(id:)`: a plain GET below the status's path. */
  function Context(id: string): (r: Request)
    ensures r.path == StatusById(id).path + "/context" && r.verb == Get(Empty)
  {
    Request(StatusesPath + "/" + id + "/context", Get(Empty))
  }

  /** `history(id:)`. */
  function History(id: string): (r: Request)
    ensures r.path == StatusById(id).path + "/history" && r.verb == Get(Empty)
  {
    Request(StatusesPath + "/" + id + "/history", Get(Empty))
  }

  /** `card(id:)`. */
  function Card(id: string): (r: Request)
    ensures r.path == StatusById(id).path + "/card" && r.verb == Get(Empty)
  {
    Request(StatusesPath + "/" + id + "/card", Get(Empty))
  }

  /** `rebloggedBy(id:range:)`; `limit` stands for `between(1, and: 80, default: 40)`. */
  function RebloggedBy(id: string, range: RequestRange, limit: int -> int): (r: Request)
    ensures r.path == StatusById(id).path + "/reblogged_by"
    ensures r.verb.Get? && r.verb.payload.Parameters?
    ensures RangeOf(r.verb.payload.params) == Some(Adjusted(range, limit))
  {
    ParametersRoundTrip(range, limit);
    Request(StatusesPath + "/" + id + "/reblogged_by", Get(Parameters(RequestRanges.Parameters(range, limit))))
  }

  /** `favouritedBy(id:range:)`. */
  function FavouritedBy(id: string, range: RequestRange, limit: int -> int): (r: Request)
    ensures r.path == StatusById(id).path + "/favourited_by"
    ensures r.verb.Get? && r.verb.payload.Parameters?
    ensures RangeOf(r.verb.payload.params) == Some(Adjusted(range, limit))
  {
    ParametersRoundTrip(range, limit);
    Request(StatusesPath + "/" + id + "/favourited_by", Get(Parameters(RequestRanges.Parameters(range, limit))))
  }

  /** The list requests differ only in their path: both carry the
      range, so the same range and clamp give the same query. */
  lemma ListRequestsShareQuery(id: string, range: RequestRange, limit: int -> int)
    ensures RebloggedBy(id, range, limit).verb == FavouritedBy(id, range, limit).verb
    ensures RebloggedBy(id, range, limit).path != FavouritedBy(id, range, limit).path
  {
    var a := RebloggedBy(id, range, limit).path;
    var b := FavouritedBy(id, range, limit).path;
    assert |a| != |b|;
  }

  /** The six status-read endpoints of one id have six different paths. */
  lemma StatusPathsDistinct(id: string)
    ensures var paths := [StatusById(id).path, Context(id).path, History(id).path, Card(id).path,
                          RebloggedBy(id, Default, x => x).path, FavouritedBy(id, Default, x => x).path];
            forall i, j :: 0 <= i < j < |paths| ==> paths[i] != paths[j]
  {
    var p := StatusById(id).path;
    var c := Context(id).path;
    var h := History(id).path;
    assert c[|p| + 1] == 'c' && h[|p| + 1] == 'h';
  }

  /** `delete(id:)`: the status's own path, verb DELETE, empty payload. */
  function DeleteStatus(id: string): (r: Request)
    ensures r.path == StatusById(id).path && r.verb == Delete(Empty)
  {
    Request(StatusesPath + "/" + id, Delete(Empty))
  }

  /** One entry of a dictionary literal after `compactMapValues { $0 }`:
      a nil value leaves no key. */
  function With(m: map<string, Json>, k: string, v: Option<Json>): (r: map<string, Json>)
    ensures k in r <==> k in m || v.Some?
    ensures v.Some? ==> r[k] == v.value
    ensures forall k' :: k' != k ==> (k' in r <==> k' in m) && (k' in m ==> r[k'] == m[k'])
  {
    if v.Some? then m[k := v.value] else m
  }

  function Strings(ids: seq<string>): (r: seq<Json>)
    ensures |r| == |ids| && forall i :: 0 <= i < |ids| ==> r[i] == JString(ids[i])
  {
    if |ids| == 0 then [] else [JString(ids[0])] + Strings(ids[1..])
  }

  /** The arguments of `create`; `edit` uses all but the reply and the
      visibility. */
  datatype StatusArgs = StatusArgs(
    status: string,
    replyToID: Option<string>,
    mediaIDs: seq<string>,
    sensitive: Option<bool>,
    spoilerText: Option<string>,
    poll: Option<Json>,
    visibility: string)

  function OptString(s: Option<string>): Option<Json> {
    if s.Some? then Some(JString(s.value)) else None
  }

  /** The entries `create` and `edit` share. */
  function SharedBody(a: StatusArgs): (b: map<string, Json>)
    ensures "status" in b && b["status"] == JString(a.status)
    ensures "sensitive" in b <==> a.sensitive == Some(true)
    ensures "sensitive" in b ==> b["sensitive"] == JBool(true)
    ensures "spoiler_text" in b <==> a.spoilerText.Some?
    ensures "spoiler_text" in b ==> b["spoiler_text"] == JString(a.spoilerText.value)
    ensures "media_ids" in b <==> |a.mediaIDs| > 0
    ensures "media_ids" in b ==> b["media_ids"] == JArray(Strings(a.mediaIDs))
    ensures "poll" in b <==> a.poll.Some?
    ensures "poll" in b ==> b["poll"] == a.poll.value
    ensures b.Keys <= {"status", "sensitive", "spoiler_text", "media_ids", "poll"}
  {
    var b0 := map["status" := JString(a.status)];
    var b1 := With(b0, "sensitive", if a.sensitive == Some(true) then Some(JBool(true)) else None);
    var b2 := With(b1, "spoiler_text", OptString(a.spoilerText));
    var b3 := With(b2, "media_ids", if |a.mediaIDs| == 0 then None else Some(JArray(Strings(a.mediaIDs))));
    With(b3, "poll", a.poll)
  }

  /** `create(...)`: a JSON POST to /api/v1/statuses. */
  function Create(a: StatusArgs): (r: Request)
    ensures r.path == StatusesPath && r.verb.Post? && r.verb.payload.JsonBody?
    ensures var b := r.verb.payload.body;
      && "status" in b && b["status"] == JString(a.status)
      && "visibility" in b && b["visibility"] == JString(a.visibility)
      && ("sensitive" in b <==> a.sensitive == Some(true))
      && ("sensitive" in b ==> b["sensitive"] == JBool(true))
      && ("media_ids" in b <==> |a.mediaIDs| > 0)
      && ("in_reply_to_id" in b <==> a.replyToID.Some?)
      && ("spoiler_text" in b <==> a.spoilerText.Some?)
      && ("poll" in b <==> a.poll.Some?)
  {
    var body := With(SharedBody(a), "in_reply_to_id", OptString(a.replyToID))["visibility" := JString(a.visibility)];
    Request(StatusesPath, Post(JsonBody(body)))
  }

  /** `edit(id:...)`: a JSON PUT to the status's path that never carries
      the visibility or the reply target. */
  function Edit(id: string, a: StatusArgs): (r: Request)
    ensures r.path == StatusById(id).path && r.verb.Put? && r.verb.payload.JsonBody?
    ensures var b := r.verb.payload.body;
      && "status" in b && b["status"] == JString(a.status)
      && "visibility" !in b && "in_reply_to_id" !in b
      && ("sensitive" in b <==> a.sensitive == Some(true))
      && ("sensitive" in b ==> b["sensitive"] == JBool(true))
      && ("media_ids" in b <==> |a.mediaIDs| > 0)
      && ("spoiler_text" in b <==> a.spoilerText.Some?)
      && ("poll" in b <==> a.poll.Some?)
      && b.Keys <= {"status", "sensitive", "spoiler_text", "media_ids", "poll"}
  {
    Request(StatusesPath + "/" + id, Put(JsonBody(SharedBody(a))))
  }

  // ---------------------------------------------------------------------
  // Reading a body back

  function StringsOf(items: seq<Json>): Option<seq<string>> {
    if |items| == 0 then Some([])
    else if !items[0].JString? then None
    else
      match StringsOf(items[1..])
      case None => None
      case Some(rest) => Some([items[0].s] + rest)
  }

  lemma {:induction false} StringsOfStrings(ids: seq<string>)
    ensures StringsOf(Strings(ids)) == Some(ids)
  {
    if |ids| > 0 {
      assert Strings(ids)[1..] == Strings(ids[1..]);
      assert ids == [ids[0]] + ids[1..];
      StringsOfStrings(ids[1..]);
    }
  }

  function StringField(b: map<string, Json>, k: string): Option<string> {
    if k in b && b[k].JString? then Some(b[k].s) else None
  }

  /** The fields `create` and `edit` share, read from a body; the reply
      target and visibility come from elsewhere. */
  function ParseShared(b: map<string, Json>, replyToID: Option<string>, visibility: string): Option<StatusArgs> {
    if StringField(b, "status").None? then None
    else
      var media := if "media_ids" in b && b["media_ids"].JArray? then StringsOf(b["media_ids"].items) else Some([]);
      if media.None? then None
      else Some(StatusArgs(
        StringField(b, "status").value,
        replyToID,
        media.value,
        if "sensitive" in b && b["sensitive"] == JBool(true) then Some(true) else None,
        StringField(b, "spoiler_text"),
        if "poll" in b then Some(b["poll"]) else None,
        visibility))
  }

  /** What a server reads from a create body: absent sensitive, media and
      optional fields take their defaults. */
  function ParseCreateBody(b: map<string, Json>): Option<StatusArgs> {
    if StringField(b, "visibility").None? then None
    else ParseShared(b, StringField(b, "in_reply_to_id"), StringField(b, "visibility").value)
  }

  /** What a server makes of an edit body applied to the status `current`:
      the shared fields are replaced, the reply target and visibility,
      which an edit cannot change, are kept. */
  function ParseEditBody(b: map<string, Json>, current: StatusArgs): Option<StatusArgs> {
    ParseShared(b, current.replyToID, current.visibility)
  }

  /** The arguments with `sensitive` as the body can express it: only
      true is sent, so nil and false coincide. */
  function Normalized(a: StatusArgs): StatusArgs {
    a.(sensitive := if a.sensitive == Some(true) then Some(true) else None)
  }

  /** The create body keeps every argument except the nil/false
      distinction of `sensitive`. */
  lemma CreateBodyRoundTrip(a: StatusArgs)
    ensures ParseCreateBody(Create(a).verb.payload.body) == Some(Normalized(a))
  {
    var b := Create(a).verb.payload.body;
    if |a.mediaIDs| > 0 {
      assert b["media_ids"] == JArray(Strings(a.mediaIDs));
      StringsOfStrings(a.mediaIDs);
    }
  }

  /** An edit replaces every shared field (up to the nil/false
      distinction of `sensitive`) and keeps the reply target and the
      visibility of the status it edits. */
  lemma EditBodyRoundTrip(id: string, a: StatusArgs, current: StatusArgs)
    ensures ParseEditBody(Edit(id, a).verb.payload.body, current)
         == Some(Normalized(a).(replyToID := current.replyToID, visibility := current.visibility))
  {
    var b := Edit(id, a).verb.payload.body;
    if |a.mediaIDs| > 0 {
      assert b["media_ids"] == JArray(Strings(a.mediaIDs));
      StringsOfStrings(a.mediaIDs);
    }
  }

  // ---------------------------------------------------------------------
  // Status actions

  datatype Action = Reblog | Unreblog | Favourite | Unfavourite | Bookmark | Unbookmark | Pin | Unpin | Mute | Unmute

  function ActionName(a: Action): string {
    match a
    case Reblog => "reblog"
    case Unreblog => "unreblog"
    case Favourite => "favourite"
    case Unfavourite => "unfavourite"
    case Bookmark => "bookmark"
    case Unbookmark => "unbookmark"
    case Pin => "pin"
    case Unpin => "unpin"
    case Mute => "mute"
    case Unmute => "unmute"
  }

  /** `reblog(id:)`, `unreblog(id:)` and the other eight actions. */
  function ActionRequest(id: string, a: Action): (r: Request)
    ensures r.verb == Post(Empty)
    ensures r.path == StatusById(id).path + "/" + ActionName(a)
  {
    Request(StatusesPath + "/" + id + "/" + ActionName(a), Post(Empty))
  }

  predicate IsUndo(a: Action) {
    a.Unreblog? || a.Unfavourite? || a.Unbookmark? || a.Unpin? || a.Unmute?
  }

  /** The action that reverses `a`. */
  function Undo(a: Action): (u: Action)
    requires !IsUndo(a)
    ensures IsUndo(u)
  {
    match a
    case Reblog => Unreblog
    case Favourite => Unfavourite
    case Bookmark => Unbookmark
    case Pin => Unpin
    case Mute => Unmute
  }

  /** Each reversing action's path segment is "un" and the action's;
      distinct actions have distinct segments. */
  lemma ActionNames(a: Action, b: Action)
    ensures !IsUndo(a) ==> ActionName(Undo(a)) == "un" + ActionName(a)
    ensures ActionName(a) == ActionName(b) ==> a == b
  {
  }
}

=== FILE: stream_payload.dfy ===
/** `StreamPayload.parsedEvent()` and `parseMastodonEvent(with:)`: the
    tagged `{event, payload}` envelope of a streaming frame decoded into a
    `ClientEvent`. The inner JSON decoding of a status or notification is
    not part of this model; it is a pair of partial decoders, with status
    and notification left as type parameters. */
module StreamPayload {
  import opened Wrappers
  import opened Text

  datatype StreamPayload = StreamPayload(event: string, payload: Option<string>)

  /** `StreamPayload.EventType`. */
  datatype EventType = Update | Notification | Delete | FiltersChanged

  function EventTypeRaw(t: EventType): string {
    match t
    case Update => "update"
    case Notification => "notification"
    case Delete => "delete"
    case FiltersChanged => "filters_changed"
  }

  /** `EventType(rawValue:)`. */
  function ParseEventType(s: string): (r: Option<EventType>)
    ensures r.Some? ==> EventTypeRaw(r.value) == s
    ensures r.None? ==> forall t: EventType :: EventTypeRaw(t) != s
  {
    if s == "update" then Some(Update)
    else if s == "notification" then Some(Notification)
    else if s == "delete" then Some(Delete)
    else if s == "filters_changed" then Some(FiltersChanged)
    else None
  }

  datatype ClientEvent<S, N> =
    | UpdateEvent(status: S)
    | NotificationEvent(notification: N)
    | DeleteEvent(statusID: string)
    | KeywordFiltersChanged

  /** `ParseErrors`, plus the error the inner decoder throws. */
  datatype ParseError =
    | UnknownEventType(event: string)
    | MissingPayload
    | InnerDecodingFailed(eventType: EventType)

  /** The inner decoders `JSONDecoder` runs on the payload string. */
  datatype Decoders<S, N> = Decoders(status: string -> Option<S>, notification: string -> Option<N>)

  /** `parsedEvent()`. */
  function ParsedEvent<S, N>(p: StreamPayload, d: Decoders<S, N>): (r: Result<ClientEvent<S, N>, ParseError>)
    ensures r == Err(UnknownEventType(p.event)) <==> ParseEventType(p.event).None?
    ensures r == Err(MissingPayload) <==> p.payload.None? && p.event in {"update", "notification", "delete"}
    ensures p.event == "filters_changed" ==> r == Ok(KeywordFiltersChanged)
    ensures p.event == "delete" && p.payload.Some? ==> r == Ok(DeleteEvent(p.payload.value))
    ensures p.event == "update" && p.payload.Some? ==>
      r == match d.status(p.payload.value)
           case Some(s) => Ok(UpdateEvent(s))
           case None => Err(InnerDecodingFailed(Update))
    ensures p.event == "notification" && p.payload.Some? ==>
      r == match d.notification(p.payload.value)
           case Some(n) => Ok(NotificationEvent(n))
           case None => Err(InnerDecodingFailed(Notification))
  {
    match ParseEventType(p.event)
    case None => Err(UnknownEventType(p.event))
    case Some(t) =>
      match (t, p.payload)
      case (Update, Some(payload)) =>
        (match d.status(payload)
         case Some(s) => Ok(UpdateEvent(s))
         case None => Err(InnerDecodingFailed(Update)))
      case (Notification, Some(payload)) =>
        (match d.notification(payload)
         case Some(n) => Ok(NotificationEvent(n))
         case None => Err(InnerDecodingFailed(Notification)))
      case (Delete, Some(payload)) => Ok(DeleteEvent(payload))
      case (FiltersChanged, _) => Ok(KeywordFiltersChanged)
      case _ => Err(MissingPayload)
  }

  /** A reference writer: the envelope the server sends for an event. */
  function Envelope<S, N>(e: ClientEvent<S, N>, encodeStatus: S -> string, encodeNotification: N -> string): StreamPayload {
    match e
    case UpdateEvent(s) => StreamPayload("update", Some(encodeStatus(s)))
    case NotificationEvent(n) => StreamPayload("notification", Some(encodeNotification(n)))
    case DeleteEvent(id) => StreamPayload("delete", Some(id))
    case KeywordFiltersChanged => StreamPayload("filters_changed", None)
  }

  /** Every event survives the trip through its envelope, given inner
      decoders that invert the inner encoders. */
  lemma EnvelopeRoundTrip<S, N>(e: ClientEvent<S, N>, d: Decoders<S, N>, encodeStatus: S -> string, encodeNotification: N -> string)
    requires forall s :: d.status(encodeStatus(s)) == Some(s)
    requires forall n :: d.notification(encodeNotification(n)) == Some(n)
    ensures ParsedEvent(Envelope(e, encodeStatus, encodeNotification), d) == Ok(e)
  {
  }

  // ---------------------------------------------------------------------
  // parseMastodonEvent(with:)

  datatype FrameError =
    | EnvelopeMalformed        // `JSONDecoder().decode(StreamPayload.self, ...)` threw
    | Parse(error: ParseError) // `parsedEvent()` threw

  /** The delegate callback a frame produces. */
  datatype DelegateCall<S, N> =
    | DidHandleEvent(event: ClientEvent<S, N>)
    | ParserProducedError(error: FrameError)

  /** `parseMastodonEvent(with:)`: an empty frame is a heartbeat and
      produces no callback; any other frame produces exactly one, an event
      or an error. */
  function HandleFrame<S, N>(data: Bytes, envelope: Bytes -> Option<StreamPayload>, d: Decoders<S, N>): (r: Option<DelegateCall<S, N>>)
    ensures r.None? <==> |data| == 0
    ensures r.Some? && r.value.DidHandleEvent? <==>
      |data| > 0 && envelope(data).Some? && ParsedEvent(envelope(data).value, d).Ok?
    ensures r.Some? && r.value.DidHandleEvent? ==> r.value.event == ParsedEvent(envelope(data).value, d).value
    ensures r == Some(ParserProducedError(EnvelopeMalformed)) <==> |data| > 0 && envelope(data).None?
  {
    if |data| == 0 then None
    else match envelope(data)
      case None => Some(ParserProducedError(EnvelopeMalformed))
      case Some(p) =>
        match ParsedEvent(p, d)
        case Ok(e) => Some(DidHandleEvent(e))
        case Err(err) => Some(ParserProducedError(Parse(err)))
  }

  /** A text frame is decoded from its UTF-8 bytes, so it is a heartbeat
      exactly when the text is empty. */
  lemma TextHeartbeat<S, N>(text: string, envelope: Bytes -> Option<StreamPayload>, d: Decoders<S, N>)
    ensures HandleFrame(Utf8(text), envelope, d).None? <==> text == ""
  {
  }
}

=== FILE: text.dfy ===
/** Strings, bytes and the few Foundation string operations the model needs:
    prefix and substring tests, Swift's `split(separator:)` (which omits empty
    pieces), `URL.pathComponents`, `String(Int)` and UTF-8 encoding. */
module Text {
  import opened Wrappers

  newtype byte = x: int | 0 <= x < 256

  type Bytes = seq<byte>

  /** Foundation's `URLQueryItem`. */
  datatype QueryItem = QueryItem(name: string, value: Option<string>)

  predicate IsPrefix(p: string, s: string) {
    |p| <= |s| && s[..|p|] == p
  }

  predicate IsSuffix(p: string, s: string) {
    |p| <= |s| && s[|s| - |p|..] == p
  }

  /** `s.contains(sub)` for a literal substring. */
  predicate Contains(s: string, sub: string)
    decreases |s|
  {
    IsPrefix(sub, s) || (|s| > 0 && Contains(s[1..], sub))
  }

  // ---------------------------------------------------------------------
  // split(separator:)

  /** Length of the leading run of `s` that holds no `sep`. */
  function FieldLength(s: string, sep: char): (n: nat)
    ensures n <= |s|
    ensures sep !in s[..n]
    ensures n < |s| ==> s[n] == sep
  {
    if |s| == 0 || s[0] == sep then 0
    else
      var n := 1 + FieldLength(s[1..], sep);
      assert s[..n] == [s[0]] + s[1..][..n - 1];
      n
  }

  /** Swift's `s.split(separator: sep)`: the maximal runs without `sep`,
      empty runs omitted. */
  function Split(s: string, sep: char): (parts: seq<string>)
    ensures forall i :: 0 <= i < |parts| ==> |parts[i]| > 0 && sep !in parts[i]
    decreases |s|
  {
    if |s| == 0 then []
    else if s[0] == sep then Split(s[1..], sep)
    else
      var n := FieldLength(s, sep);
      [s[..n]] + Split(s[n..], sep)
  }

  /** The inverse of `Split` on well-formed pieces. */
  function Join(parts: seq<string>, sep: char): string {
    if |parts| == 0 then ""
    else if |parts| == 1 then parts[0]
    else parts[0] + [sep] + Join(parts[1..], sep)
  }

  predicate IsField(a: string, sep: char) {
    |a| > 0 && sep !in a
  }

  lemma {:induction false} FieldLengthOfField(a: string, rest: string, sep: char)
    requires sep !in a
    ensures FieldLength(a + [sep] + rest, sep) == |a|
    ensures FieldLength(a, sep) == |a|
    decreases |a|
  {
    if |a| > 0 {
      assert (a + [sep] + rest)[1..] == a[1..] + [sep] + rest;
      FieldLengthOfField(a[1..], rest, sep);
    } else {
      assert (a + [sep] + rest)[0] == sep;
    }
  }

  lemma SplitField(a: string, sep: char)
    requires IsField(a, sep)
    ensures Split(a, sep) == [a]
  {
    FieldLengthOfField(a, "", sep);
    assert a[0] in a;
    assert a[..|a|] == a;
    assert a[|a|..] == "";
  }

  lemma SplitLeadingSeparator(rest: string, sep: char)
    ensures Split([sep] + rest, sep) == Split(rest, sep)
  {
    assert ([sep] + rest)[1..] == rest;
  }

  lemma SplitCons(a: string, rest: string, sep: char)
    requires IsField(a, sep)
    ensures Split(a + [sep] + rest, sep) == [a] + Split(rest, sep)
  {
    var s := a + [sep] + rest;
    FieldLengthOfField(a, rest, sep);
    assert s[..|a|] == a;
    assert s[|a|..] == [sep] + rest;
    SplitLeadingSeparator(rest, sep);
  }

  lemma {:induction false} SplitJoin(parts: seq<string>, sep: char)
    requires forall i :: 0 <= i < |parts| ==> IsField(parts[i], sep)
    ensures Split(Join(parts, sep), sep) == parts
  {
    if |parts| == 1 {
      SplitField(parts[0], sep);
    } else if |parts| > 1 {
      SplitCons(parts[0], Join(parts[1..], sep), sep);
      SplitJoin(parts[1..], sep);
    }
  }

  /** Foundation's `URL.pathComponents` of a URL path: "/" for the root
      of an absolute path, then the non-empty segments. */
  function PathComponents(path: string): (cs: seq<string>)
    ensures |path| > 0 && path[0] == '/' ==> |cs| > 0 && cs[0] == "/"
  {
    if |path| > 0 && path[0] == '/' then ["/"] + Split(path[1..], '/')
    else Split(path, '/')
  }

  // ---------------------------------------------------------------------
  // String(Int)

  function DigitChar(d: nat): (c: char)
    requires d < 10
    ensures '0' <= c <= '9'
  {
    (48 + d) as char
  }

  function DigitValue(c: char): nat
    requires '0' <= c <= '9'
  {
    (c as int) - 48
  }

  predicate AllDigits(s: string) {
    forall i :: 0 <= i < |s| ==> '0' <= s[i] <= '9'
  }

  function NatDigits(n: nat): (s: string)
    ensures |s| > 0 && AllDigits(s)
  {
    if n < 10 then [DigitChar(n)]
    else NatDigits(n / 10) + [DigitChar(n % 10)]
  }

  /** Swift's `String(n)` / `"\(n)"` for an integer. */
  function DecimalString(n: int): (s: string)
    ensures |s| > 0
  {
    if n < 0 then "-" + NatDigits(-n) else NatDigits(n)
  }

  function DigitsValue(s: string): nat
    requires AllDigits(s)
  {
    if |s| == 0 then 0
    else 10 * DigitsValue(s[..|s| - 1]) + DigitValue(s[|s| - 1])
  }

  /** A reference reader of what `DecimalString` writes. */
  function ParseDecimal(s: string): Option<int> {
    if |s| > 1 && s[0] == '-' && AllDigits(s[1..]) then Some(0 - DigitsValue(s[1..]) as int)
    else if |s| > 0 && AllDigits(s) then Some(DigitsValue(s))
    else None
  }

  lemma {:induction false} DigitsValueOfNatDigits(n: nat)
    ensures DigitsValue(NatDigits(n)) == n
  {
    if n >= 10 {
      var s := NatDigits(n);
      assert s[..|s| - 1] == NatDigits(n / 10);
      DigitsValueOfNatDigits(n / 10);
    }
  }

  lemma DecimalRoundTrip(n: int)
    ensures ParseDecimal(DecimalString(n)) == Some(n)
  {
    var s := DecimalString(n);
    if n < 0 {
      assert s[0] == '-' && s[1..] == NatDigits(-n);
      DigitsValueOfNatDigits(-n);
    } else {
      assert s == NatDigits(n);
      assert '0' <= s[0] <= '9';
      DigitsValueOfNatDigits(n);
    }
  }

  lemma DecimalStringInjective(m: int, n: int)
    ensures DecimalString(m) == DecimalString(n) <==> m == n
  {
    DecimalRoundTrip(m);
    DecimalRoundTrip(n);
  }

  // ---------------------------------------------------------------------
  // UTF-8 (`Data(s.utf8)`, `s.data(using: .utf8)`)

  /** The UTF-8 encoding of one Unicode scalar value (RFC 3629, section 3). */
  function Utf8Scalar(c: char): (bs: Bytes)
    ensures 1 <= |bs| <= 4
    ensures (c as int) < 0x80 ==> bs == [(c as int) as byte]
  {
    var n := c as int;
    if n < 0x80 then [n as byte]
    else if n < 0x800 then [(0xC0 + n / 64) as byte, (0x80 + n % 64) as byte]
    else if n < 0x10000 then
      [(0xE0 + n / 4096) as byte, (0x80 + (n / 64) % 64) as byte, (0x80 + n % 64) as byte]
    else
      [(0xF0 + n / 0x40000) as byte, (0x80 + (n / 4096) % 64) as byte,
       (0x80 + (n / 64) % 64) as byte, (0x80 + n % 64) as byte]
  }

  function Utf8(s: string): (bs: Bytes)
    ensures |s| <= |bs| <= 4 * |s|
  {
    if |s| == 0 then [] else Utf8Scalar(s[0]) + Utf8(s[1..])
  }

  lemma {:induction false} Utf8Append(a: string, b: string)
    ensures Utf8(a + b) == Utf8(a) + Utf8(b)
  {
    if |a| > 0 {
      assert (a + b)[1..] == a[1..] + b;
      Utf8Append(a[1..], b);
    } else {
      assert a + b == b;
    }
  }

  predicate IsAscii(s: string) {
    forall i :: 0 <= i < |s| ==> (s[i] as int) < 0x80
  }

  lemma {:induction false} Utf8OfAscii(s: string)
    requires IsAscii(s)
    ensures |Utf8(s)| == |s|
    ensures forall i :: 0 <= i < |s| ==> Utf8(s)[i] == (s[i] as int) as byte
  {
    if |s| > 0 {
      Utf8OfAscii(s[1..]);
    }
  }

  // ---------------------------------------------------------------------
  // String `<`: lexicographic by character

  predicate StringLess(a: string, b: string) {
    if |a| == 0 then |b| > 0
    else if |b| == 0 then false
    else if a[0] != b[0] then a[0] < b[0]
    else StringLess(a[1..], b[1..])
  }

  lemma {:induction false} StringLessIrreflexive(a: string)
    ensures !StringLess(a, a)
  {
    if |a| > 0 {
      StringLessIrreflexive(a[1..]);
    }
  }

  lemma {:induction false} StringLessTransitive(a: string, b: string, c: string)
    requires StringLess(a, b) && StringLess(b, c)
    ensures StringLess(a, c)
  {
    if |a| > 0 && |b| > 0 && |c| > 0 && a[0] == b[0] == c[0] {
      StringLessTransitive(a[1..], b[1..], c[1..]);
    }
  }

  lemma {:induction false} StringLessTotal(a: string, b: string)
    requires a != b
    ensures StringLess(a, b) || StringLess(b, a)
  {
    if |a| > 0 && |b| > 0 && a[0] == b[0] {
      assert a == [a[0]] + a[1..] && b == [b[0]] + b[1..];
      StringLessTotal(a[1..], b[1..]);
    }
  }
}

=== FILE: user_notification.dfy ===
/** `UserNotificationTool`: what a local notification for a Mastodon
    notification says, the payload it carries in the notification's user
    info, and the dock-tile counter. The notification center, the dock
    tile and the main queue are not part of this model; attributed text is
    its plain string, `ellipsedPrefix(maxLength: 80)` is a function
    parameter, and so are `UUID`'s string form and parser. */
module UserNotifications {
  import opened Wrappers
  import opened Text
  import opened NotificationTypes

  datatype DetailMode = Always | Never | WhenClean

  /** The detail decision of `postNotification(mastodonEvent:...)`. */
  function ShowDetails(mode: DetailMode, isClean: bool): (show: bool)
    ensures mode.Always? ==> show
    ensures mode.Never? ==> !show
    ensures mode.WhenClean? ==> show == isClean
  {
    match mode
    case Always => true
    case Never => false
    case WhenClean => isClean
  }

  /** The parts of a status a notification shows. */
  datatype StatusText = StatusText(content: string, spoiler: string, resolvableURI: string)

  /** The parts of a `MastodonNotification` the text is made from. */
  datatype MastodonEvent = MastodonEvent(
    kind: NotificationType,
    authorName: string,
    isClean: bool,
    status: Option<StatusText>,
    accountAcct: string,
    accountNote: string)

  datatype Reference = AccountReference | StatusReference

  function ReferenceRaw(r: Reference): string {
    match r
    case AccountReference => "account"
    case StatusReference => "status"
  }

  function ParseReference(s: string): (r: Option<Reference>)
    ensures r.Some? ==> ReferenceRaw(r.value) == s
  {
    if s == "account" then Some(AccountReference)
    else if s == "status" then Some(StatusReference)
    else None
  }

  datatype NotificationPayload<U> = NotificationPayload(accountUUID: U, referenceURI: string, referenceType: Reference)

  datatype Posted<U> = Posted(title: string, subtitle: Option<string>, message: Option<string>, payload: NotificationPayload<U>)

  const Anonymous: string := "A user"
  const PollTitle: string := "A poll has ended"

  /** The kinds that are posted; bookmark and unknown kinds are not. */
  predicate IsPosted(k: NotificationType) {
    k.Mention? || k.Reblog? || k.Favourite? || k.Follow? || k.Poll?
  }

  /** The actor a title names: the author with details, "A user" without. */
  function ActorName(e: MastodonEvent, mode: DetailMode): string {
    if ShowDetails(mode, e.isClean) then e.authorName else Anonymous
  }

  /** `postNotification(mastodonEvent:receiverName:userAccount:detailMode:)`:
      the notification it posts, if any. */
  function Compose<U>(e: MastodonEvent, receiverName: Option<string>, userAccount: U, mode: DetailMode, ellipsize: string -> string): (r: Option<Posted<U>>)
    ensures r.Some? <==> IsPosted(e.kind)
    ensures e.kind.Mention? ==> r.value.title == ActorName(e, mode) + " mentioned you"
    ensures e.kind.Reblog? ==> r.value.title == ActorName(e, mode) + " boosted your post"
    ensures e.kind.Favourite? ==> r.value.title == ActorName(e, mode) + " favorited your post"
    ensures e.kind.Follow? ==> r.value.title == ActorName(e, mode) + " followed you"
    ensures e.kind.Poll? ==> r.value.title == PollTitle
    ensures r.Some? && e.kind.Follow? ==> (r.value.message.Some? <==> ShowDetails(mode, e.isClean))
    ensures r.Some? && e.kind.Follow? && ShowDetails(mode, e.isClean) ==> r.value.message == Some(ellipsize(e.accountNote))
    ensures r.Some? && !e.kind.Follow? ==> (r.value.message.Some? <==> e.status.Some?)
    ensures r.Some? && !e.kind.Follow? && e.status.Some? ==>
      r.value.message == Some(ellipsize(if ShowDetails(mode, e.isClean) then e.status.value.content else e.status.value.spoiler))
    ensures r.Some? ==> r.value.subtitle == (if receiverName.Some? then Some("For " + receiverName.value) else None)
    ensures r.Some? ==> r.value.payload == PayloadFor(e, userAccount)
  {
    var show := ShowDetails(mode, e.isClean);
    var actor := ActorName(e, mode);
    var statusText := if e.status.None? then None
                      else Some(ellipsize(if show then e.status.value.content else e.status.value.spoiler));
    var subtitle := if receiverName.Some? then Some("For " + receiverName.value) else None;
    var payload := PayloadFor(e, userAccount);
    match e.kind
    case Mention => Some(Posted(actor + " mentioned you", subtitle, statusText, payload))
    case Reblog => Some(Posted(actor + " boosted your post", subtitle, statusText, payload))
    case Favourite => Some(Posted(actor + " favorited your post", subtitle, statusText, payload))
    case Follow => Some(Posted(actor + " followed you", subtitle, if show then Some(ellipsize(e.accountNote)) else None, payload))
    case Poll => Some(Posted(PollTitle, subtitle, statusText, payload))
    case _ => None
  }

  /** Reads the notification kind back from a posted title. */
  function KindOfTitle(title: string): Option<NotificationType> {
    if title == PollTitle then Some(Poll)
    else if IsSuffix(" mentioned you", title) then Some(Mention)
    else if IsSuffix(" boosted your post", title) then Some(Reblog)
    else if IsSuffix(" favorited your post", title) then Some(Favourite)
    else if IsSuffix(" followed you", title) then Some(Follow)
    else None
  }

  /** A string that ends in `x` does not end in a `y` that differs from
      `x` at the `k`-th character from the end. */
  lemma SuffixesDiffer(a: string, x: string, y: string, k: nat)
    requires 1 <= k <= |x| && k <= |y| && x[|x| - k] != y[|y| - k]
    ensures !IsSuffix(y, a + x)
  {
    var s := a + x;
    assert s[|s| - k] == x[|x| - k];
  }

  lemma EndsWith(a: string, x: string)
    ensures IsSuffix(x, a + x)
  {
    assert (a + x)[|a + x| - |x|..] == x;
  }

  /** `a + x` is not the poll title when `x` ends in another character. */
  lemma NotPollTitle(a: string, x: string)
    requires |x| > 0 && x[|x| - 1] != 'd'
    ensures a + x != PollTitle
  {
    assert (a + x)[|a + x| - 1] == x[|x| - 1];
  }

  lemma MentionTitle(a: string)
    ensures KindOfTitle(a + " mentioned you") == Some(Mention)
  {
    NotPollTitle(a, " mentioned you");
    EndsWith(a, " mentioned you");
  }

  lemma ReblogTitle(a: string)
    ensures KindOfTitle(a + " boosted your post") == Some(Reblog)
  {
    NotPollTitle(a, " boosted your post");
    SuffixesDiffer(a, " boosted your post", " mentioned you", 1);
    EndsWith(a, " boosted your post");
  }

  lemma FavouriteTitle(a: string)
    ensures KindOfTitle(a + " favorited your post") == Some(Favourite)
  {
    NotPollTitle(a, " favorited your post");
    SuffixesDiffer(a, " favorited your post", " mentioned you", 1);
    SuffixesDiffer(a, " favorited your post", " boosted your post", 14);
    EndsWith(a, " favorited your post");
  }

  lemma FollowTitle(a: string)
    ensures KindOfTitle(a + " followed you") == Some(Follow)
  {
    NotPollTitle(a, " followed you");
    SuffixesDiffer(a, " followed you", " mentioned you", 7);
    SuffixesDiffer(a, " followed you", " boosted your post", 1);
    SuffixesDiffer(a, " followed you", " favorited your post", 1);
    EndsWith(a, " followed you");
  }

  /** Every posted title names its kind: whatever the actor's name, no
      two kinds share a title. */
  lemma TitleNamesKind<U>(e: MastodonEvent, receiverName: Option<string>, userAccount: U, mode: DetailMode, ellipsize: string -> string)
    requires IsPosted(e.kind)
    ensures KindOfTitle(Compose(e, receiverName, userAccount, mode, ellipsize).value.title) == Some(e.kind)
  {
    var a := ActorName(e, mode);
    match e.kind
    case Mention => MentionTitle(a);
    case Reblog => ReblogTitle(a);
    case Favourite => FavouriteTitle(a);
    case Follow => FollowTitle(a);
    case Poll =>
  }

  /** The payload names the status by its resolvable URI when there is
      one, and the account by its handle otherwise. */
  function PayloadFor<U>(e: MastodonEvent, userAccount: U): (p: NotificationPayload<U>)
    ensures p.accountUUID == userAccount
    ensures e.status.Some? <==> p.referenceType == StatusReference
    ensures p.referenceURI == if e.status.Some? then e.status.value.resolvableURI else e.accountAcct
  {
    if e.status.Some? then NotificationPayload(userAccount, e.status.value.resolvableURI, StatusReference)
    else NotificationPayload(userAccount, e.accountAcct, AccountReference)
  }

  // ---------------------------------------------------------------------
  // The payload in `userInfo`

  /** The property-list values of `userInfo` this model distinguishes. */
  datatype InfoValue = InfoString(s: string) | InfoDictionary(entries: map<string, InfoValue>) | InfoOther

  type UserInfo = map<string, InfoValue>

  const PayloadKey: string := "mastonaut_payload"
  const AccountKey: string := "account_UUID"
  const ReferenceUriKey: string := "reference_URI"
  const ReferenceTypeKey: string := "reference_type"

  /** `UUID.uuidString` and `UUID(uuidString:)`. */
  datatype UuidCodec<!U> = UuidCodec(format: U -> string, parse: string -> Option<U>)

  ghost predicate Inverse<U(!new)>(c: UuidCodec<U>) {
    forall u :: c.parse(c.format(u)) == Some(u)
  }

  /** The `payload` setter: one dictionary under the payload key, or no
      key at all for nil; other entries are kept. */
  function SetPayload<U>(info: UserInfo, p: Option<NotificationPayload<U>>, c: UuidCodec<U>): (r: UserInfo)
    ensures p.None? ==> PayloadKey !in r
    ensures p.Some? ==> PayloadKey in r && r[PayloadKey].InfoDictionary?
    ensures forall k :: k != PayloadKey ==> (k in r <==> k in info) && (k in info ==> r[k] == info[k])
  {
    match p
    case None => info - {PayloadKey}
    case Some(q) =>
      info[PayloadKey := InfoDictionary(map[
        AccountKey := InfoString(c.format(q.accountUUID)),
        ReferenceUriKey := InfoString(q.referenceURI),
        ReferenceTypeKey := InfoString(ReferenceRaw(q.referenceType))])]
  }

  function StringEntry(d: map<string, InfoValue>, k: string): Option<string> {
    if k in d && d[k].InfoString? then Some(d[k].s) else None
  }

  /** `infoToPayload`: nil unless all three entries are present and
      well-formed. */
  function GetPayload<U>(info: UserInfo, c: UuidCodec<U>): (r: Option<NotificationPayload<U>>)
    ensures r.Some? ==> PayloadKey in info && info[PayloadKey].InfoDictionary?
    ensures r.Some? ==>
      var d := info[PayloadKey].entries;
      && StringEntry(d, AccountKey).Some? && c.parse(StringEntry(d, AccountKey).value) == Some(r.value.accountUUID)
      && StringEntry(d, ReferenceUriKey) == Some(r.value.referenceURI)
      && StringEntry(d, ReferenceTypeKey) == Some(ReferenceRaw(r.value.referenceType))
  {
    if PayloadKey !in info || !info[PayloadKey].InfoDictionary? then None
    else
      var d := info[PayloadKey].entries;
      var account := if StringEntry(d, AccountKey).Some? then c.parse(StringEntry(d, AccountKey).value) else None;
      var uri := StringEntry(d, ReferenceUriKey);
      var kind := if StringEntry(d, ReferenceTypeKey).Some? then ParseReference(StringEntry(d, ReferenceTypeKey).value) else None;
      if account.Some? && uri.Some? && kind.Some? then Some(NotificationPayload(account.value, uri.value, kind.value))
      else None
  }

  /** Setting a payload and reading it back gives it back; setting nil
      reads back nil. */
  lemma PayloadRoundTrip<U(!new)>(info: UserInfo, p: Option<NotificationPayload<U>>, c: UuidCodec<U>)
    requires Inverse(c)
    ensures GetPayload(SetPayload(info, p, c), c) == p
  {
    if p.Some? {
      var d := SetPayload(info, p, c)[PayloadKey].entries;
      assert StringEntry(d, AccountKey) == Some(c.format(p.value.accountUUID));
      assert StringEntry(d, ReferenceTypeKey) == Some(ReferenceRaw(p.value.referenceType));
    }
  }

  /** A missing entry makes the read nil. */
  lemma MissingEntryReadsNil<U>(info: UserInfo, c: UuidCodec<U>, k: string)
    requires PayloadKey in info && info[PayloadKey].InfoDictionary?
    requires k in {AccountKey, ReferenceUriKey, ReferenceTypeKey} && k !in info[PayloadKey].entries
    ensures GetPayload(info, c).None?
  {
  }

  // ---------------------------------------------------------------------
  // The dock-tile counter

  /** `updateCount(count:)`: posted notifications accumulate while the app
      is in the background and are cleared when it is active. */
  function UpdateCount(posted: int, appActive: bool, count: int): (r: int)
    ensures appActive ==> r == 0
    ensures !appActive ==> r - posted == count
  {
    if !appActive then posted + count else 0
  }

  /** `resetDockTileBadge()`. */
  function ResetCount(posted: int): (r: int)
    ensures r == 0
  {
    0
  }

  /** The badge label set on every change of the counter. */
  function BadgeLabel(posted: int): (badge: Option<string>)
    ensures badge.None? <==> posted == 0
  {
    if posted == 0 then None else Some(DecimalString(posted))
  }

  /** The badge shows the count itself. */
  lemma BadgeShowsCount(posted: int)
    requires posted != 0
    ensures ParseDecimal(BadgeLabel(posted).value) == Some(posted)
  {
    DecimalRoundTrip(posted);
  }

  /** From a cleared counter, n background postings show n. */
  function PostInBackground(posted: int, n: nat): int
    decreases n
  {
    if n == 0 then posted else PostInBackground(UpdateCount(posted, false, 1), n - 1)
  }

  lemma {:induction false} BackgroundPostingsCount(posted: int, n: nat)
    ensures PostInBackground(posted, n) == posted + n
    decreases n
  {
    if n > 0 {
      BackgroundPostingsCount(posted + 1, n - 1);
    }
  }
}

=== FILE: wrappers.dfy ===
/** Failure-compatible wrappers shared by every module of the model: Swift's
    `Optional` becomes `Option`, and a `throws` function or a `Result`
    completion becomes `Result`. */
module Wrappers {

  datatype Option<+T> = None | Some(value: T) {

    predicate IsFailure() {
      None?
    }

    function PropagateFailure<U>(): Option<U>
      requires None?
    {
      None
    }

    function Extract(): T
      requires Some?
    {
      value
    }

    /** Swift's `x ?? default`. */
    function GetOr(default: T): T {
      match this
      case Some(v) => v
      case None => default
    }
  }

  datatype Result<+T, +E> = Ok(value: T) | Err(error: E) {

    predicate IsFailure() {
      Err?
    }

    function PropagateFailure<U>(): Result<U, E>
      requires Err?
    {
      Err(error)
    }

    function Extract(): T
      requires Ok?
    {
      value
    }

    /** Swift's `try?`: a thrown error becomes `nil`. */
    function ToOption(): Option<T> {
      match this
      case Ok(v) => Some(v)
      case Err(_) => None
    }
  }
}
